=== FILE: README.md ===
# scribetwin style refinement, modelled in Dafny

scribetwin rewrites a blog draft until it reads like one of the authors of an
RSS feed. This project models the decision logic of that pipeline, with the
models abstracted away:

- the corpus is shaped out of the feed (`RssFetcher`);
- per-author style centroids are built over an abstract encoder, with a capped
  embedding cache (`StyleEmbedder`);
- the closest author is found, and style examples are chosen for it
  (`StyleAnalysis`);
- an embedding similarity and a judge's score are combined into one weighted
  mean (`MultiModal`, `LlmServices`);
- the draft is rewritten in a loop until the score reaches the threshold, the
  attempt budget runs out or the score stops improving (`StylePipeline`).

Shared pieces: `Common` holds options, results, insertion-ordered dictionaries
(lists of entries with unique keys) and the configuration with its defaults.
`Text` holds the Python string primitives used: `split()`, `strip()`,
`split(sep)`, `join`, `count`, slicing and `lower()`.

Where the program talks to the outside world, the model takes the outcome as
a parameter:

- the sentence encoder is a function;
- the judge's and the rewriter's replies are values;
- the feed is the decoded JSON value, or the fetch result;
- the HTML cleaner is a function;
- the loop's rewrites and rescorings are indexed functions.

Floating-point numbers are `real`.

## Model

| member | source | states |
|---|---|---|
| Utils.ChunkText | src/utils.py:44-61 | Empty text gives no chunks. A text of at most `chunk_size` words is the single chunk, unchanged. Otherwise chunk k is the words from cursor k·step, for `chunk_size` words, joined by single spaces, and there are just enough chunks for the cursor to pass the last word. Requires overlap < size, without which the loop never ends. |
| Utils.LongChunkWords | src/utils.py:53-58 | Chunk k of the sliding windows holds exactly the words from the k-th cursor position on, at most `chunk_size` of them. |
| Utils.WindowsCover | src/utils.py:53-58 | With a non-negative overlap, every word index lies inside some chunk's window, so the sliding windows lose no word. |
| Utils.ValidateContent | src/utils.py:64-89 | A blank text always gives `(False, "Content is empty")`. The result is valid iff the text is non-blank, the word-count bounds hold (checked only when asked), and at least 30% of the lower-cased words are distinct. The message is empty iff valid. The checks run in the order empty, too short, too long, repetitive. The first failing one reports its own message: "Content too short: n words (min: m)", "Content too long: n words (max: m)" or "Content appears repetitive". |
| Utils.ValidateContentMonotone | src/utils.py:72-82 | A valid text stays valid under looser word-count bounds, or with the count check switched off. |
| Utils.ValidateContentSeesWords | src/utils.py:67-87 | The verdict depends only on the words of the text and their lower-cased forms: texts that split alike get the same verdict and message. |
| Utils.SafeGetNested | src/utils.py:92-106 | With no keys: the data, or the default for `None`. One key into a dictionary gives the entry, and one key into an object gives the attribute; either falls back to the default when missing or `None`. Any key into a boolean, number, string or list gives the default. A `None` met on the way gives the default. The result is the default or not `None`. |
| Utils.SafeGetNestedConcat | src/utils.py:95-106 | A lookup along `k1 + k2` is the lookup along `k2` from where `k1` leads, with a failure along `k1` ending in the default. |
| StyleAnalysis.ExtractStyleFeatures | src/style_analysis.py:4-46 | No features exactly for the empty text. `uses_questions` iff the question count is positive. `uses_em_dash` iff the dash count is positive. Short plus long sentences never exceed the sentence count. There is at least one paragraph. `bold_usage` is at most half the `**` count. |
| StyleAnalysis.ShortAndLongDisjoint | src/style_analysis.py:20-21 | Sentences under 10 words and over 20 words are disjoint classes, so their counts add up to at most the sentence count. |
| StyleAnalysis.SentencesAreClean | src/style_analysis.py:9-13 | Every sentence is non-empty and free of `.`, `!` and `?`. |
| StyleAnalysis.StylePhrases | src/style_analysis.py:53-80 | Exactly one length phrase, chosen by the thresholds 12 and 18. Exactly one formality phrase, chosen by contractions. Each optional phrase is present iff its count exceeds its threshold: exclamations > 2, questions > 2, dashes > 1, bold > 3, lists > 3. |
| StyleAnalysis.StylePhrasesOrdered | src/style_analysis.py:53-80 | The phrases come in the fixed order of the source: length, exclamations, questions, dashes, formality, bold, lists. Their ranks rise strictly, so no phrase appears twice. |
| StyleAnalysis.FormatStyleFeatures | src/style_analysis.py:49-82 | The description is never "neutral style". Splitting it on `"; "` gives back exactly the phrases in their fixed order. Missing features (empty text) read as their defaults. |
| StyleAnalysis.SelectDiverseExamples | src/style_analysis.py:85-114 | Zero examples is a division by zero. Fewer qualifying paragraphs than asked gives the text head `text[:min_length*num]`. Otherwise there are exactly `num` excerpts: excerpt i starts at paragraph i·(len div num), joins 1 to 10 paragraphs, and stops once the cumulative length reaches `min_length`. |
| StyleAnalysis.ExcerptStartsInRange | src/style_analysis.py:97-101 | Every excerpt start i·(len div num) lies inside the paragraph list. |
| StyleEmbedder.EmbedAndNormalize | src/style_embedder.py:32-52 | Exactly one of hits and misses grows, hits iff the text was cached. No entry is overwritten and only the text is added, only while fewer than 1000 are stored, so the cache stays within 1000. A coherent cache returns the normalised embedding. |
| StyleEmbedder.EmbedTwice | src/style_embedder.py:34-37 | Embedding the same text twice gives the same vector, and when the first call stored it the second is a hit that changes no entry. |
| StyleEmbedder.ClearCache | src/style_embedder.py:54-63 | The cache is emptied and both counters reset, the centroids are kept, and the empty cache is coherent with any encoder. |
| StyleEmbedder.CentroidFor | src/style_embedder.py:72-92 | An author gets a centroid iff its text has chunks and the mean of their embeddings is non-zero. |
| StyleEmbedder.SurvivorsLookup | src/style_embedder.py:94-97 | The surviving authors keep unique keys, and each author maps to its own centroid attempt's result. |
| StyleEmbedder.BuildCentroids | src/style_embedder.py:65-102 | An empty corpus is refused with the model untouched. Otherwise the centroids are replaced by exactly the survivors, in corpus order, and "Failed to build any valid centroids" is reported iff none survive. The cache is untouched. |
| StyleEmbedder.AuthorWithCentroidSurvives | src/style_embedder.py:72-100 | An author with text and a non-zero mean embedding always ends up among the centroids, and the build then succeeds. |
| StyleEmbedder.SimilarityToAuthor | src/style_embedder.py:104-114 | An unknown author is an error naming the known ones as Python prints a list of strings, with the model untouched. Otherwise the centroids are kept, and for a coherent cache the score is the dot product of the embedding with that author's centroid. |
| Text.StrRepr | src/style_embedder.py:107-109 | Python's `repr` of a name in the error message: double quotes iff the name holds a single quote and no double quote, otherwise single quotes. The quote and the backslash are escaped, tab, newline and carriage return by name, and other ASCII controls as `\xhh`. |
| Text.StrReprRoundTrip | src/style_embedder.py:107-109 | The text between the quotes of a `repr` reads back as the name, so escaping loses nothing. |
| Text.ReprPlain | src/style_embedder.py:107-109 | A name without quotes, backslashes or control characters is shown as itself in single quotes. |
| Text.ReprDoubleQuoted | src/style_embedder.py:107-109 | A name holding a single quote, and no double quote, backslash or control character, is shown as itself in double quotes, as `"O'Brien"`. |
| StyleEmbedder.FindClosestAuthor | src/style_embedder.py:116-133 | No centroids is an error. Otherwise the score bounds every author's score. The chosen author is the first one with that score, above -1. No author is chosen, with score -1.0, iff every score is at most -1. The result is exactly `Closest`, the left-to-right scan `ClosestOf` that replaces the best only on a strictly higher score. |
| StyleEmbedder.ClosestOfIsFirstBest | src/style_embedder.py:121-133 | The reference scan finds the first strict maximum above -1: its score bounds every author's, and a chosen author is the first to reach it. |
| LlmServices.ExamplesSection | src/llm_services.py:37-44 | Several enabled and more than one given: the first `num_style_examples`, numbered from 1. Otherwise the first example alone. No example at all is an index error. |
| LlmServices.ExamplesSectionIgnoresExtra | src/llm_services.py:38-42 | Examples past the first `num_style_examples` never reach the prompt. |
| LlmServices.RewriteToStyle | src/llm_services.py:15-118 | A missing key raises. A prompt or model failure is re-raised as "Style rewrite failed: …". A blank answer gives back the input unchanged; otherwise the stripped answer. |
| LlmServices.RewritePrompt | src/llm_services.py:28-44 | The style description is built from the first example when feature extraction is on and examples exist, and is empty otherwise. The examples section follows; building it fails iff there is no example. |
| LlmServices.GuidanceSeesFirstExample | src/llm_services.py:31-34 | Example lists with the same first example get the same style description. |
| LlmServices.RewriteNeverBlank | src/llm_services.py:107-114 | The rewrite of a non-blank text is never blank. |
| LlmServices.JudgePrompt | src/llm_services.py:152-166 | The text excerpt is exactly the first 2000 characters of the text. The examples part is empty for no example. It is block 1 for one example, and blocks 1 and 2 joined by the separator for two or more. Each block is "AUTHOR EXAMPLE i:" followed by the example cut to 1500 characters. |
| LlmServices.JudgePromptSeesOnlyExcerpts | src/llm_services.py:152-166 | Texts that agree on their first 2000 characters, and first two examples that agree on their first 1500, give the same prompt. |
| LlmServices.NumberAt | src/llm_services.py:218-222 | A number `[0-9]*\.?[0-9]+` starts at a position iff a digit, or a dot followed by a digit, is there. Its value is non-negative. |
| LlmServices.Search | src/llm_services.py:225-227 | The capture of the leftmost position where the pattern matches, or none iff it matches nowhere. |
| LlmServices.FirstMatch | src/llm_services.py:225-238 | The capture of the first pattern, in list order, that matches anywhere. None iff no pattern matches. |
| LlmServices.Rescale | src/llm_services.py:230-235 | The result is in [0, 1]. Values in [0, 1] are kept; values in (1, 10] are divided by 10 and values in (10, 100] by 100; larger ones become 1 and negative ones 0. |
| LlmServices.RescaleNotMonotone | src/llm_services.py:230-234 | A single witness of the quirk, not a claim about all inputs: 10 reads as a perfect 1.0 while 11 reads as 0.11. The all-inputs behaviour is `Rescale`'s contract. |
| LlmServices.ParseScore | src/llm_services.py:213-238 | The reasoning is the whole answer and the score lies in [0, 1]. With no pattern matching it is 0.5; otherwise it is the rescaled first match. |
| LlmServices.ScoreLabelWins | src/llm_services.py:217-236 | A `score:` label anywhere decides the score, even after an earlier fraction or rating. |
| LlmServices.NoPatternIsNeutral | src/llm_services.py:213-215 | With no pattern matching, the score is the neutral 0.5. |
| LlmServices.LlmSimilarityScore | src/llm_services.py:121-259 | A missing key raises. A cache hit returns the stored pair as stored. A failed call gives `(0.5, "Error: …")` and an empty answer `(0.5, "No response from LLM")`, neither cached. Otherwise the parsed score is returned. With caching on, the new cache is the old one plus that score under the key; with caching off, the cache is unchanged. Existing cache entries are never changed. Scores stay in [0, 1]. |
| LlmServices.CacheRemembersScore | src/llm_services.py:134-145 | With caching on, a parsed score is remembered. Asking again about the same text and first example returns it, whatever the model answers, and leaves the cache unchanged. |
| LlmServices.CacheKeyConflates | src/llm_services.py:134-137 | The key cannot tell text from example: ("a", ["bc"]) asked after ("ab", ["c"])'s score is stored returns that stored score whatever the model says. |
| LlmServices.CacheHitIgnoresReply | src/llm_services.py:134-145 | On a cache hit the model's answer has no influence. |
| MultiModal.Combine | src/multimodal_model.py:60-78 | No score present gives 0.0. Otherwise the weights are normalised by their sum, which fails with a division by zero iff that sum is zero. |
| MultiModal.CombineWithinRange | src/multimodal_model.py:71-75 | With positive weights the combination succeeds and lies between any bounds of the present scores. |
| MultiModal.WeightedSumBounds | src/multimodal_model.py:72-74 | With non-negative weights, scores in [lo, hi] give a weighted sum between lo and hi times the total weight. |
| MultiModal.CombineSingle | src/multimodal_model.py:60-75 | A single score with a non-zero weight is passed through unchanged. |
| MultiModal.CombineEqualWeights | src/multimodal_model.py:63-75 | Equal non-zero weights give the arithmetic mean. |
| MultiModal.CombinePair | src/multimodal_model.py:63-75 | Two scores combine to `(w_e·s_e + w_l·s_l) / (w_e + w_l)`. |
| MultiModal.DefaultCombinationInRange | src/multimodal_model.py:71-75 | With the default weights 0.4 and 0.6, two scores in [0, 1] always combine to a score in [0, 1]. |
| MultiModal.EmbeddingSignal | src/multimodal_model.py:32-43 | A disabled signal is absent and the model untouched. Otherwise the score is present iff the author has a centroid, and a failure is swallowed. The centroids never change. |
| MultiModal.LlmSignal | src/multimodal_model.py:45-57 | A disabled signal is absent. Otherwise the judge's score is present iff the key is set, and a score in [0, 1] keeps the cache within [0, 1]. |
| MultiModal.MethodsUsed | src/multimodal_model.py:39-53 | `embedding` is listed iff that score is present, `llm` likewise, with embedding first. |
| MultiModal.ComputeSimilarity | src/multimodal_model.py:20-87 | The corrected `compute_similarity`: signals are present exactly when enabled and available, `method_used` names exactly them in order, and the reasoning is empty without a judge score. The combined score is the weighted mean of the present scores, 0.0 with none, and an error exactly when their weights sum to zero. The embedding score is exactly the embedding signal's and a judge score with its reasoning is exactly the judge signal's. The new state is the embedding signal's model with the judge signal's cache. Its summary fields never fail to format. |
| MultiModal.FormatError | src/multimodal_model.py:80-85 | `None` accepts only the empty format specification. A float accepts exactly the specifications of the mini-language `[[fill]align][sign][z][#][0][width][grouping][.precision][type]`, where a dot needs digits and `n` admits no grouping. |
| MultiModal.ConditionalSpecInvalid | src/multimodal_model.py:82-83 | Whatever the subject, `.4f if <subject> else 'N/A'` is not a valid float specification. |
| MultiModal.EmbeddingSpecInvalid | src/multimodal_model.py:82 | The specification written after the colon for the embedding score is not a valid float specification. |
| MultiModal.SummaryAlwaysRaises | src/multimodal_model.py:80-85 | Whatever the embedding score is, present or not, formatting it as written raises. |
| MultiModal.ComputeSimilarityAsWritten | src/multimodal_model.py:20-87 | As written, `compute_similarity` raises on every call. |
| MultiModal.FourDecimalsValid | src/multimodal_model.py:84 | `.4f`, the specification used for the combined score, is valid. |
| MultiModal.SummaryField | src/multimodal_model.py:82-83 | The intended summary field, four decimals or `N/A`, never raises. |
| MultiModal.FindClosestAuthor | src/multimodal_model.py:89-95 | A failure of the embedding model (no centroids) is re-raised as "Author matching failed: …" with the model untouched. With centroids the search succeeds and only the cache changes. The score bounds every author's score, no author comes back iff the score is -1, and a returned author has a centroid. The result is exactly `StyleEmbedder.Closest`. |
| RssFetcher.ValidateRssData | src/rss_fetcher.py:19-34 | The checks run in order and the first failure is reported: not a dictionary, missing `items`, `items` not a list, empty `items` ("RSS feed contains no items"). It succeeds with the items iff they form a non-empty list. |
| RssFetcher.ValidateRssDataRoundTrip | src/rss_fetcher.py:19-34 | A dictionary whose `items` is a list validates to exactly that list, or to the empty-feed error when it is empty, whatever other keys it holds. |
| RssFetcher.ValidateRssDataIdempotent | src/rss_fetcher.py:19-34 | Validating again the items that passed gives the same items. |
| RssFetcher.Author | src/rss_fetcher.py:81 | The stripped author, or `unknown_author` when that is empty, so never empty. |
| RssFetcher.Content | src/rss_fetcher.py:83-87 | The first non-empty of `content`, `content:encoded` and `description`, and empty iff all three are. |
| RssFetcher.ItemText | src/rss_fetcher.py:89-96 | An item is skipped iff its cleaned text is under 50 characters. Otherwise it is a prefix of that text, between 50 and 50000 characters, and the whole text when short enough. |
| RssFetcher.GroupLookup | src/rss_fetcher.py:77-98 | The grouping has unique authors, and each author's list is exactly that author's surviving texts in feed order. Authors without texts are absent. The order of the authors is given by `RssFetcher.GroupOrder`. |
| RssFetcher.GroupOrder | src/rss_fetcher.py:77-98 | The authors of the grouping are the authors of the surviving items in order of first appearance, the order the corpus keeps. |
| RssFetcher.FirstAppearances | src/rss_fetcher.py:77-98 | The reference list of first appearances holds every author of the pairs, and nothing else. |
| RssFetcher.FirstAppearancesDistinct | src/rss_fetcher.py:77-98 | No author appears twice in the list of first appearances. |
| RssFetcher.AuthorBlogs | src/rss_fetcher.py:76-107 | "No valid blog content extracted from RSS feed" is returned iff no item survives. Otherwise the corpus is non-empty and is the per-author join of the grouped texts. |
| RssFetcher.AuthorBlogsLookup | src/rss_fetcher.py:98-107 | The corpus has unique authors. An author is present iff some item of theirs survives, and maps to the blank-line join of exactly those texts in feed order. No value is empty. |
| StylePipeline.RefineLoop | src/style_pipeline.py:155-224 | The loop with its log line corrected. Attempts stay within the budget. The history has attempts + 1 entries, starting with the initial score. Each accepted text is the previous one's non-blank rewrite, scoring more than 0.01 above it. Every accepted score but the last is below the threshold, so the loop never rewrites past it. The stop reason matches the situation (`Stopped`): threshold reached, budget spent, blank rewrite, plateau (candidate dropped) or failure. |
| StylePipeline.LoopLogRaises | src/style_pipeline.py:199-204 | The log line for a rewrite formats the three combined figures and then raises on the embedding field, whatever the scores. |
| StylePipeline.LoggedRescore | src/style_pipeline.py:189-224 | As written, every rescoring inside the loop ends in an exception: the scoring's own, or the log line's. |
| StylePipeline.NoRewriteAccepted | src/style_pipeline.py:155-224 | With the rescoring as written, no run accepts a rewrite. |
| StylePipeline.RefineLoopAsWritten | src/style_pipeline.py:155-224 | The loop as written keeps the draft and its scores. Below the threshold with attempts to spend, it stops on a failure or a blank rewrite. A rewrite that scores stops it with the log line's exception. |
| StylePipeline.HistoryRises | src/style_pipeline.py:207-217 | After n accepted rewrites, the score exceeds the initial one by more than 0.01·n. |
| StylePipeline.ExamplesFor | src/style_pipeline.py:80-91 | Every author gets at least one example. The examples are diverse excerpts with minimum length `style_example_length // num` when several are enabled, otherwise the text head. Zero examples with several enabled is a division by zero. |
| StylePipeline.Prepare | src/style_pipeline.py:77-91 | An empty corpus is refused. The set-up succeeds iff centroids can be built and examples chosen, and then there is at least one centroid. |
| StylePipeline.ReportedIsLastRewrite | src/style_pipeline.py:206-215 | When a result reports a run with n > 0 attempts, the styled blog is the (n - 1)-th rewrite of the text accepted before it. It is not blank, its figures are its own scores from the n-th computation, and it beats the previous accepted score by more than 0.01. |
| StylePipeline.Refine | src/style_pipeline.py:134-259 | Refinement with the closing log line corrected. A draft already at the threshold is returned with 0 attempts. Otherwise the loop's outcome is returned with success. A warning is present iff the final score is below the threshold. The history rises strictly from the initial score to the reported one. The result reports the run it returns (`Reports`): the styled blog is the last text of an accepted chain that starts at the draft, each text the non-blank rewrite of the one before, scoring more than 0.01 above it. After n > 0 attempts the reported figures are exactly the n-th similarity computation's scores of that text; with none they are the initial scores. The run stopped for a reason the loop would stop for (`Stopped`), so below the threshold the rewriter is asked until the budget, a blank rewrite, a plateau or a failure ends it. |
| StylePipeline.ClosingLogRaises | src/style_pipeline.py:231-237 | The closing log line formats the two combined figures and then raises on the embedding field, whatever the scores. |
| StylePipeline.RefineAsWritten | src/style_pipeline.py:134-261 | As written, refinement succeeds iff the draft is already at the threshold. Every other draft ends in the closing log line's exception. |
| StylePipeline.MatchAuthor | src/style_pipeline.py:94-96 | Once centroids exist, matching the draft never fails. The matched author has a centroid, and no author is matched iff the score is -1. The match is exactly `StyleEmbedder.Closest`. |
| StylePipeline.MatchAndRefine | src/style_pipeline.py:93-273 | After set-up, with the opening log line corrected. A failure (no examples for the matched author, or a failed initial score) keeps the draft, makes no attempt and carries an error. A success names an author that has a centroid, stays within the rewrite budget, and warns iff below the threshold. Its history is one longer than the attempts, strictly rising, and ends at the final score. A success also requires a successful initial scoring; it reports an accepted rewrite chain from the draft (`Reports`). Its figures are the scores that the similarity computation numbered by the attempt count gives the styled blog. It succeeds iff the author `StyleEmbedder.Closest` matches has examples and the initial scoring succeeds. Otherwise it gives the no-examples record for that author and score, or the failure record with the scoring error. A success names that author, ended its run as `Stopped` says, and returns the draft unchanged with 0 attempts when the draft already meets the threshold. |
| StylePipeline.OpeningLogRaises | src/style_pipeline.py:121-126 | The opening log line formats the combined score and then raises on the embedding field, whatever the scores. |
| StylePipeline.MatchAndRefineAsWritten | src/style_pipeline.py:93-273 | As written, every draft that reaches the opening log line comes back unchanged as a failure with an error. |
| StylePipeline.StyleRefinementPipeline | src/style_pipeline.py:22-273 | The pipeline with its log lines corrected. A blank draft gives the fixed record, and a failed fetch or build gives the failure record with the draft. Zero examples with several enabled fails. A failure never rewrites and has 0 attempts. A success names an author, stays within the budget, and warns iff below the threshold, with a strictly rising history. A success's styled blog is the last of an accepted rewrite chain from the draft (`Reports`). Its figures are that text's own scores, from the computation numbered by the attempt count, and the initial similarity is the draft's. Every set-up exit gives `Setup`'s record. Once set up, a run succeeds iff the matched author has examples and the draft scores, and a success ended its run as `Stopped` says. A draft that already meets the threshold comes back unchanged with 0 attempts. |
| StylePipeline.Setup | src/style_pipeline.py:22-91 | A blank draft, a failed fetch, an empty corpus and a failed preparation each end the pipeline with a failure that makes no attempt. Going on means a non-blank draft and at least one centroid. |
| StylePipeline.StyleRefinementPipelineAsWritten | src/style_pipeline.py:22-273 | As written, no run succeeds and none makes an attempt. A non-blank draft comes back unchanged with an error. |

## Left out

- Network and file I/O are left out: `get_retry_session`, `session.get`, the on-disk JSON caches and their MD5 file names. The feed arrives as a decoded value or a fetch result. The judge's cache is a map keyed by the text itself rather than its hash.
- `clean_html` (BeautifulSoup) is a function parameter.
- The encoder (SentenceTransformer), its mean and its normalisation are fields of `StyleEmbedder.Encoder`. Vectors are sequences of reals.
- The Gemini client is left out: the model's reply is a value (text, output text or a raised error). The prompt texts, model names, temperatures and token limits are not modelled; only the parts the program computes (examples section, excerpts) are.
- Logging, `asyncio.sleep`, `asyncio.to_thread` and tracebacks are left out. The failure record's message is the exception's message, without the `TypeName: ` prefix.
- `src/app.py`, `src/agents.py` and `src/config.py` are not part of this model. The configuration defaults are `Common.DefaultConfig`.
- Floating-point rounding is left out: scores are exact reals, so the 0.01 plateau test and the 0.3 repetition ratio are exact. Dot products run over the common length of the two vectors.
- `lower()` is ASCII lower-casing and `isspace()` is the Unicode white-space set. Case-insensitive regex matching is likewise ASCII.
- LlmServices.NumberAt: models the number regex `[0-9]*\.?[0-9]+` with a greedy scan that prefers a fractional part. It does not model the regex engine's backtracking. The `float()` of a matched number never fails, so the `except ValueError: continue` branch is unreachable and not modelled.
- RssFetcher.ItemText: items are maps of string fields. An item that is not a dictionary, or whose `author` is not a string, raises in the source and is not modelled.
- Utils.SafeGetNested: objects expose only the attributes listed in the value, not Python's built-in attributes (a string's `upper`, say).
- StyleEmbedder.BuildCentroids: an exception raised by the encoder for one author (skipped in the source) is not modelled; the encoder is total.
- StylePipeline.StyleRefinementPipeline: the rewrites and similarity scores it sees are indexed parameters, not calls of `RewriteToStyle` and `ComputeSimilarity` with threaded cache state. The ghost `run` it returns exists only to state which accepted rewrites the result reports.
- StylePipeline.MatchAndRefine: the initial score is a parameter rather than a call of `compute_similarity`, and the cache update of the author match is dropped, as the pipeline never reads it again.
- StylePipeline.ExamplesFor: a negative `num_style_examples` or `style_example_length` is outside the model (both are natural numbers).
- The draft validation calls of the pipeline only log, so they are not modelled.
- StylePipeline.RefineLoop: models the loop with its rewrite log line (src/style_pipeline.py:199-204) formatting the optional scores as intended. The loop as written is `StylePipeline.RefineLoopAsWritten`, and the difference is a finding below.
- StylePipeline.Refine: models refinement with the closing log line (src/style_pipeline.py:231-237) corrected. As written it is `StylePipeline.RefineAsWritten`.
- StylePipeline.MatchAndRefine: models matching and refining with the opening log line (src/style_pipeline.py:121-126) corrected. As written it is `StylePipeline.MatchAndRefineAsWritten`.
- StylePipeline.StyleRefinementPipeline: models the pipeline with all three log lines corrected. As written it is `StylePipeline.StyleRefinementPipelineAsWritten`, which never succeeds.
- StylePipeline.LoggedRescore: as written, the current score in the rewrite log line is the draft's. That is the only current score the loop as written ever has.
- MultiModal.FormatError: a missing precision and grouping with `n` get the generic invalid-specifier message, not Python's specific ones.
- Text.StrRepr: non-ASCII characters are kept as they are. Python escapes the non-printable ones as `\x`, `\u` or `\U`.

## Findings

| source | as written | input that shows it | evidently intended | confidence | as-written member | corrected member |
|---|---|---|---|---|---|---|
| src/multimodal_model.py:80-85 | The summary log line formats the optional scores as `{x:.4f if x else 'N/A'}`. Everything after the colon is taken as the format specification, which is invalid for a float and non-empty for `None`. So the f-string raises `ValueError` or `TypeError` on every call, and `compute_similarity` never returns. The same pattern recurs in three log lines of the pipeline; see the rows below. | any call, e.g. embedding score 0.5: specification `.4f if results['embedding_score'] else 'N/A'` | format the score with `.4f` when present and non-zero, else print `N/A` | high; not executed | MultiModal.ComputeSimilarityAsWritten | MultiModal.ComputeSimilarity |
| src/style_pipeline.py:121-126 | The opening log line formats the initial optional scores as `{x:.4f if x else 'N/A'}`, which raises whatever the scores are. The outer handler at lines 261-273 then returns the failure record, so no run that reaches scoring succeeds, not even one already at the threshold. | a non-blank draft whose matched author has examples and whose initial combined score is 0.9, above the default threshold 0.80. The line is observable only once `compute_similarity` is corrected: as written, line 113 raises first (the row above) and the failure record carries that error | log the scores and go on to the threshold check, returning the draft with success | high; not executed | StylePipeline.StyleRefinementPipelineAsWritten | StylePipeline.StyleRefinementPipeline |
| src/style_pipeline.py:199-204 | The log line after each rescoring raises on its embedding field inside the `try`, and the `except` at lines 222-224 ends the loop, so no rewrite is ever accepted. | initial score 0.5, threshold 0.80, a first rewrite that scores 0.7. The line is observable only once `compute_similarity` is corrected: as written, line 113 raises before the loop is reached (first row) and the failure record carries that error | accept the rewrite, which improves by more than 0.01, and try again | high; not executed | StylePipeline.RefineLoopAsWritten | StylePipeline.RefineLoop |
| src/style_pipeline.py:231-237 | The closing log line raises on its embedding field outside the loop's `try`, so every refinement of a draft below the threshold ends in the failure record. | initial score 0.5, threshold 0.80, any rewrites. The line is observable only once `compute_similarity` is corrected: as written, line 113 raises first (first row) and the failure record carries that error | return the last accepted text with success and the threshold warning | high; not executed | StylePipeline.RefineAsWritten | StylePipeline.Refine |

=== FILE: common.dfy ===
/**
 Shared building blocks: optional values, results carrying an error message,
 and insertion-ordered association lists (the model of a Python dict whose
 iteration order matters).
 */
module Common {

  datatype Option<+T> = None | Some(value: T)

  /** The outcome of an operation that may raise; `Err` carries the message. */
  datatype Result<+T> = Ok(value: T) | Err(msg: string)

  /** One key/value pair of an insertion-ordered dictionary. */
  datatype Entry<K, V> = Entry(key: K, value: V)

  function Keys<K, V>(es: seq<Entry<K, V>>): (ks: seq<K>)
    ensures |ks| == |es|
    ensures forall i :: 0 <= i < |es| ==> ks[i] == es[i].key
  {
    if |es| == 0 then [] else [es[0].key] + Keys(es[1..])
  }

  /** No key occurs twice, as in a Python dict. */
  predicate UniqueKeys<K(==), V>(es: seq<Entry<K, V>>)
  {
    forall i, j :: 0 <= i < j < |es| ==> es[i].key != es[j].key
  }

  predicate HasKey<K(==), V>(es: seq<Entry<K, V>>, k: K)
  {
    exists i :: 0 <= i < |es| && es[i].key == k
  }

  /** `d.get(k)`: the value stored under `k`, or None. */
  function Lookup<K(==), V>(es: seq<Entry<K, V>>, k: K): (r: Option<V>)
    ensures r.None? <==> !HasKey(es, k)
    ensures r.Some? ==> exists i :: 0 <= i < |es| && es[i].key == k && es[i].value == r.value
  {
    if |es| == 0 then None
    else if es[0].key == k then Some(es[0].value)
    else
      var r := Lookup(es[1..], k);
      assert forall i :: 1 <= i < |es| ==> es[i] == es[1..][i - 1];
      r
  }

  /** In a dictionary with unique keys, the lookup finds the value at the key's position. */
  lemma {:induction false} LookupAt<K, V>(es: seq<Entry<K, V>>, i: nat)
    requires UniqueKeys(es)
    requires i < |es|
    ensures Lookup(es, es[i].key) == Some(es[i].value)
  {
    if i > 0 {
      assert es[0].key != es[i].key;
      assert es[1..][i - 1] == es[i];
      LookupAt(es[1..], i - 1);
    }
  }

  /** Python's `a // b` for a non-negative `a` and a positive `b`. */
  function FloorDiv(a: nat, b: nat): nat
    requires b > 0
  {
    a / b
  }

  /** `a * b` on counts. */
  function Times(a: nat, b: nat): nat
  {
    a * b
  }

  /** The settings the modelled code reads, with the defaults of `Config`.
      Counts that the program only compares or slices with are natural
      numbers here. */
  datatype Config = Config(
    chunkSize: nat,
    chunkOverlap: int,
    similarityThreshold: real,
    maxRewriteAttempts: nat,
    styleExampleLength: nat,
    useMultipleStyleExamples: bool,
    numStyleExamples: nat,
    extractStyleFeatures: bool,
    useLlmSimilarity: bool,
    useEmbeddingSimilarity: bool,
    llmSimilarityWeight: real,
    embeddingSimilarityWeight: real,
    cacheLlmScores: bool,
    minWordCount: int,
    maxWordCount: int)

  const DefaultConfig := Config(
    chunkSize := 500,
    chunkOverlap := 50,
    similarityThreshold := 0.80,
    maxRewriteAttempts := 3,
    styleExampleLength := 4000,
    useMultipleStyleExamples := true,
    numStyleExamples := 3,
    extractStyleFeatures := true,
    useLlmSimilarity := true,
    useEmbeddingSimilarity := true,
    llmSimilarityWeight := 0.6,
    embeddingSimilarityWeight := 0.4,
    cacheLlmScores := true,
    minWordCount := 150,
    maxWordCount := 400)
}

=== FILE: llm_services.dfy ===
/**
 The two model-backed services: the style rewrite and the judge that scores
 how closely a text matches an author. The model itself is a parameter: its
 reply (the `text` and `output_text` attributes, or the exception it raised)
 is given, and what the services do with it is modelled: the examples section
 of the rewrite prompt, the fallback to the input on an empty rewrite, the
 judge's excerpt truncation, its score cache, and the parsing, rescaling and
 clamping of the judge's score.
 */
module LlmServices {
  import opened Common
  import opened Text
  import Utils
  import StyleAnalysis

  /** What a call to the model produced. */
  datatype Reply =
    | Reply(text: Option<string>, outputText: Option<string>)
    | Raised(error: string)

  /** `getattr(response, "text", None) or getattr(response, "output_text", None) or ""`. */
  function Output(reply: Reply): (out: string)
    requires reply.Reply?
    ensures out != "" ==> Some(out) == reply.text || Some(out) == reply.outputText
    ensures out == "" <==>
      (reply.text.None? || reply.text.value == "") && (reply.outputText.None? || reply.outputText.value == "")
  {
    if reply.text.Some? && reply.text.value != "" then reply.text.value
    else if reply.outputText.Some? && reply.outputText.value != "" then reply.outputText.value
    else ""
  }

  const MissingKey := "GOOGLE_API_KEY environment variable not set"

  /* ---------------------------------------------------------------------- */
  /* Rewrite                                                                 */
  /* ---------------------------------------------------------------------- */

  function StyleBlocks(examples: seq<string>, offset: nat): (bs: seq<string>)
    ensures |bs| == |examples|
    ensures forall i :: 0 <= i < |bs| ==> bs[i] == "STYLE EXAMPLE " + NatToString(offset + i + 1) + ":\n" + examples[i]
  {
    if |examples| == 0 then []
    else ["STYLE EXAMPLE " + NatToString(offset + 1) + ":\n" + examples[0]] + StyleBlocks(examples[1..], offset + 1)
  }

  /** The examples section of the rewrite prompt: numbered blocks for the
      first `numStyleExamples` examples when several are enabled and given,
      otherwise the first example alone; no example at all fails indexing. */
  function ExamplesSection(examples: seq<string>, cfg: Config): (r: Result<string>)
    ensures r.Err? <==> |examples| == 0
    ensures cfg.useMultipleStyleExamples && |examples| > 1 ==>
      r == Ok(Join("\n\n", StyleBlocks(examples[..Utils.Min(cfg.numStyleExamples, |examples|)], 0)))
    ensures |examples| == 1 || (!cfg.useMultipleStyleExamples && |examples| > 0) ==>
      r == Ok("STYLE EXAMPLE:\n" + examples[0])
  {
    if cfg.useMultipleStyleExamples && |examples| > 1 then
      Ok(Join("\n\n", StyleBlocks(examples[..Utils.Min(cfg.numStyleExamples, |examples|)], 0)))
    else if |examples| == 0 then Err("list index out of range")
    else Ok("STYLE EXAMPLE:\n" + examples[0])
  }

  /** Examples past the first `numStyleExamples` never reach the prompt. */
  lemma ExamplesSectionIgnoresExtra(examples: seq<string>, extra: seq<string>, cfg: Config)
    requires cfg.useMultipleStyleExamples
    requires 1 < cfg.numStyleExamples <= |examples|
    ensures ExamplesSection(examples + extra, cfg) == ExamplesSection(examples, cfg)
  {
    assert (examples + extra)[..cfg.numStyleExamples] == examples[..cfg.numStyleExamples];
  }

  /** The style description put into the prompt: the described features of
      the first example when feature extraction is on, else empty. */
  function StyleGuidance(examples: seq<string>, cfg: Config): (g: string)
    ensures g != "" <==> cfg.extractStyleFeatures && |examples| > 0
  {
    if cfg.extractStyleFeatures && |examples| > 0 then
      StyleAnalysis.FormatStyleFeatures(StyleAnalysis.ExtractStyleFeatures(examples[0]))
    else ""
  }

  /** The variable parts of the rewrite prompt built from the examples. */
  datatype RewriteInput = RewriteInput(styleDescription: string, examplesSection: string)

  /** The style description, then the examples section; the latter fails for
      no examples at all. */
  function RewritePrompt(examples: seq<string>, cfg: Config): (r: Result<RewriteInput>)
    ensures r.Err? <==> |examples| == 0
    ensures r.Ok? ==> r.value.styleDescription == StyleGuidance(examples, cfg)
    ensures r.Ok? ==> ExamplesSection(examples, cfg) == Ok(r.value.examplesSection)
  {
    var description := StyleGuidance(examples, cfg);
    match ExamplesSection(examples, cfg)
    case Err(e) => Err(e)
    case Ok(section) => Ok(RewriteInput(description, section))
  }

  /** The style description reads the first example only. */
  lemma GuidanceSeesFirstExample(e1: seq<string>, e2: seq<string>, cfg: Config)
    requires |e1| > 0 && |e2| > 0 && e1[0] == e2[0]
    ensures StyleGuidance(e1, cfg) == StyleGuidance(e2, cfg)
  {
  }

  const RewriteFailed := "Style rewrite failed: "

  /** The rewrite made of a reply: the stripped answer, or the input itself
      when the answer is blank. */
  function Rewritten(text: string, reply: Reply): (r: string)
    requires reply.Reply?
    ensures IsBlank(Output(reply)) ==> r == text
    ensures !IsBlank(Output(reply)) ==> r == Strip(Output(reply)) && r != ""
  {
    var result := Strip(Output(reply));
    if result == "" then text else result
  }

  /** `rewrite_to_style`: a missing key raises; a failure while building the
      prompt or calling the model is re-raised as a rewrite failure; an empty
      (after stripping) answer gives back the input unchanged; otherwise the
      stripped answer. */
  function RewriteToStyle(text: string, examples: seq<string>, cfg: Config, apiKey: string, reply: Reply)
    : (r: Result<string>)
    ensures apiKey == "" ==> r == Err(MissingKey)
    ensures apiKey != "" && |examples| == 0 ==> r == Err(RewriteFailed + "list index out of range")
    ensures apiKey != "" && |examples| > 0 && reply.Raised? ==> r == Err(RewriteFailed + reply.error)
    ensures r.Ok? <==> apiKey != "" && |examples| > 0 && reply.Reply?
    ensures r.Ok? ==> r.value == Rewritten(text, reply)
  {
    if apiKey == "" then Err(MissingKey)
    else
      match RewritePrompt(examples, cfg)
      case Err(e) => Err(RewriteFailed + e)
      case Ok(_) =>
        match reply
        case Raised(e) => Err(RewriteFailed + e)
        case Reply(_, _) => Ok(Rewritten(text, reply))
  }

  /** A rewrite of a non-blank text is never blank: an empty answer falls back
      to the text, and a stripped non-empty answer starts with a non-space. */
  lemma RewriteNeverBlank(text: string, examples: seq<string>, cfg: Config, apiKey: string, reply: Reply)
    requires !IsBlank(text)
    requires RewriteToStyle(text, examples, cfg, apiKey, reply).Ok?
    ensures !IsBlank(RewriteToStyle(text, examples, cfg, apiKey, reply).value)
  {
    var r := RewriteToStyle(text, examples, cfg, apiKey, reply).value;
    if r != text {
      assert r != "" && !IsSpace(r[0]);
    }
  }

  /* ---------------------------------------------------------------------- */
  /* Judge prompt                                                            */
  /* ---------------------------------------------------------------------- */

  const ExcerptLimit: nat := 1500
  const TextLimit: nat := 2000

  /** One example as the judge sees it: numbered, cut to 1500 characters. */
  function JudgeBlock(number: nat, example: string): string
  {
    "AUTHOR EXAMPLE " + NatToString(number) + ":\n" + Take(example, ExcerptLimit)
  }

  function AuthorBlocks(examples: seq<string>, offset: nat): (bs: seq<string>)
    ensures |bs| == |examples|
    ensures forall i :: 0 <= i < |bs| ==> bs[i] == JudgeBlock(offset + i + 1, examples[i])
  {
    if |examples| == 0 then []
    else [JudgeBlock(offset + 1, examples[0])] + AuthorBlocks(examples[1..], offset + 1)
  }

  /** The variable parts of the judge prompt: the first two examples, each cut
      to 1500 characters, and the text cut to 2000. */
  datatype JudgeInput = JudgeInput(examplesText: string, textExcerpt: string)

  function JudgePrompt(text: string, examples: seq<string>): (p: JudgeInput)
    ensures p.textExcerpt == text[..Utils.Min(|text|, TextLimit)]
    ensures |examples| == 0 ==> p.examplesText == ""
    ensures |examples| == 1 ==> p.examplesText == JudgeBlock(1, examples[0])
    ensures |examples| >= 2 ==>
      p.examplesText == JudgeBlock(1, examples[0]) + "\n\n---\n\n" + JudgeBlock(2, examples[1])
  {
    var blocks := AuthorBlocks(examples[..Utils.Min(2, |examples|)], 0);
    assert |examples| >= 2 ==>
      && blocks[1..] == [blocks[1]]
      && Join("\n\n---\n\n", blocks[1..]) == blocks[1]
      && examples[..2][0] == examples[0] && examples[..2][1] == examples[1];
    JudgeInput(Join("\n\n---\n\n", blocks), Take(text, TextLimit))
  }

  /** The judge sees only the excerpts: two calls whose texts agree on the
      first 2000 characters and whose first two examples agree on their first
      1500 characters get the same prompt. */
  lemma JudgePromptSeesOnlyExcerpts(t1: string, e1: seq<string>, t2: string, e2: seq<string>)
    requires Take(t1, TextLimit) == Take(t2, TextLimit)
    requires Utils.Min(2, |e1|) == Utils.Min(2, |e2|)
    requires forall i :: 0 <= i < Utils.Min(2, |e1|) ==> Take(e1[i], ExcerptLimit) == Take(e2[i], ExcerptLimit)
    ensures JudgePrompt(t1, e1) == JudgePrompt(t2, e2)
  {
    var n := Utils.Min(2, |e1|);
    var b1 := AuthorBlocks(e1[..n], 0);
    var b2 := AuthorBlocks(e2[..n], 0);
    assert forall i :: 0 <= i < n ==> b1[i] == b2[i];
    assert b1 == b2;
  }

  /* ---------------------------------------------------------------------- */
  /* Score parsing                                                           */
  /* ---------------------------------------------------------------------- */

  predicate IsDigit(c: char)
  {
    '0' <= c <= '9'
  }

  /** Length of the run of digits starting at `p`. */
  function DigitRun(s: string, p: nat): (n: nat)
    requires p <= |s|
    ensures p + n <= |s|
    ensures forall i :: p <= i < p + n ==> IsDigit(s[i])
    ensures p + n == |s| || !IsDigit(s[p + n])
    decreases |s| - p
  {
    if p < |s| && IsDigit(s[p]) then 1 + DigitRun(s, p + 1) else 0
  }

  function Pow10(n: nat): (r: nat)
    ensures r >= 1
  {
    if n == 0 then 1 else 10 * Pow10(n - 1)
  }

  /** The decimal value of a string of digits. */
  function DigitsValue(d: string): nat
    requires forall i :: 0 <= i < |d| ==> IsDigit(d[i])
  {
    if |d| == 0 then 0
    else
      var last := d[|d| - 1];
      assert IsDigit(last);
      DigitsValue(d[..|d| - 1]) * 10 + (last as int - '0' as int)
  }

  /** A number `[0-9]*\.?[0-9]+` matched at `p`, as the regular expression
      engine prefers it, with the index just past it. */
  datatype Number = Number(value: real, end: nat)

  function NumberAt(s: string, p: nat): (r: Option<Number>)
    requires p <= |s|
    ensures r.Some? ==> p < r.value.end <= |s| && r.value.value >= 0.0
    ensures r.Some? <==> (p < |s| && IsDigit(s[p])) || (p + 1 < |s| && s[p] == '.' && IsDigit(s[p + 1]))
  {
    var whole := DigitRun(s, p);
    var q := p + whole;
    if q < |s| && s[q] == '.' && DigitRun(s, q + 1) > 0 then
      var frac := DigitRun(s, q + 1);
      var value := DigitsValue(s[p..q]) as real + DigitsValue(s[q + 1..q + 1 + frac]) as real / Pow10(frac) as real;
      Some(Number(value, q + 1 + frac))
    else if whole > 0 then Some(Number(DigitsValue(s[p..q]) as real, q))
    else None
  }

  /** The first index at or after `p` that is not white space. */
  function SkipSpaces(s: string, p: nat): (q: nat)
    requires p <= |s|
    ensures p <= q <= |s|
    ensures forall i :: p <= i < q ==> IsSpace(s[i])
    ensures q == |s| || !IsSpace(s[q])
    decreases |s| - p
  {
    if p < |s| && IsSpace(s[p]) then SkipSpaces(s, p + 1) else p
  }

  /** The judge's score patterns, matched ignoring case: a label followed by
      optional space and a number, or a number written as a fraction of 1.0. */
  datatype Pattern = ScoreLabel | RatingLabel | OutOfOne
  {
    /** The label a labelled pattern expects, in lower case. */
    function Prefix(): string
    {
      match this
      case ScoreLabel => "score:"
      case RatingLabel => "rating:"
      case OutOfOne => ""
    }
  }

  /** The five patterns in the order they are tried. The first three differ
      only in case, so under case-insensitive matching they are the same. */
  const ScorePatterns: seq<Pattern> :=
    [ScoreLabel, ScoreLabel, ScoreLabel, OutOfOne, RatingLabel]

  /** The value a pattern captures when matched starting exactly at `p`. */
  function MatchAt(pat: Pattern, s: string, p: nat): (r: Option<real>)
    requires p <= |s|
    ensures r.Some? ==> r.value >= 0.0
  {
    if pat.OutOfOne? then FractionAt(s, p)
    else
      var prefix := pat.Prefix();
      if p + |prefix| <= |s| && Lower(s[p..p + |prefix|]) == prefix then
        match NumberAt(s, SkipSpaces(s, p + |prefix|))
        case Some(n) => Some(n.value)
        case None => None
      else None
  }

  /** A number followed by `/`, optional space and `1.0`, spaces allowed
      around the slash. */
  function FractionAt(s: string, p: nat): (r: Option<real>)
    requires p <= |s|
    ensures r.Some? ==> r.value >= 0.0
  {
    match NumberAt(s, p)
    case None => None
    case Some(n) =>
      var slash := SkipSpaces(s, n.end);
      if slash < |s| && s[slash] == '/' && OccursAt(s, "1.0", SkipSpaces(s, slash + 1)) then Some(n.value)
      else None
  }

  /** `[f(p), f(p + 1), ..., f(n)]`. */
  function Tabulate(f: nat -> Option<real>, n: nat, p: nat): (ms: seq<Option<real>>)
    requires p <= n
    ensures |ms| == n + 1 - p
    ensures forall i :: 0 <= i < |ms| ==> ms[i] == f(p + i)
    decreases n - p
  {
    if p == n then [f(p)] else [f(p)] + Tabulate(f, n, p + 1)
  }

  /** The first present value of a sequence of attempts. */
  function Leftmost(ms: seq<Option<real>>): (r: Option<real>)
    ensures r.None? <==> forall i :: 0 <= i < |ms| ==> ms[i].None?
    ensures r.Some? ==> exists i :: 0 <= i < |ms| && ms[i] == r && forall j :: 0 <= j < i ==> ms[j].None?
  {
    if |ms| == 0 then None
    else if ms[0].Some? then ms[0]
    else
      var r := Leftmost(ms[1..]);
      assert forall i :: 1 <= i < |ms| ==> ms[i] == ms[1..][i - 1];
      if r.None? then r
      else
        var i :| 0 <= i < |ms[1..]| && ms[1..][i] == r && forall j :: 0 <= j < i ==> ms[1..][j].None?;
        assert ms[i + 1] == r;
        r
  }

  /** The match of a pattern at each start, `None` past the end. */
  function Matcher(pat: Pattern, s: string): nat -> Option<real>
  {
    (q: nat) => if q <= |s| then MatchAt(pat, s, q) else None
  }

  /** `re.search`: the capture of the leftmost match in `s`. */
  function Search(pat: Pattern, s: string): (r: Option<real>)
    ensures r.None? <==> forall q :: 0 <= q <= |s| ==> MatchAt(pat, s, q).None?
    ensures r.Some? ==>
      exists q :: 0 <= q <= |s| && MatchAt(pat, s, q) == r && forall q' :: 0 <= q' < q ==> MatchAt(pat, s, q').None?
  {
    var ms := Tabulate(Matcher(pat, s), |s|, 0);
    assert forall q :: 0 <= q <= |s| ==> ms[q] == MatchAt(pat, s, q);
    Leftmost(ms)
  }

  function SearchAll(pats: seq<Pattern>, s: string): (ms: seq<Option<real>>)
    ensures |ms| == |pats|
    ensures forall k :: 0 <= k < |pats| ==> ms[k] == Search(pats[k], s)
  {
    if |pats| == 0 then [] else [Search(pats[0], s)] + SearchAll(pats[1..], s)
  }

  /** The capture of the first pattern, in list order, that matches anywhere. */
  function FirstMatch(pats: seq<Pattern>, s: string): (r: Option<real>)
    ensures r.None? <==> forall k :: 0 <= k < |pats| ==> Search(pats[k], s).None?
    ensures r.Some? ==>
      exists k :: 0 <= k < |pats| && Search(pats[k], s) == r && forall k' :: 0 <= k' < k ==> Search(pats[k'], s).None?
  {
    var ms := SearchAll(pats, s);
    Leftmost(ms)
  }

  /** A value above 1 is read as out of 10 up to 10 and as out of 100 up to
      100; the result is clamped into [0, 1]. */
  function Rescale(v: real): (r: real)
    ensures 0.0 <= r <= 1.0
    ensures 0.0 <= v <= 1.0 ==> r == v
    ensures 1.0 < v <= 10.0 ==> r * 10.0 == v
    ensures 10.0 < v <= 100.0 ==> r * 100.0 == v
    ensures v > 100.0 ==> r == 1.0
    ensures v < 0.0 ==> r == 0.0
  {
    var scaled :=
      if v > 1.0 then (if v <= 10.0 then v / 10.0 else if v <= 100.0 then v / 100.0 else v)
      else v;
    if scaled < 0.0 then 0.0 else if scaled > 1.0 then 1.0 else scaled
  }

  /** The rescaling is not monotone: 10 out of 10 is a perfect score, while 11
      is read as out of 100. */
  lemma RescaleNotMonotone()
    ensures Rescale(10.0) == 1.0 && Rescale(11.0) == 0.11
  {
  }

  /** The parsed score and the reasoning (the whole answer): the rescaled
      capture of the first pattern that matches, or 0.5 when none does. */
  function ParseScore(output: string): (r: (real, string))
    ensures r.1 == output
    ensures 0.0 <= r.0 <= 1.0
    ensures FirstMatch(ScorePatterns, output).None? ==> r.0 == 0.5
    ensures FirstMatch(ScorePatterns, output).Some? ==> r.0 == Rescale(FirstMatch(ScorePatterns, output).value)
  {
    match FirstMatch(ScorePatterns, output)
    case None => (0.5, output)
    case Some(v) => (Rescale(v), output)
  }

  /** A `score:` label anywhere in the answer decides the score, even when a
      fraction of 1.0 or a `rating:` label comes earlier. */
  lemma ScoreLabelWins(output: string)
    requires Search(ScoreLabel, output).Some?
    ensures ParseScore(output).0 == Rescale(Search(ScoreLabel, output).value)
  {
    var ms := SearchAll(ScorePatterns, output);
    assert ms[0] == Search(ScoreLabel, output);
  }

  /** When none of the patterns matches anywhere the score is the neutral 0.5. */
  lemma NoPatternIsNeutral(output: string)
    requires Search(ScoreLabel, output).None?
    requires Search(RatingLabel, output).None?
    requires Search(OutOfOne, output).None?
    ensures ParseScore(output).0 == 0.5
  {
    var ms := SearchAll(ScorePatterns, output);
    assert ms[0].None? && ms[1].None? && ms[2].None? && ms[3].None? && ms[4].None?;
  }

  /* ---------------------------------------------------------------------- */
  /* Judge call                                                              */
  /* ---------------------------------------------------------------------- */

  /** Scores remembered per key: the score and the reasoning. */
  type ScoreCache = map<string, (real, string)>

  predicate ScoresInUnit(cache: ScoreCache)
  {
    forall k :: k in cache ==> 0.0 <= cache[k].0 <= 1.0
  }

  /** The cache key: the text followed by the first example, if any. */
  function CacheKey(text: string, examples: seq<string>): string
  {
    text + (if |examples| > 0 then examples[0] else "")
  }

  /** `llm_similarity_score`: a missing key raises; a cached score is returned
      as stored; a failing call gives 0.5 with the error, an empty answer 0.5
      with a fixed reason; otherwise the parsed score, remembered when caching
      is on. Only a parsed answer is ever cached. */
  function LlmSimilarityScore(text: string, examples: seq<string>, cfg: Config, apiKey: string,
                              cache: ScoreCache, reply: Reply)
    : (r: Result<((real, string), ScoreCache)>)
    ensures apiKey == "" ==> r == Err(MissingKey)
    ensures apiKey != "" ==> r.Ok?
    ensures apiKey != "" && cfg.cacheLlmScores && CacheKey(text, examples) in cache ==>
      r.value == (cache[CacheKey(text, examples)], cache)
    ensures r.Ok? && !(cfg.cacheLlmScores && CacheKey(text, examples) in cache) ==>
      && (reply.Raised? ==> r.value == ((0.5, "Error: " + reply.error), cache))
      && (reply.Reply? && Output(reply) == "" ==> r.value == ((0.5, "No response from LLM"), cache))
      && (reply.Reply? && Output(reply) != "" ==> r.value.0 == ParseScore(Output(reply)))
    ensures r.Ok? && !(cfg.cacheLlmScores && CacheKey(text, examples) in cache) && reply.Reply? && Output(reply) != "" ==>
      r.value.1 == (if cfg.cacheLlmScores then cache[CacheKey(text, examples) := ParseScore(Output(reply))] else cache)
    ensures r.Ok? ==> forall k :: k in r.value.1 ==> k in cache || k == CacheKey(text, examples)
    ensures r.Ok? ==> forall k :: k in cache ==> k in r.value.1 && r.value.1[k] == cache[k]
    ensures r.Ok? && ScoresInUnit(cache) ==> 0.0 <= r.value.0.0 <= 1.0 && ScoresInUnit(r.value.1)
  {
    var key := CacheKey(text, examples);
    if apiKey == "" then Err(MissingKey)
    else if cfg.cacheLlmScores && key in cache then Ok((cache[key], cache))
    else
      match reply
      case Raised(e) => Ok(((0.5, "Error: " + e), cache))
      case Reply(_, _) =>
        var output := Output(reply);
        if output == "" then Ok(((0.5, "No response from LLM"), cache))
        else
          var scored := ParseScore(output);
          Ok((scored, if cfg.cacheLlmScores then cache[key := scored] else cache))
  }

  /** The key cannot tell where the text ends and the example begins: scoring
      `"a"` against `"bc"` after `"ab"` against `"c"` returns the first score,
      whatever the model would have answered. */
  lemma CacheKeyConflates(cfg: Config, apiKey: string, cache: ScoreCache, first: Reply, second: Reply)
    requires cfg.cacheLlmScores && apiKey != ""
    requires first.Reply? && Output(first) != ""
    ensures
      var r1 := LlmSimilarityScore("ab", ["c"], cfg, apiKey, cache, first);
      var r2 := LlmSimilarityScore("a", ["bc"], cfg, apiKey, r1.value.1, second);
      r2.value.0 == r1.value.0
  {
    assert CacheKey("ab", ["c"]) == CacheKey("a", ["bc"]);
  }

  /** A cache hit does not depend on the model at all. */
  lemma CacheHitIgnoresReply(text: string, examples: seq<string>, cfg: Config, apiKey: string,
                             cache: ScoreCache, reply1: Reply, reply2: Reply)
    requires apiKey != "" && cfg.cacheLlmScores && CacheKey(text, examples) in cache
    ensures LlmSimilarityScore(text, examples, cfg, apiKey, cache, reply1)
      == LlmSimilarityScore(text, examples, cfg, apiKey, cache, reply2)
  {
  }

  /** With caching on, a parsed score is remembered: asking again about the
      same text and first example returns it, whatever the model answers the
      second time, and leaves the cache as it is. */
  lemma CacheRemembersScore(text: string, examples: seq<string>, more: seq<string>, cfg: Config, apiKey: string,
                            cache: ScoreCache, first: Reply, second: Reply)
    requires cfg.cacheLlmScores && apiKey != ""
    requires first.Reply? && Output(first) != ""
    requires |examples| > 0 ==> |more| > 0 && more[0] == examples[0]
    requires |examples| == 0 ==> |more| == 0
    ensures
      var r1 := LlmSimilarityScore(text, examples, cfg, apiKey, cache, first);
      var r2 := LlmSimilarityScore(text, more, cfg, apiKey, r1.value.1, second);
      r2.value == r1.value
  {
    assert CacheKey(text, examples) == CacheKey(text, more);
  }
}

=== FILE: multimodal.dfy ===
/**
 The multi-modal similarity: an embedding score against the author's centroid
 and a score from the judge, each optional, combined into one weighted mean
 over whichever of them came back. A signal that is switched off, or whose
 computation fails, is absent and leaves the other alone.
 */
module MultiModal {
  import opened Common
  import opened Text
  import StyleEmbedder
  import LlmServices

  /** What `compute_similarity` returns. */
  datatype SimilarityResult = SimilarityResult(
    embeddingScore: Option<real>,
    llmScore: Option<real>,
    combinedScore: real,
    llmReasoning: string,
    methodUsed: seq<string>)

  /** The state the two signals read and update: the embedding model with its
      cache, and the judge's score cache. */
  datatype State = State(model: StyleEmbedder.StyleModel, scores: LlmServices.ScoreCache)

  /** The judge's side of one call: the API key in the environment and what
      the model answered. */
  datatype Judge = Judge(apiKey: string, reply: LlmServices.Reply)

  /* ---------------------------------------------------------------------- */
  /* Weighted mean                                                           */
  /* ---------------------------------------------------------------------- */

  function Sum(ws: seq<real>): real
  {
    if |ws| == 0 then 0.0 else ws[0] + Sum(ws[1..])
  }

  /** `sum(s * (w / total) for s, w in zip(scores, weights))`. */
  function NormalizedSum(ss: seq<real>, ws: seq<real>, total: real): real
    requires |ss| == |ws| && total != 0.0
  {
    if |ss| == 0 then 0.0 else ss[0] * (ws[0] / total) + NormalizedSum(ss[1..], ws[1..], total)
  }

  const DivisionByZero := "float division by zero"

  /** The combination step: 0.0 when no score is present; otherwise the weights
      are normalised by their sum, which fails when that sum is zero, and the
      scores averaged with them. */
  function Combine(ss: seq<real>, ws: seq<real>): (r: Result<real>)
    requires |ss| == |ws|
    ensures |ss| == 0 ==> r == Ok(0.0)
    ensures r.Err? <==> |ss| > 0 && Sum(ws) == 0.0
    ensures r.Err? ==> r.msg == DivisionByZero
  {
    if |ss| == 0 then Ok(0.0)
    else
      var total := Sum(ws);
      if total == 0.0 then Err(DivisionByZero) else Ok(NormalizedSum(ss, ws, total))
  }

  /** Normalising by `total` divides the plain weighted sum by it. */
  lemma {:induction false} NormalizedSumIsQuotient(ss: seq<real>, ws: seq<real>, total: real)
    requires |ss| == |ws| && total != 0.0
    ensures NormalizedSum(ss, ws, total) * total == WeightedSum(ss, ws)
  {
    if |ss| > 0 {
      NormalizedSumIsQuotient(ss[1..], ws[1..], total);
      var rest := NormalizedSum(ss[1..], ws[1..], total);
      calc {
        NormalizedSum(ss, ws, total) * total;
        (ss[0] * (ws[0] / total) + rest) * total;
        ss[0] * (ws[0] / total) * total + rest * total;
        { assert ws[0] / total * total == ws[0]; }
        ss[0] * ws[0] + rest * total;
      }
    }
  }

  function WeightedSum(ss: seq<real>, ws: seq<real>): real
    requires |ss| == |ws|
  {
    if |ss| == 0 then 0.0 else ss[0] * ws[0] + WeightedSum(ss[1..], ws[1..])
  }

  /** A weighted sum with non-negative weights of scores in `[lo, hi]` lies
      between `lo` and `hi` times the total weight. */
  lemma {:induction false} WeightedSumBounds(ss: seq<real>, ws: seq<real>, lo: real, hi: real)
    requires |ss| == |ws|
    requires forall i :: 0 <= i < |ss| ==> lo <= ss[i] <= hi
    requires forall i :: 0 <= i < |ws| ==> ws[i] >= 0.0
    ensures lo * Sum(ws) <= WeightedSum(ss, ws) <= hi * Sum(ws)
  {
    if |ss| > 0 {
      WeightedSumBounds(ss[1..], ws[1..], lo, hi);
      BoundsStep(lo, hi, ss[0], ws[0], Sum(ws[1..]), WeightedSum(ss[1..], ws[1..]));
    }
  }

  /** One more score `s` with weight `w` keeps the weighted sum within the
      bounds. */
  lemma BoundsStep(lo: real, hi: real, s: real, w: real, total: real, sum: real)
    requires lo <= s <= hi && w >= 0.0
    requires lo * total <= sum <= hi * total
    ensures lo * (w + total) <= s * w + sum <= hi * (w + total)
  {
    MulMonotone(lo, s, w);
    MulMonotone(s, hi, w);
    assert lo * (w + total) == lo * w + lo * total;
    assert hi * (w + total) == hi * w + hi * total;
  }

  lemma MulMonotone(a: real, b: real, c: real)
    requires a <= b && c >= 0.0
    ensures a * c <= b * c
  {
    assert (b - a) * c >= 0.0;
  }

  /** With positive weights the combined score lies between the smallest and
      the largest of the present scores. */
  lemma CombineWithinRange(ss: seq<real>, ws: seq<real>, lo: real, hi: real)
    requires |ss| == |ws| && |ss| > 0
    requires forall i :: 0 <= i < |ss| ==> lo <= ss[i] <= hi
    requires forall i :: 0 <= i < |ws| ==> ws[i] > 0.0
    ensures Combine(ss, ws).Ok?
    ensures lo <= Combine(ss, ws).value <= hi
  {
    var total := Sum(ws);
    PositiveSum(ws);
    WeightedSumBounds(ss, ws, lo, hi);
    NormalizedSumIsQuotient(ss, ws, total);
    var c := NormalizedSum(ss, ws, total);
    MulCancel(lo, c, total);
    MulCancel(c, hi, total);
  }

  lemma MulCancel(a: real, b: real, c: real)
    requires c > 0.0 && a * c <= b * c
    ensures a <= b
  {
  }

  lemma {:induction false} PositiveSum(ws: seq<real>)
    requires |ws| > 0
    requires forall i :: 0 <= i < |ws| ==> ws[i] > 0.0
    ensures Sum(ws) > 0.0
  {
    if |ws| > 1 {
      PositiveSum(ws[1..]);
    }
  }

  /** A single score with a non-zero weight is passed through unchanged. */
  lemma CombineSingle(s: real, w: real)
    requires w != 0.0
    ensures Combine([s], [w]) == Ok(s)
  {
    assert [w][1..] == [] && [s][1..] == [];
    assert Sum([w]) == w;
    assert w / w == 1.0;
    assert NormalizedSum([s], [w], w) == s * (w / w);
    assert s * (w / w) == s;
    assert Combine([s], [w]) == Ok(NormalizedSum([s], [w], w));
  }

  /** Two scores with equal non-zero weights give their arithmetic mean. */
  lemma CombineEqualWeights(a: real, b: real, w: real)
    requires w != 0.0
    ensures Combine([a, b], [w, w]) == Ok((a + b) / 2.0)
  {
    assert [w, w][1..] == [w];
    assert [a, b][1..] == [b];
    assert [w][1..] == [] && [b][1..] == [];
    assert Sum([w]) == w;
    assert Sum([w, w]) == w + w;
    assert w / (w + w) == 0.5;
    assert NormalizedSum([b], [w], w + w) == b * 0.5;
    assert NormalizedSum([a, b], [w, w], w + w) == a * 0.5 + b * 0.5;
  }

  /** Two scores combine to `(w_e * s_e + w_l * s_l) / (w_e + w_l)`. */
  lemma CombinePair(se: real, sl: real, we: real, wl: real)
    requires we + wl != 0.0
    ensures Combine([se, sl], [we, wl]) == Ok((we * se + wl * sl) / (we + wl))
  {
    assert [we, wl][1..] == [wl];
    assert [se, sl][1..] == [sl];
    assert [wl][1..] == [] && [sl][1..] == [];
    var t := we + wl;
    assert Sum([wl]) == wl;
    assert Sum([we, wl]) == t;
    assert NormalizedSum([sl], [wl], t) == sl * (wl / t);
    assert NormalizedSum([se, sl], [we, wl], t) == se * (we / t) + sl * (wl / t);
    assert se * (we / t) == (we * se) / t;
    assert sl * (wl / t) == (wl * sl) / t;
    assert (we * se) / t + (wl * sl) / t == (we * se + wl * sl) / t;
    assert Combine([se, sl], [we, wl]) == Ok(NormalizedSum([se, sl], [we, wl], t));
  }

  /* ---------------------------------------------------------------------- */
  /* The two signals                                                         */
  /* ---------------------------------------------------------------------- */

  /** The embedding signal: absent when switched off or when the author has no
      centroid (the error is swallowed); the cache update happens either way. */
  function EmbeddingSignal(m: StyleEmbedder.StyleModel, enc: StyleEmbedder.Encoder, cfg: Config,
                           text: string, author: string)
    : (r: (Option<real>, StyleEmbedder.StyleModel))
    ensures !cfg.useEmbeddingSimilarity ==> r == (None, m)
    ensures r.0.Some? <==> cfg.useEmbeddingSimilarity && HasKey(m.centroids, author)
    ensures r.0.Some? ==> r.0 == Some(StyleEmbedder.SimilarityToAuthor(m, enc, text, author).0.value)
    ensures r.1.centroids == m.centroids
  {
    if !cfg.useEmbeddingSimilarity then (None, m)
    else
      var (s, m') := StyleEmbedder.SimilarityToAuthor(m, enc, text, author);
      match s
      case Ok(v) => (Some(v), m')
      case Err(_) => (None, m')
  }

  /** The judge signal: absent when switched off or when the call raises (only
      a missing API key does; the judge turns its own failures into 0.5). */
  function LlmSignal(scores: LlmServices.ScoreCache, cfg: Config, judge: Judge, text: string,
                     examples: seq<string>)
    : (r: (Option<(real, string)>, LlmServices.ScoreCache))
    ensures !cfg.useLlmSimilarity ==> r == (None, scores)
    ensures r.0.Some? <==> cfg.useLlmSimilarity && judge.apiKey != ""
    ensures r.0.Some? ==>
      (r.0.value, r.1) == LlmServices.LlmSimilarityScore(text, examples, cfg, judge.apiKey, scores, judge.reply).value
    ensures LlmServices.ScoresInUnit(scores) && r.0.Some? ==> 0.0 <= r.0.value.0 <= 1.0 && LlmServices.ScoresInUnit(r.1)
  {
    if !cfg.useLlmSimilarity then (None, scores)
    else
      match LlmServices.LlmSimilarityScore(text, examples, cfg, judge.apiKey, scores, judge.reply)
      case Ok((scored, scores')) => (Some(scored), scores')
      case Err(_) => (None, scores)
  }

  /** The present scores in the order embedding, judge, with their weights. */
  function Present(e: Option<real>, l: Option<real>, cfg: Config): (r: (seq<real>, seq<real>))
    ensures |r.0| == |r.1|
    ensures r.0 == (if e.Some? then [e.value] else []) + (if l.Some? then [l.value] else [])
    ensures r.1 == (if e.Some? then [cfg.embeddingSimilarityWeight] else [])
                 + (if l.Some? then [cfg.llmSimilarityWeight] else [])
  {
    var es := if e.Some? then [e.value] else [];
    var ew := if e.Some? then [cfg.embeddingSimilarityWeight] else [];
    var ls := if l.Some? then [l.value] else [];
    var lw := if l.Some? then [cfg.llmSimilarityWeight] else [];
    (es + ls, ew + lw)
  }

  /** The methods that produced a score, embedding first. */
  function MethodsUsed(e: Option<real>, l: Option<real>): (ms: seq<string>)
    ensures "embedding" in ms <==> e.Some?
    ensures "llm" in ms <==> l.Some?
    ensures |ms| <= 2
    ensures e.Some? ==> ms[0] == "embedding"
  {
    (if e.Some? then ["embedding"] else []) + (if l.Some? then ["llm"] else [])
  }

  /** Both signals and their combination, before anything is logged. */
  function Signals(st: State, enc: StyleEmbedder.Encoder, cfg: Config, judge: Judge,
                   text: string, author: string, examples: seq<string>)
    : (r: (Result<SimilarityResult>, State))
  {
    var (e, model) := EmbeddingSignal(st.model, enc, cfg, text, author);
    var (l, scores) := LlmSignal(st.scores, cfg, judge, text, examples);
    var lScore := if l.Some? then Some(l.value.0) else None;
    var (ss, ws) := Present(e, lScore, cfg);
    var state := State(model, scores);
    match Combine(ss, ws)
    case Err(msg) => (Err(msg), state)
    case Ok(c) =>
      var reasoning := if l.Some? then l.value.1 else "";
      (Ok(SimilarityResult(e, lScore, c, reasoning, MethodsUsed(e, lScore))), state)
  }

  /* ---------------------------------------------------------------------- */
  /* The summary log line                                                    */
  /* ---------------------------------------------------------------------- */

  /** What the summary log line writes after the colon for an optional
      score: the conditional meant to choose between four decimals and `N/A`,
      which Python takes as the format specification itself. */
  function ConditionalSpec(subject: string): (spec: string)
    ensures |spec| > 4 && spec[..4] == ".4f "
  {
    ".4f if " + subject + " else 'N/A'"
  }

  const EmbeddingSpec := ConditionalSpec("results['embedding_score']")
  const LlmSpec := ConditionalSpec("results['llm_score']")

  predicate IsFloatType(c: char)
  {
    c in "eEfFgGn%"
  }

  predicate IsAlign(c: char)
  {
    c in "<>=^"
  }

  /** The index after an optional one-character field drawn from `cs`. */
  function SkipOne(spec: string, i: nat, cs: string): (j: nat)
    requires i <= |spec|
    ensures i <= j <= |spec| && j <= i + 1
    ensures j == i + 1 <==> i < |spec| && spec[i] in cs
  {
    if i < |spec| && spec[i] in cs then i + 1 else i
  }

  /** The index after the optional `[fill]align` field. */
  function SkipAlign(spec: string): (j: nat)
    ensures j <= 2 && j <= |spec|
    ensures j == 2 <==> |spec| >= 2 && IsAlign(spec[1])
    ensures j == 1 <==> |spec| >= 1 && IsAlign(spec[0]) && !(|spec| >= 2 && IsAlign(spec[1]))
  {
    if |spec| >= 2 && IsAlign(spec[1]) then 2
    else if |spec| >= 1 && IsAlign(spec[0]) then 1
    else 0
  }

  /** A float's format specification, read field by field as the
      format-specification mini-language lays it out:
      `[[fill]align][sign][z][#][0][width][grouping][.precision][type]`.
      A `.` needs at least one precision digit, and the `n` type admits no
      grouping character. */
  predicate FloatSpecValid(spec: string)
  {
    var afterAlign := SkipAlign(spec);
    var afterSign := SkipOne(spec, afterAlign, "+- ");
    var afterZ := SkipOne(spec, afterSign, "z");
    var afterAlt := SkipOne(spec, afterZ, "#");
    var afterZero := SkipOne(spec, afterAlt, "0");
    var afterWidth := afterZero + LlmServices.DigitRun(spec, afterZero);
    var afterGrouping := SkipOne(spec, afterWidth, ",_");
    var dotted := afterGrouping < |spec| && spec[afterGrouping] == '.';
    var afterPrecision := if dotted then afterGrouping + 1 + LlmServices.DigitRun(spec, afterGrouping + 1) else afterGrouping;
    var afterType := SkipOne(spec, afterPrecision, "eEfFgGn%");
    && (dotted ==> afterPrecision > afterGrouping + 1)
    && afterType == |spec|
    && !(afterGrouping > afterWidth && afterType > afterPrecision && spec[afterPrecision] == 'n')
  }

  /** The exception `format(v, spec)` raises, if any: `None` accepts only the
      empty specification, a float only a valid one. */
  function FormatError(v: Option<real>, spec: string): (e: Option<string>)
    ensures e.None? <==> (v.None? && spec == "") || (v.Some? && FloatSpecValid(spec))
  {
    match v
    case None => if spec == "" then None else Some("unsupported format string passed to NoneType.__format__")
    case Some(_) =>
      if FloatSpecValid(spec) then None
      else Some("Invalid format specifier '" + spec + "' for object of type 'float'")
  }

  /** Whatever the subject, the conditional is not a valid float
      specification: after the precision `.4` and the type `f` the
      specification goes on. */
  lemma ConditionalSpecInvalid(subject: string)
    ensures !FloatSpecValid(ConditionalSpec(subject))
  {
    var spec := ConditionalSpec(subject);
    assert spec[0] == '.' && spec[1] == '4' && spec[2] == 'f' && spec[3] == ' ';
    assert SkipAlign(spec) == 0;
    assert LlmServices.DigitRun(spec, 0) == 0;
    assert LlmServices.DigitRun(spec, 2) == 0;
    assert LlmServices.DigitRun(spec, 1) == 1;
  }

  /** Formatting any optional score with the conditional raises. */
  lemma ConditionalFormatRaises(v: Option<real>, subject: string)
    ensures FormatError(v, ConditionalSpec(subject)).Some?
  {
    ConditionalSpecInvalid(subject);
  }

  /** The specification as written for the embedding score is rejected. */
  lemma EmbeddingSpecInvalid()
    ensures !FloatSpecValid(EmbeddingSpec)
  {
    ConditionalSpecInvalid("results['embedding_score']");
  }

  /** The precision-and-type specification the line evidently meant. */
  lemma FourDecimalsValid()
    ensures FloatSpecValid(".4f")
  {
    assert ".4f"[0] == '.' && ".4f"[1] == '4' && ".4f"[2] == 'f';
    assert LlmServices.DigitRun(".4f", 0) == 0;
    assert LlmServices.DigitRun(".4f", 2) == 0;
    assert LlmServices.DigitRun(".4f", 1) == 1;
  }

  /** Any score formats with four decimals. */
  lemma FourDecimalsFormat(x: real)
    ensures FormatError(Some(x), ".4f").None?
  {
    FourDecimalsValid();
  }

  /** The signed variant used for improvements is valid too. */
  lemma SignedFourDecimalsValid()
    ensures FloatSpecValid("+.4f")
  {
    var spec := "+.4f";
    assert spec[0] == '+' && spec[1] == '.' && spec[2] == '4' && spec[3] == 'f';
    assert LlmServices.DigitRun(spec, 1) == 0;
    assert LlmServices.DigitRun(spec, 3) == 0;
    assert LlmServices.DigitRun(spec, 2) == 1;
  }

  /** Any improvement formats with a sign and four decimals. */
  lemma SignedFourDecimalsFormat(x: real)
    ensures FormatError(Some(x), "+.4f").None?
  {
    SignedFourDecimalsValid();
  }

  /** A width is read as such. */
  lemma WidthSpecValid()
    ensures FloatSpecValid("10.2f")
  {
    var a := "10.2f";
    assert a[0] == '1' && a[1] == '0' && a[2] == '.' && a[3] == '2' && a[4] == 'f';
    assert LlmServices.DigitRun(a, 4) == 0;
    assert LlmServices.DigitRun(a, 3) == 1;
    assert LlmServices.DigitRun(a, 2) == 0;
    assert LlmServices.DigitRun(a, 0) == 2;
  }

  /** An alignment is read as such. */
  lemma AlignSpecValid()
    ensures FloatSpecValid(">8.4f")
  {
    var b := ">8.4f";
    assert b[0] == '>' && b[1] == '8' && b[2] == '.' && b[3] == '4' && b[4] == 'f';
    assert SkipAlign(b) == 1;
    assert LlmServices.DigitRun(b, 4) == 0;
    assert LlmServices.DigitRun(b, 3) == 1;
    assert LlmServices.DigitRun(b, 2) == 0;
    assert LlmServices.DigitRun(b, 1) == 1;
  }

  /** A grouping character is read as such. */
  lemma GroupingSpecValid()
    ensures FloatSpecValid(",.2f")
  {
    var c := ",.2f";
    assert c[0] == ',' && c[1] == '.' && c[2] == '2' && c[3] == 'f';
    assert LlmServices.DigitRun(c, 3) == 0;
    assert LlmServices.DigitRun(c, 2) == 1;
    assert LlmServices.DigitRun(c, 1) == 0;
    assert LlmServices.DigitRun(c, 0) == 0;
  }

  /** A dot without digits is refused. */
  lemma MissingPrecisionInvalid()
    ensures !FloatSpecValid(".f")
  {
    assert ".f"[0] == '.' && ".f"[1] == 'f';
    assert SkipAlign(".f") == 0;
    assert LlmServices.DigitRun(".f", 0) == 0;
    assert LlmServices.DigitRun(".f", 1) == 0;
  }

  /** Grouping with the `n` type is refused. */
  lemma GroupedLocaleInvalid()
    ensures !FloatSpecValid(",n")
  {
    assert ",n"[0] == ',' && ",n"[1] == 'n';
    assert SkipAlign(",n") == 0;
    assert LlmServices.DigitRun(",n", 0) == 0;
    assert LlmServices.DigitRun(",n", 1) == 0;
  }

  /** Whatever the embedding score is, formatting it as written raises. */
  lemma SummaryAlwaysRaises(v: Option<real>)
    ensures FormatError(v, EmbeddingSpec).Some?
  {
    EmbeddingSpecInvalid();
  }

  /** `compute_similarity` as written: the scores are computed and combined,
      and then the summary log line formats the embedding score with
      `EmbeddingSpec`, which raises for every value. */
  function ComputeSimilarityAsWritten(st: State, enc: StyleEmbedder.Encoder, cfg: Config, judge: Judge,
                                      text: string, author: string, examples: seq<string>)
    : (r: (Result<SimilarityResult>, State))
    ensures r.0.Err?
  {
    var (res, state) := Signals(st, enc, cfg, judge, text, author, examples);
    match res
    case Err(msg) => (Err(msg), state)
    case Ok(s) =>
      SummaryAlwaysRaises(s.embeddingScore);
      (Err(FormatError(s.embeddingScore, EmbeddingSpec).value), state)
  }

  /** The summary field as evidently intended: the score with four decimals,
      or `N/A` when it is absent or zero. */
  function SummaryField(v: Option<real>): (e: Option<string>)
    ensures e.None?
  {
    if v.Some? && v.value != 0.0 then
      FourDecimalsValid();
      FormatError(v, ".4f")
    else None
  }

  /** `compute_similarity` with the summary line formatted as intended: the
      embedding score when enabled and the author is known, the judge's score
      and reasoning when enabled and the key is set, `method_used` naming
      exactly those, and the weighted mean of the present scores (0.0 when none
      is, an error when their weights sum to zero). */
  function ComputeSimilarity(st: State, enc: StyleEmbedder.Encoder, cfg: Config, judge: Judge,
                             text: string, author: string, examples: seq<string>)
    : (r: (Result<SimilarityResult>, State))
    ensures r.1.model.centroids == st.model.centroids
    ensures !cfg.useEmbeddingSimilarity ==> r.1.model == st.model
    ensures !cfg.useLlmSimilarity ==> r.1.scores == st.scores
    ensures r.0.Ok? ==>
      var s := r.0.value;
      && (s.embeddingScore.Some? <==> cfg.useEmbeddingSimilarity && HasKey(st.model.centroids, author))
      && (s.llmScore.Some? <==> cfg.useLlmSimilarity && judge.apiKey != "")
      && s.methodUsed == (if s.embeddingScore.Some? then ["embedding"] else [])
                          + (if s.llmScore.Some? then ["llm"] else [])
      && (s.llmScore.None? ==> s.llmReasoning == "")
      && (s.embeddingScore.None? && s.llmScore.None? ==> s.combinedScore == 0.0)
      && Combine(Present(s.embeddingScore, s.llmScore, cfg).0, Present(s.embeddingScore, s.llmScore, cfg).1)
         == Ok(s.combinedScore)
    ensures r.0.Err? <==>
      && ((cfg.useEmbeddingSimilarity && HasKey(st.model.centroids, author)) || (cfg.useLlmSimilarity && judge.apiKey != ""))
      && Sum(Present(EmbeddingSignal(st.model, enc, cfg, text, author).0,
                     if cfg.useLlmSimilarity && judge.apiKey != "" then Some(LlmSignal(st.scores, cfg, judge, text, examples).0.value.0) else None,
                     cfg).1) == 0.0
    ensures r.1 == State(EmbeddingSignal(st.model, enc, cfg, text, author).1, LlmSignal(st.scores, cfg, judge, text, examples).1)
    ensures r.0.Ok? ==> r.0.value.embeddingScore == EmbeddingSignal(st.model, enc, cfg, text, author).0
    ensures r.0.Ok? && r.0.value.llmScore.Some? ==>
      LlmSignal(st.scores, cfg, judge, text, examples).0 == Some((r.0.value.llmScore.value, r.0.value.llmReasoning))
    ensures r.0.Ok? ==> SummaryField(r.0.value.embeddingScore).None? && SummaryField(r.0.value.llmScore).None?
  {
    Signals(st, enc, cfg, judge, text, author, examples)
  }

  /** With the default weights, which are positive, the combined score never
      fails and lies between the present scores. */
  lemma DefaultCombinationInRange(e: real, l: real)
    requires 0.0 <= e <= 1.0 && 0.0 <= l <= 1.0
    ensures
      var (ss, ws) := Present(Some(e), Some(l), DefaultConfig);
      Combine(ss, ws).Ok? && 0.0 <= Combine(ss, ws).value <= 1.0
  {
    var (ss, ws) := Present(Some(e), Some(l), DefaultConfig);
    CombineWithinRange(ss, ws, 0.0, 1.0);
  }

  const MatchingFailed := "Author matching failed: "

  /** `find_closest_author`: any failure of the embedding model is re-raised
      as an author-matching failure; a success passes through. */
  method FindClosestAuthor(m: StyleEmbedder.StyleModel, enc: StyleEmbedder.Encoder, text: string)
    returns (r: Result<(Option<string>, real)>, m': StyleEmbedder.StyleModel)
    ensures |m.centroids| == 0 ==>
      r == Err(MatchingFailed + StyleEmbedder.NoCentroids) && m' == m
    ensures |m.centroids| > 0 ==>
      r.Ok? && m' == m.(cache := StyleEmbedder.EmbedAndNormalize(m.cache, enc, text).1)
    ensures r.Ok? ==> r.value == StyleEmbedder.Closest(m, enc, text)
    ensures r.Ok? ==>
      && (forall j :: 0 <= j < |m.centroids| ==>
            StyleEmbedder.Dot(StyleEmbedder.EmbedAndNormalize(m.cache, enc, text).0, m.centroids[j].value) <= r.value.1)
      && (r.value.0.None? <==> r.value.1 == -1.0)
      && (r.value.0.Some? ==> HasKey(m.centroids, r.value.0.value))
  {
    var inner;
    inner, m' := StyleEmbedder.FindClosestAuthor(m, enc, text);
    match inner
    case Err(e) =>
      r := Err(MatchingFailed + e);
    case Ok(v) =>
      r := Ok(v);
  }
}

=== FILE: rss_fetcher.dfy ===
/**
 Shaping the author corpus out of an RSS feed: the structural validation of
 the decoded feed, and the grouping of its items by author with the content
 fallback, the length filter, the truncation and the per-author
 concatenation. Fetching, the on-disk cache and the HTML cleaner are outside
 the model; the cleaner is a parameter.
 */
module RssFetcher {
  import opened Common
  import opened Text
  import opened Utils

  /* ---------------------------------------------------------------------- */
  /* Validation                                                              */
  /* ---------------------------------------------------------------------- */

  /** `validate_rss_data`: the decoded feed must be a dictionary with an
      `items` entry holding a non-empty list; the checks run in that order and
      the first failure is reported. On success the items are returned. */
  function ValidateRssData(data: Value): (r: Result<seq<Value>>)
    ensures !data.Dict? ==> r == Err("RSS data must be a dictionary")
    ensures data.Dict? && "items" !in data.entries ==> r == Err("RSS data missing 'items' field")
    ensures data.Dict? && "items" in data.entries && !data.entries["items"].List? ==>
      r == Err("RSS 'items' must be a list")
    ensures r.Ok? <==> data.Dict? && "items" in data.entries && data.entries["items"].List?
                       && |data.entries["items"].items| > 0
    ensures data.Dict? && "items" in data.entries && data.entries["items"].List? && |data.entries["items"].items| == 0 ==>
      r == Err("RSS feed contains no items")
    ensures r.Ok? ==> r.value == data.entries["items"].items && |r.value| > 0
  {
    if !data.Dict? then Err("RSS data must be a dictionary")
    else if "items" !in data.entries then Err("RSS data missing 'items' field")
    else
      var items := data.entries["items"];
      if !items.List? then Err("RSS 'items' must be a list")
      else if |items.items| == 0 then Err("RSS feed contains no items")
      else Ok(items.items)
  }

  /** A feed built from a list of items validates back to exactly those
      items, unless the list is empty; extra top-level fields do not matter. */
  lemma ValidateRssDataRoundTrip(items: seq<Value>, extra: map<string, Value>)
    ensures ValidateRssData(Dict(extra["items" := List(items)]))
         == if |items| == 0 then Err("RSS feed contains no items") else Ok(items)
  {
  }

  /** Validation only ever hands back the items it was given. */
  lemma ValidateRssDataIdempotent(data: Value)
    requires ValidateRssData(data).Ok?
    ensures ValidateRssData(Dict(map["items" := List(ValidateRssData(data).value)])) == ValidateRssData(data)
  {
  }

  /* ---------------------------------------------------------------------- */
  /* Items                                                                   */
  /* ---------------------------------------------------------------------- */

  /** A feed item: its string-valued fields. */
  type Item = map<string, string>

  const MinTextLength: nat := 50
  const MaxTextLength: nat := 50000
  const UnknownAuthor := "unknown_author"

  /** `item.get(key, "")`. */
  function Field(item: Item, key: string): string
  {
    if key in item then item[key] else ""
  }

  /** The stripped author, or `unknown_author` when that is empty. */
  function Author(item: Item): (a: string)
    ensures a != ""
    ensures !IsBlank(Field(item, "author")) ==> a == Strip(Field(item, "author"))
    ensures IsBlank(Field(item, "author")) ==> a == UnknownAuthor
  {
    var a := Strip(Field(item, "author"));
    if a == "" then UnknownAuthor else a
  }

  /** The first non-empty of `content`, `content:encoded` and `description`. */
  function Content(item: Item): (c: string)
    ensures c == "" <==> Field(item, "content") == "" && Field(item, "content:encoded") == ""
                         && Field(item, "description") == ""
    ensures c != "" ==> c in [Field(item, "content"), Field(item, "content:encoded"), Field(item, "description")]
    ensures Field(item, "content") != "" ==> c == Field(item, "content")
    ensures Field(item, "content") == "" && Field(item, "content:encoded") != "" ==> c == Field(item, "content:encoded")
  {
    if Field(item, "content") != "" then Field(item, "content")
    else if Field(item, "content:encoded") != "" then Field(item, "content:encoded")
    else Field(item, "description")
  }

  /** The text an item contributes: its cleaned content cut to 50000
      characters, or nothing when the cleaned content is shorter than 50. */
  function ItemText(item: Item, clean: string -> string): (t: Option<string>)
    ensures t.None? <==> |clean(Content(item))| < MinTextLength
    ensures t.Some? ==> MinTextLength <= |t.value| <= MaxTextLength && t.value <= clean(Content(item))
    ensures t.Some? && |clean(Content(item))| <= MaxTextLength ==> t.value == clean(Content(item))
  {
    var text := clean(Content(item));
    if |text| < MinTextLength then None
    else Some(Take(text, MaxTextLength))
  }

  /** The surviving items as (author, text) pairs, in feed order. */
  function Kept(items: seq<Item>, clean: string -> string): (ps: seq<(string, string)>)
    ensures |ps| <= |items|
    ensures forall i :: 0 <= i < |ps| ==> MinTextLength <= |ps[i].1| <= MaxTextLength
    ensures |ps| == 0 <==> forall i :: 0 <= i < |items| ==> ItemText(items[i], clean).None?
  {
    if |items| == 0 then []
    else
      var front := Kept(items[..|items| - 1], clean);
      var last := items[|items| - 1];
      assert forall i :: 0 <= i < |items| - 1 ==> items[..|items| - 1][i] == items[i];
      match ItemText(last, clean)
      case None => front
      case Some(t) => front + [(Author(last), t)]
  }

  /* ---------------------------------------------------------------------- */
  /* Grouping                                                                */
  /* ---------------------------------------------------------------------- */

  /** The texts of one author, in order. */
  function TextsOf(ps: seq<(string, string)>, author: string): seq<string>
  {
    if |ps| == 0 then []
    else TextsOf(ps[..|ps| - 1], author) + (if ps[|ps| - 1].0 == author then [ps[|ps| - 1].1] else [])
  }

  /** The position of `k` among the keys, if present. */
  function IndexOf<V>(es: seq<Entry<string, V>>, k: string): (r: Option<nat>)
    ensures r.None? <==> !HasKey(es, k)
    ensures r.Some? ==> r.value < |es| && es[r.value].key == k
  {
    if |es| == 0 then None
    else if es[0].key == k then Some(0)
    else
      match IndexOf(es[1..], k)
      case None =>
        assert forall i :: 1 <= i < |es| ==> es[i] == es[1..][i - 1];
        None
      case Some(i) => Some(i + 1)
  }

  /** `groups.setdefault(author, []).append(text)`. */
  function Add(groups: seq<Entry<string, seq<string>>>, author: string, text: string)
    : (r: seq<Entry<string, seq<string>>>)
  {
    match IndexOf(groups, author)
    case Some(i) => groups[i := Entry(author, groups[i].value + [text])]
    case None => groups + [Entry(author, [text])]
  }

  /** Appending a new key keeps the keys unique and the old entries visible. */
  lemma AppendLookup<V>(es: seq<Entry<string, V>>, e: Entry<string, V>, k: string)
    requires UniqueKeys(es) && !HasKey(es, e.key)
    ensures UniqueKeys(es + [e])
    ensures Lookup(es + [e], k) == if k == e.key then Some(e.value) else Lookup(es, k)
  {
    var r := es + [e];
    assert UniqueKeys(r) by {
      forall i, j | 0 <= i < j < |r| ensures r[i].key != r[j].key {
        if j == |es| {
          assert r[i] == es[i];
        }
      }
    }
    if k == e.key {
      LookupAt(r, |es|);
    } else if HasKey(es, k) {
      var j :| 0 <= j < |es| && es[j].key == k;
      LookupAt(r, j);
      LookupAt(es, j);
    } else {
      assert forall j :: 0 <= j < |es| ==> r[j] == es[j];
    }
  }

  /** Updating the value at a key's position keeps the keys and the other
      entries. */
  lemma UpdateLookup<V>(es: seq<Entry<string, V>>, i: nat, v: V, k: string)
    requires UniqueKeys(es) && i < |es|
    ensures UniqueKeys(es[i := Entry(es[i].key, v)])
    ensures Lookup(es[i := Entry(es[i].key, v)], k) == if k == es[i].key then Some(v) else Lookup(es, k)
  {
    var r := es[i := Entry(es[i].key, v)];
    assert forall j :: 0 <= j < |r| ==> r[j].key == es[j].key;
    if k == es[i].key {
      LookupAt(r, i);
    } else if HasKey(es, k) {
      var j :| 0 <= j < |es| && es[j].key == k;
      LookupAt(r, j);
      LookupAt(es, j);
    } else {
      assert !HasKey(r, k);
    }
  }

  /** Adding a text extends its author's list and changes no other list. */
  lemma AddLookup(groups: seq<Entry<string, seq<string>>>, author: string, text: string, k: string)
    requires UniqueKeys(groups)
    ensures UniqueKeys(Add(groups, author, text))
    ensures Lookup(Add(groups, author, text), k) ==
      if k == author then Some((if HasKey(groups, author) then Lookup(groups, author).value else []) + [text])
      else Lookup(groups, k)
  {
    match IndexOf(groups, author)
    case Some(i) =>
      LookupAt(groups, i);
      UpdateLookup(groups, i, groups[i].value + [text], k);
    case None =>
      AppendLookup(groups, Entry(author, [text]), k);
      assert [] + [text] == [text];
  }

  /** The grouping loop: each surviving text is appended to its author's list,
      authors in order of first appearance. */
  function Group(ps: seq<(string, string)>): (gs: seq<Entry<string, seq<string>>>)
  {
    if |ps| == 0 then []
    else
      var last := ps[|ps| - 1];
      Add(Group(ps[..|ps| - 1]), last.0, last.1)
  }

  /** The groups have unique keys, and each author's list is exactly its texts
      in feed order; authors without texts are absent. */
  lemma {:induction false} GroupLookup(ps: seq<(string, string)>, author: string)
    ensures UniqueKeys(Group(ps))
    ensures Lookup(Group(ps), author) == if TextsOf(ps, author) == [] then None else Some(TextsOf(ps, author))
  {
    if |ps| > 0 {
      var front := ps[..|ps| - 1];
      var last := ps[|ps| - 1];
      GroupLookup(front, author);
      AddLookup(Group(front), last.0, last.1, author);
      assert Group(ps) == Add(Group(front), last.0, last.1);
      if author == last.0 {
        assert TextsOf(ps, author) == TextsOf(front, author) + [last.1];
        if TextsOf(front, author) == [] {
          assert [] + [last.1] == [last.1];
        }
      } else {
        assert TextsOf(ps, author) == TextsOf(front, author);
      }
    }
  }

  /** The authors of `ps` in the order they first appear, each once. */
  function FirstAppearances(ps: seq<(string, string)>): (authors: seq<string>)
    ensures forall k :: 0 <= k < |ps| ==> ps[k].0 in authors
    ensures forall a :: a in authors ==> exists k :: 0 <= k < |ps| && ps[k].0 == a
  {
    if |ps| == 0 then []
    else
      var front := ps[..|ps| - 1];
      var seen := FirstAppearances(front);
      assert forall k :: 0 <= k < |front| ==> front[k] == ps[k];
      if ps[|ps| - 1].0 in seen then seen else seen + [ps[|ps| - 1].0]
  }

  /** No author is listed twice. */
  lemma {:induction false} FirstAppearancesDistinct(ps: seq<(string, string)>)
    ensures forall i, j :: 0 <= i < j < |FirstAppearances(ps)| ==> FirstAppearances(ps)[i] != FirstAppearances(ps)[j]
  {
    if |ps| > 0 {
      FirstAppearancesDistinct(ps[..|ps| - 1]);
    }
  }

  /** The groups' authors are the authors of the pairs in order of first
      appearance, which is the order the corpus and the centroids keep. */
  lemma {:induction false} GroupOrder(ps: seq<(string, string)>)
    ensures Keys(Group(ps)) == FirstAppearances(ps)
  {
    if |ps| > 0 {
      var front := ps[..|ps| - 1];
      var last := ps[|ps| - 1];
      GroupOrder(front);
      AddKeys(Group(front), last.0, last.1);
    }
  }

  /** Adding a text keeps the authors, or appends a new one. */
  lemma AddKeys(gs: seq<Entry<string, seq<string>>>, author: string, text: string)
    ensures Keys(Add(gs, author, text)) == if author in Keys(gs) then Keys(gs) else Keys(gs) + [author]
  {
    var ks := Keys(gs);
    var ks' := Keys(Add(gs, author, text));
    match IndexOf(gs, author)
    case Some(i) =>
      assert ks[i] == author;
      assert |ks'| == |ks|;
      forall j | 0 <= j < |ks| ensures ks'[j] == ks[j] {}
    case None =>
      assert |ks'| == |ks| + 1;
      forall j | 0 <= j < |ks'| ensures ks'[j] == (ks + [author])[j] {
        if j < |ks| {
          assert Add(gs, author, text)[j] == gs[j];
        }
      }
  }

  /** Joining each author's texts. */
  function JoinAll(gs: seq<Entry<string, seq<string>>>): (bs: seq<Entry<string, string>>)
    ensures Keys(bs) == Keys(gs)
    ensures |bs| == |gs|
    ensures forall i :: 0 <= i < |gs| ==> bs[i] == Entry(gs[i].key, Join("\n\n", gs[i].value))
  {
    if |gs| == 0 then [] else [Entry(gs[0].key, Join("\n\n", gs[0].value))] + JoinAll(gs[1..])
  }

  /** The item-processing part of `fetch_author_blogs`: authors in order of
      first appearance, each mapped to its surviving texts joined by a blank
      line; no surviving item at all is an error. */
  function AuthorBlogs(items: seq<Item>, clean: string -> string): (r: Result<seq<Entry<string, string>>>)
    ensures r.Err? <==> forall i :: 0 <= i < |items| ==> ItemText(items[i], clean).None?
    ensures r.Err? ==> r.msg == "No valid blog content extracted from RSS feed"
    ensures r.Ok? ==> |r.value| > 0 && r.value == JoinAll(Group(Kept(items, clean)))
  {
    var ps := Kept(items, clean);
    if |ps| == 0 then Err("No valid blog content extracted from RSS feed")
    else
      var gs := Group(ps);
      assert |gs| > 0 by {
        GroupLookup(ps, ps[0].0);
        TextsOfContains(ps, 0);
      }
      Ok(JoinAll(gs))
  }

  /** The pair at index `i` contributes to its author's texts. */
  lemma {:induction false} TextsOfContains(ps: seq<(string, string)>, i: nat)
    requires i < |ps|
    ensures ps[i].1 in TextsOf(ps, ps[i].0)
  {
    if i < |ps| - 1 {
      TextsOfContains(ps[..|ps| - 1], i);
    }
  }

  /** The corpus has unique authors; an author is present iff some item of
      theirs survives, and then maps to the blank-line join of exactly those
      texts, in feed order, which is never empty. */
  lemma AuthorBlogsLookup(items: seq<Item>, clean: string -> string, author: string)
    requires AuthorBlogs(items, clean).Ok?
    ensures UniqueKeys(AuthorBlogs(items, clean).value)
    ensures var texts := TextsOf(Kept(items, clean), author);
      Lookup(AuthorBlogs(items, clean).value, author) == if texts == [] then None else Some(Join("\n\n", texts))
    ensures forall i :: 0 <= i < |AuthorBlogs(items, clean).value| ==> AuthorBlogs(items, clean).value[i].value != ""
  {
    var ps := Kept(items, clean);
    var gs := Group(ps);
    var bs := JoinAll(gs);
    GroupLookup(ps, author);
    forall i | 0 <= i < |bs| ensures bs[i].value != "" {
      GroupLookup(ps, gs[i].key);
      LookupAt(gs, i);
      TextsNonEmpty(ps, gs[i].key);
      JoinNonEmpty(gs[i].value);
    }
    assert UniqueKeys(bs) by {
      forall i, j | 0 <= i < j < |bs| ensures bs[i].key != bs[j].key {
        assert bs[i].key == gs[i].key && bs[j].key == gs[j].key;
      }
    }
    JoinAllLookup(gs, author);
  }

  /** Looking up the joined groups is joining the looked-up group. */
  lemma JoinAllLookup(gs: seq<Entry<string, seq<string>>>, author: string)
    requires UniqueKeys(gs)
    ensures Lookup(JoinAll(gs), author) ==
      if HasKey(gs, author) then Some(Join("\n\n", Lookup(gs, author).value)) else None
  {
    var bs := JoinAll(gs);
    assert UniqueKeys(bs) by {
      forall i, j | 0 <= i < j < |bs| ensures bs[i].key != bs[j].key {
        assert bs[i].key == gs[i].key && bs[j].key == gs[j].key;
      }
    }
    if HasKey(gs, author) {
      var j :| 0 <= j < |gs| && gs[j].key == author;
      LookupAt(gs, j);
      LookupAt(bs, j);
    } else {
      assert forall j :: 0 <= j < |bs| ==> bs[j].key == gs[j].key;
    }
  }

  /** Every text of an author is at least 50 characters long. */
  lemma {:induction false} TextsNonEmpty(ps: seq<(string, string)>, author: string)
    requires forall i :: 0 <= i < |ps| ==> |ps[i].1| >= MinTextLength
    ensures forall i :: 0 <= i < |TextsOf(ps, author)| ==> |TextsOf(ps, author)[i]| >= MinTextLength
  {
    if |ps| > 0 {
      var front := ps[..|ps| - 1];
      assert forall i :: 0 <= i < |front| ==> front[i] == ps[i];
      TextsNonEmpty(front, author);
    }
  }

  /** A join of a non-empty list whose first element is non-empty is non-empty. */
  lemma JoinNonEmpty(xs: seq<string>)
    requires |xs| > 0 && forall i :: 0 <= i < |xs| ==> |xs[i]| >= MinTextLength
    ensures Join("\n\n", xs) != ""
  {
    if |xs| > 1 {
      assert |Join("\n\n", xs)| >= |xs[0]|;
    }
  }
}

=== FILE: style_analysis.dfy ===
/**
 Style analysis: counting-based feature extraction from an author's excerpt,
 the threshold-driven description fed to the rewrite prompt, and the choice
 of spread-out excerpts from an author's corpus.
 */
module StyleAnalysis {
  import opened Common
  import opened Text
  import Utils

  /** The feature dictionary of `extract_style_features` for a non-empty text. */
  datatype StyleFeatures = StyleFeatures(
    avgSentenceLength: real,
    sentenceCount: nat,
    shortSentences: nat,
    longSentences: nat,
    avgWordLength: real,
    uniqueWordRatio: real,
    exclamationCount: nat,
    questionCount: nat,
    commaDensity: real,
    dashUsage: nat,
    colonUsage: nat,
    paragraphCount: nat,
    boldUsage: nat,
    italicUsage: int,
    listUsage: nat,
    usesContractions: bool,
    usesQuestions: bool,
    usesEmDash: bool)

  /* ---------------------------------------------------------------------- */
  /* Feature extraction                                                      */
  /* ---------------------------------------------------------------------- */

  /** `[p.strip() for p in parts if p.strip()]`. */
  function NonEmptyStripped(parts: seq<string>): (ss: seq<string>)
    ensures |ss| <= |parts|
    ensures forall i :: 0 <= i < |ss| ==> ss[i] != ""
  {
    if |parts| == 0 then []
    else if Strip(parts[0]) == "" then NonEmptyStripped(parts[1..])
    else [Strip(parts[0])] + NonEmptyStripped(parts[1..])
  }

  /** The text with `!` and `?` turned into `.`. */
  function Terminated(text: string): string
  {
    ReplaceChar(ReplaceChar(text, '!', '.'), '?', '.')
  }

  /** Sentences: the non-empty stripped pieces between sentence marks. */
  function Sentences(text: string): seq<string>
  {
    NonEmptyStripped(SplitOn(Terminated(text), "."))
  }

  /** Number of sentences with fewer than 10 words. */
  function ShortCount(ss: seq<string>): nat
  {
    if |ss| == 0 then 0 else (if |Words(ss[0])| < 10 then 1 else 0) + ShortCount(ss[1..])
  }

  /** Number of sentences with more than 20 words. */
  function LongCount(ss: seq<string>): nat
  {
    if |ss| == 0 then 0 else (if |Words(ss[0])| > 20 then 1 else 0) + LongCount(ss[1..])
  }

  /** No sentence is both short and long, so together they never outnumber the sentences. */
  lemma {:induction false} ShortAndLongDisjoint(ss: seq<string>)
    ensures ShortCount(ss) + LongCount(ss) <= |ss|
  {
    if |ss| > 0 {
      ShortAndLongDisjoint(ss[1..]);
    }
  }

  /** Every sentence is a non-empty stripped piece free of `.`, `!` and `?`. */
  lemma SentencesAreClean(text: string)
    ensures forall i :: 0 <= i < |Sentences(text)| ==>
      var s := Sentences(text)[i];
      s != "" && Avoids(s, '.') && Avoids(s, '!') && Avoids(s, '?')
  {
    var t := Terminated(text);
    assert Avoids(t, '!') && Avoids(t, '?');
    SplitOnPiecesAvoid(t, ".");
    SplitOnKeepsAvoidance(t, ".", '!');
    SplitOnKeepsAvoidance(t, ".", '?');
    PiecesKeepAvoidance(SplitOn(t, "."), t);
  }

  /** Pieces of a `.`-split of a text free of `!` and `?` stay free of all three marks after stripping. */
  lemma {:induction false} PiecesKeepAvoidance(parts: seq<string>, t: string)
    requires Avoids(t, '!') && Avoids(t, '?')
    requires forall i :: 0 <= i < |parts| ==> Avoids(parts[i], '.')
    requires forall i :: 0 <= i < |parts| ==> Avoids(parts[i], '!') && Avoids(parts[i], '?')
    ensures forall i :: 0 <= i < |NonEmptyStripped(parts)| ==>
      var s := NonEmptyStripped(parts)[i];
      Avoids(s, '.') && Avoids(s, '!') && Avoids(s, '?')
  {
    if |parts| > 0 {
      PiecesKeepAvoidance(parts[1..], t);
      StripKeepsAvoidance(parts[0], '.');
      StripKeepsAvoidance(parts[0], '!');
      StripKeepsAvoidance(parts[0], '?');
    }
  }

  lemma StripKeepsAvoidance(x: string, c: char)
    requires Avoids(x, c)
    ensures Avoids(Strip(x), c)
  {
    var t := x[LeadingSpace(x)..];
    assert forall j :: 0 <= j < |t| ==> t[j] == x[LeadingSpace(x) + j];
  }

  /** `max(n, 1)` as a real divisor. */
  function AtLeastOne(n: nat): real
  {
    if n == 0 then 1.0 else n as real
  }

  function TotalLength(ws: seq<string>): nat
  {
    if |ws| == 0 then 0 else |ws[0]| + TotalLength(ws[1..])
  }

  function LowerAll(ws: seq<string>): seq<string>
  {
    if |ws| == 0 then [] else [Lower(ws[0])] + LowerAll(ws[1..])
  }

  const Contractions: seq<string> := ["don't", "can't", "won't", "it's", "you're", "we're"]

  predicate UsesContractions(text: string)
  {
    exists i :: 0 <= i < |Contractions| && Contains(Lower(text), Contractions[i])
  }

  /** `extract_style_features`: None for the empty text (the empty dict),
      otherwise the counted features. */
  function ExtractStyleFeatures(text: string): (r: Option<StyleFeatures>)
    ensures r.None? <==> text == ""
    ensures r.Some? ==>
      && (r.value.usesQuestions <==> r.value.questionCount > 0)
      && (r.value.usesEmDash <==> r.value.dashUsage > 0)
      && r.value.shortSentences + r.value.longSentences <= r.value.sentenceCount
      && r.value.paragraphCount >= 1
      && r.value.boldUsage * 2 <= Count(text, "**")
  {
    if text == "" then None
    else
      var sentences := Sentences(text);
      var words := Words(text);
      CountPositiveIffContains(text, "?");
      CountPositiveIffContains(text, "--");
      CountPositiveIffContains(text, "—");
      ShortAndLongDisjoint(sentences);
      Some(StyleFeatures(
        avgSentenceLength := |words| as real / AtLeastOne(|sentences|),
        sentenceCount := |sentences|,
        shortSentences := ShortCount(sentences),
        longSentences := LongCount(sentences),
        avgWordLength := TotalLength(words) as real / AtLeastOne(|words|),
        uniqueWordRatio := |set w | w in LowerAll(words)| as real / AtLeastOne(|words|),
        exclamationCount := Count(text, "!"),
        questionCount := Count(text, "?"),
        commaDensity := Count(text, ",") as real / AtLeastOne(|words|),
        dashUsage := Count(text, "--") + Count(text, "—"),
        colonUsage := Count(text, ":"),
        paragraphCount := Count(text, "\n\n") + 1,
        boldUsage := Count(text, "**") / 2,
        italicUsage := Count(text, "*") - Count(text, "**") * 2,
        listUsage := Count(text, "\n*") + Count(text, "\n-"),
        usesContractions := UsesContractions(text),
        usesQuestions := Contains(text, "?"),
        usesEmDash := Contains(text, "—") || Contains(text, "--")))
  }

  /* ---------------------------------------------------------------------- */
  /* Style description                                                       */
  /* ---------------------------------------------------------------------- */

  /** The phrases a style description is made of. */
  datatype Phrase =
    | ShortSentences | ModerateSentences | LongSentences
    | Exclamations | Questions | Dashes
    | Conversational | Formal
    | Bold | Lists
  {
    function Text(): string
    {
      match this
      case ShortSentences => "very short, punchy sentences"
      case ModerateSentences => "moderate-length sentences"
      case LongSentences => "longer, more complex sentences"
      case Exclamations => "enthusiastic tone with exclamations"
      case Questions => "engages reader with questions"
      case Dashes => "uses dashes for emphasis or asides"
      case Conversational => "conversational with contractions"
      case Formal => "more formal without contractions"
      case Bold => "emphasizes key points with bold text"
      case Lists => "uses bullet points or lists"
    }

    /** The position of the phrase's group in the description: length,
        exclamations, questions, dashes, formality, bold, lists. */
    function Rank(): nat
    {
      match this
      case ShortSentences => 0
      case ModerateSentences => 0
      case LongSentences => 0
      case Exclamations => 1
      case Questions => 2
      case Dashes => 3
      case Conversational => 4
      case Formal => 4
      case Bold => 5
      case Lists => 6
    }
  }

  /** The phrases' groups strictly increase along the list, so each group
      contributes at most one phrase, in the fixed order. */
  predicate RankedAscending(ps: seq<Phrase>)
  {
    forall i, j :: 0 <= i < j < |ps| ==> ps[i].Rank() < ps[j].Rank()
  }

  predicate RanksIn(ps: seq<Phrase>, lo: nat, hi: nat)
  {
    forall i :: 0 <= i < |ps| ==> lo <= ps[i].Rank() < hi
  }

  /** Two ascending lists whose groups do not interleave concatenate to an
      ascending list. */
  lemma AscendingConcat(a: seq<Phrase>, b: seq<Phrase>, lo: nat, mid: nat, hi: nat)
    requires RankedAscending(a) && RanksIn(a, lo, mid)
    requires RankedAscending(b) && RanksIn(b, mid, hi)
    requires lo <= mid <= hi
    ensures RankedAscending(a + b) && RanksIn(a + b, lo, hi)
  {
    var ab := a + b;
    forall i, j | 0 <= i < j < |ab|
      ensures ab[i].Rank() < ab[j].Rank()
    {
      if j < |a| {
        assert ab[i] == a[i] && ab[j] == a[j];
      } else if i < |a| {
        assert ab[i] == a[i] && ab[j] == b[j - |a|];
      } else {
        assert ab[i] == b[i - |a|] && ab[j] == b[j - |a|];
      }
    }
    forall i | 0 <= i < |ab|
      ensures lo <= ab[i].Rank() < hi
    {
      if i < |a| {
        assert ab[i] == a[i];
      } else {
        assert ab[i] == b[i - |a|];
      }
    }
  }

  /** The values `format_style_features` reads, with its defaults (0 and
      false) for the empty dictionary. */
  function Observed(f: Option<StyleFeatures>): StyleFeatures
  {
    match f
    case Some(v) => v
    case None => StyleFeatures(0.0, 0, 0, 0, 0.0, 0.0, 0, 0, 0.0, 0, 0, 0, 0, 0, 0, false, false, false)
  }

  function Optional(present: bool, phrase: Phrase): (ps: seq<Phrase>)
    ensures forall p :: p in ps <==> present && p == phrase
  {
    if present then [phrase] else []
  }

  /** The sentence-length phrase: under 12 words, under 18, or longer. */
  function LengthPhrase(v: StyleFeatures): (p: Phrase)
    ensures p in {ShortSentences, ModerateSentences, LongSentences}
    ensures (p == ShortSentences <==> v.avgSentenceLength < 12.0)
    ensures (p == ModerateSentences <==> 12.0 <= v.avgSentenceLength < 18.0)
    ensures (p == LongSentences <==> v.avgSentenceLength >= 18.0)
  {
    if v.avgSentenceLength < 12.0 then ShortSentences
    else if v.avgSentenceLength < 18.0 then ModerateSentences
    else LongSentences
  }

  /** The exclamation, question and dash phrases, each above its threshold. */
  function PunctuationPhrases(v: StyleFeatures): (ps: seq<Phrase>)
    ensures (Exclamations in ps <==> v.exclamationCount > 2)
    ensures (Questions in ps <==> v.questionCount > 2)
    ensures (Dashes in ps <==> v.dashUsage > 1)
    ensures forall p :: p in ps ==> p in {Exclamations, Questions, Dashes}
  {
    Optional(v.exclamationCount > 2, Exclamations)
    + Optional(v.questionCount > 2, Questions)
    + Optional(v.dashUsage > 1, Dashes)
  }

  /** The sentence-length phrase followed by the punctuation phrases. */
  function TonePhrases(v: StyleFeatures): (ps: seq<Phrase>)
    ensures |ps| >= 1
    ensures ps[0] in {ShortSentences, ModerateSentences, LongSentences}
    ensures (ShortSentences in ps <==> v.avgSentenceLength < 12.0)
    ensures (ModerateSentences in ps <==> 12.0 <= v.avgSentenceLength < 18.0)
    ensures (LongSentences in ps <==> v.avgSentenceLength >= 18.0)
    ensures (Exclamations in ps <==> v.exclamationCount > 2)
    ensures (Questions in ps <==> v.questionCount > 2)
    ensures (Dashes in ps <==> v.dashUsage > 1)
    ensures Conversational !in ps && Formal !in ps && Bold !in ps && Lists !in ps
  {
    [LengthPhrase(v)] + PunctuationPhrases(v)
  }

  /** The formality phrase followed by the markup phrases. */
  function RegisterPhrases(v: StyleFeatures): (ps: seq<Phrase>)
    ensures |ps| >= 1
    ensures (Conversational in ps <==> v.usesContractions)
    ensures (Formal in ps <==> !v.usesContractions)
    ensures (Bold in ps <==> v.boldUsage > 3)
    ensures (Lists in ps <==> v.listUsage > 3)
    ensures ShortSentences !in ps && ModerateSentences !in ps && LongSentences !in ps
    ensures Exclamations !in ps && Questions !in ps && Dashes !in ps
  {
    [Formality(v)] + Optional(v.boldUsage > 3, Bold) + Optional(v.listUsage > 3, Lists)
  }

  function Formality(v: StyleFeatures): Phrase
  {
    if v.usesContractions then Conversational else Formal
  }

  /** The description phrases in their fixed order: sentence length, then
      exclamations, questions, dashes, then formality, then bold and lists. */
  function StylePhrases(v: StyleFeatures): (ps: seq<Phrase>)
    ensures |ps| >= 2
    ensures ps[0] in {ShortSentences, ModerateSentences, LongSentences}
    ensures (ShortSentences in ps <==> v.avgSentenceLength < 12.0)
    ensures (ModerateSentences in ps <==> 12.0 <= v.avgSentenceLength < 18.0)
    ensures (LongSentences in ps <==> v.avgSentenceLength >= 18.0)
    ensures (Exclamations in ps <==> v.exclamationCount > 2)
    ensures (Questions in ps <==> v.questionCount > 2)
    ensures (Dashes in ps <==> v.dashUsage > 1)
    ensures (Conversational in ps <==> v.usesContractions)
    ensures (Formal in ps <==> !v.usesContractions)
    ensures (Bold in ps <==> v.boldUsage > 3)
    ensures (Lists in ps <==> v.listUsage > 3)
  {
    TonePhrases(v) + RegisterPhrases(v)
  }

  /** The description keeps the fixed order of the groups, each group
      contributing at most one phrase: with the presence conditions of
      `StylePhrases` this determines the list. */
  lemma StylePhrasesOrdered(v: StyleFeatures)
    ensures RankedAscending(StylePhrases(v))
  {
    TonePhrasesOrdered(v);
    RegisterPhrasesOrdered(v);
    AscendingConcat(TonePhrases(v), RegisterPhrases(v), 0, 4, 7);
  }

  lemma TonePhrasesOrdered(v: StyleFeatures)
    ensures RankedAscending(TonePhrases(v)) && RanksIn(TonePhrases(v), 0, 4)
  {
    var e := Optional(v.exclamationCount > 2, Exclamations);
    var q := Optional(v.questionCount > 2, Questions);
    var d := Optional(v.dashUsage > 1, Dashes);
    OptionalRanked(v.exclamationCount > 2, Exclamations);
    OptionalRanked(v.questionCount > 2, Questions);
    OptionalRanked(v.dashUsage > 1, Dashes);
    AscendingConcat(e, q, 1, 2, 3);
    AscendingConcat(e + q, d, 1, 3, 4);
    assert PunctuationPhrases(v) == e + q + d;
    AscendingConcat([LengthPhrase(v)], e + q + d, 0, 1, 4);
  }

  lemma RegisterPhrasesOrdered(v: StyleFeatures)
    ensures RankedAscending(RegisterPhrases(v)) && RanksIn(RegisterPhrases(v), 4, 7)
  {
    var b := Optional(v.boldUsage > 3, Bold);
    var l := Optional(v.listUsage > 3, Lists);
    OptionalRanked(v.boldUsage > 3, Bold);
    OptionalRanked(v.listUsage > 3, Lists);
    AscendingConcat([Formality(v)], b, 4, 5, 6);
    AscendingConcat([Formality(v)] + b, l, 4, 6, 7);
  }

  lemma OptionalRanked(present: bool, phrase: Phrase)
    ensures RankedAscending(Optional(present, phrase))
    ensures RanksIn(Optional(present, phrase), phrase.Rank(), phrase.Rank() + 1)
  {
  }

  function Texts(ps: seq<Phrase>): (ts: seq<string>)
    ensures |ts| == |ps|
    ensures forall i :: 0 <= i < |ps| ==> ts[i] == ps[i].Text()
  {
    if |ps| == 0 then [] else [ps[0].Text()] + Texts(ps[1..])
  }

  /** `format_style_features`: the phrases joined by `"; "`; never the
      `"neutral style"` fallback, since a length and a formality phrase are
      always present. */
  function FormatStyleFeatures(f: Option<StyleFeatures>): (desc: string)
    ensures desc != "neutral style"
    ensures SplitOn(desc, "; ") == Texts(StylePhrases(Observed(f)))
  {
    var ts := Texts(StylePhrases(Observed(f)));
    forall i | 0 <= i < |ts|
      ensures Avoids(ts[i], ';')
    {
      PhraseAvoidsSemicolon(StylePhrases(Observed(f))[i]);
    }
    SplitOnJoin(ts, "; ");
    JoinStartsWithFirst("; ", ts);
    Join("; ", ts)
  }

  lemma PhraseAvoidsSemicolon(p: Phrase)
    ensures Avoids(p.Text(), ';')
  {
    LengthPhrasesAvoidSemicolon();
    PunctuationPhrasesAvoidSemicolon();
    RegisterPhrasesAvoidSemicolon();
  }

  lemma LengthPhrasesAvoidSemicolon()
    ensures Avoids(ShortSentences.Text(), ';')
    ensures Avoids(ModerateSentences.Text(), ';')
    ensures Avoids(LongSentences.Text(), ';')
  {
  }

  lemma PunctuationPhrasesAvoidSemicolon()
    ensures Avoids(Exclamations.Text(), ';')
    ensures Avoids(Questions.Text(), ';')
    ensures Avoids(Dashes.Text(), ';')
  {
  }

  lemma RegisterPhrasesAvoidSemicolon()
    ensures Avoids(Conversational.Text(), ';')
    ensures Avoids(Formal.Text(), ';')
    ensures Avoids(Bold.Text(), ';')
    ensures Avoids(Lists.Text(), ';')
  {
  }

  lemma JoinStartsWithFirst(sep: string, xs: seq<string>)
    requires |xs| > 0
    ensures xs[0] <= Join(sep, xs)
  {
  }

  /* ---------------------------------------------------------------------- */
  /* Example selection                                                       */
  /* ---------------------------------------------------------------------- */

  /** `[p.strip() for p in parts if len(p.strip()) > 100]`. */
  function Qualifying(parts: seq<string>): (ps: seq<string>)
    ensures forall i :: 0 <= i < |ps| ==> |ps[i]| > 100
  {
    if |parts| == 0 then []
    else if |Strip(parts[0])| > 100 then [Strip(parts[0])] + Qualifying(parts[1..])
    else Qualifying(parts[1..])
  }

  /** Long paragraphs split on blank lines, falling back to single newlines. */
  function Paragraphs(text: string): (ps: seq<string>)
    ensures forall i :: 0 <= i < |ps| ==> |ps[i]| > 100
    ensures |Qualifying(SplitOn(text, "\n\n"))| > 0 ==> ps == Qualifying(SplitOn(text, "\n\n"))
  {
    var byBlankLine := Qualifying(SplitOn(text, "\n\n"));
    if |byBlankLine| > 0 then byBlankLine else Qualifying(SplitOn(text, "\n"))
  }

  function SumLength(ps: seq<string>): int
  {
    if |ps| == 0 then 0 else |ps[0]| + SumLength(ps[1..])
  }

  /** Total length of the `m` paragraphs from `start` on. */
  function Cumulative(ps: seq<string>, start: nat, m: nat): int
    requires start + m <= |ps|
  {
    SumLength(ps[start..start + m])
  }

  /** Growing an excerpt from `k` paragraphs on: stop once the text reaches
      `minLength`, at 10 paragraphs, or at the last paragraph. */
  function Grow(ps: seq<string>, start: nat, k: nat, minLength: int): (n: nat)
    requires 1 <= k <= 10 && start + k <= |ps|
    requires forall m :: 1 <= m < k ==> Cumulative(ps, start, m) < minLength
    ensures k <= n <= 10 && start + n <= |ps|
    ensures forall m :: 1 <= m < n ==> Cumulative(ps, start, m) < minLength
    ensures Cumulative(ps, start, n) >= minLength || n == 10 || start + n == |ps|
    decreases 10 - k
  {
    if Cumulative(ps, start, k) >= minLength || k == 10 || start + k == |ps| then k
    else Grow(ps, start, k + 1, minLength)
  }

  /** Number of paragraphs in the excerpt starting at `start`: the first count
      whose total length reaches `minLength`, capped at 10 and at the end. */
  function ExcerptLength(ps: seq<string>, start: nat, minLength: int): (n: nat)
    requires start < |ps|
    ensures 1 <= n <= 10 && start + n <= |ps|
    ensures forall m :: 1 <= m < n ==> Cumulative(ps, start, m) < minLength
    ensures Cumulative(ps, start, n) >= minLength || n == Utils.Min(10, |ps| - start)
  {
    Grow(ps, start, 1, minLength)
  }

  function Excerpt(ps: seq<string>, start: nat, minLength: int): string
    requires start < |ps|
  {
    Join("\n\n", ps[start..start + ExcerptLength(ps, start, minLength)])
  }

  /** The first `count` starts `start, start + step, ...` are paragraph indices. */
  predicate StartsBelow(n: nat, start: nat, count: nat, step: nat)
  {
    forall k :: 0 <= k < count ==> Utils.Cursor(start, k, step) < n
  }

  /** The excerpt beginning at a paragraph index. */
  function ExcerptAt(ps: seq<string>, minLength: int): nat -> string
  {
    (j: nat) => if j < |ps| then Excerpt(ps, j, minLength) else ""
  }

  /** `es[k]` is the excerpt beginning at the k-th start `start + k * step`. */
  predicate ExcerptsAt(ps: seq<string>, start: nat, step: nat, minLength: int, es: seq<string>)
  {
    Utils.Sampled(ExcerptAt(ps, minLength), |ps|, start, step, es)
  }

  /** `count` excerpts starting at `start` and `step` paragraphs apart. */
  function ExcerptsFrom(ps: seq<string>, start: nat, count: nat, step: nat, minLength: int): (es: seq<string>)
    requires StartsBelow(|ps|, start, count, step)
    ensures |es| == count
    ensures ExcerptsAt(ps, start, step, minLength, es)
    decreases count
  {
    if count == 0 then []
    else
      StartsShift(|ps|, start, count, step);
      var rest := ExcerptsFrom(ps, start + step, count - 1, step, minLength);
      Utils.SampledShift(ExcerptAt(ps, minLength), |ps|, start, step, rest);
      [ExcerptAt(ps, minLength)(start)] + rest
  }

  lemma StartsShift(n: nat, start: nat, count: nat, step: nat)
    requires count > 0 && StartsBelow(n, start, count, step)
    ensures start < n
    ensures StartsBelow(n, start + step, count - 1, step)
  {
    assert Utils.Cursor(start, 0, step) == start;
    var next := start + step;
    forall k | 0 <= k < count - 1
      ensures Utils.Cursor(next, k, step) < n
    {
      Utils.CursorShift(start, k, step);
    }
  }

  /** `select_diverse_examples`: the text's prefix of `minLength * numExamples`
      characters when there are fewer long paragraphs than examples, otherwise
      exactly `numExamples` excerpts spread evenly; zero examples divide by zero. */
  function SelectDiverseExamples(text: string, numExamples: nat, minLength: nat): (r: Result<seq<string>>)
    ensures r.Err? <==> numExamples == 0
    ensures r.Ok? ==> |r.value| >= 1
    ensures r.Ok? && |Paragraphs(text)| < numExamples ==> r.value == [Take(text, Times(minLength, numExamples))]
    ensures r.Ok? && |Paragraphs(text)| >= numExamples ==>
      && |r.value| == numExamples
      && ExcerptsAt(Paragraphs(text), 0, FloorDiv(|Paragraphs(text)|, numExamples), minLength, r.value)
  {
    var ps := Paragraphs(text);
    if numExamples == 0 then Err("integer division or modulo by zero")
    else if |ps| < numExamples then
      Ok([Take(text, Times(minLength, numExamples))])
    else
      ExcerptStartsInRange(|ps|, numExamples);
      Ok(ExcerptsFrom(ps, 0, numExamples, FloorDiv(|ps|, numExamples), minLength))
  }

  /** Every excerpt start `i * (n / count)` with `i < count <= n` is a paragraph index. */
  lemma ExcerptStartsInRange(n: nat, count: nat)
    requires 1 <= count <= n
    ensures StartsBelow(n, 0, count, FloorDiv(n, count))
  {
    var step := FloorDiv(n, count);
    forall j | 0 <= j < count
      ensures Utils.Cursor(0, j, step) < n
    {
      Utils.CursorIsProduct(0, j, step);
      StartBound(n, count, j);
    }
  }

  lemma StartBound(n: nat, count: nat, j: nat)
    requires 1 <= count <= n && j < count
    ensures j * (n / count) < n
  {
    var step := n / count;
    assert n == count * step + n % count;
    assert step >= 1;
    MulMonotone(j, count - 1, step);
    assert (count - 1) * step == count * step - step;
  }

  lemma MulMonotone(a: nat, b: nat, c: nat)
    requires a <= b
    ensures a * c <= b * c
  {
  }
}

=== FILE: style_embedder.dfy ===
/**
 The author style model: unit-length embeddings with a bounded memo table,
 one centroid per author built from the author's chunked corpus, and cosine
 similarity against those centroids.

 Vectors are sequences of reals. The sentence encoder, the averaging of chunk
 embeddings and the division by the Euclidean norm are not expressible here
 and are parameters (`Encoder`); what the model decides with them (cache hits,
 zero-norm checks, which authors survive, which author wins) is modelled.
 */
module StyleEmbedder {
  import opened Common
  import opened Text
  import Utils

  type Vector = seq<real>

  /** Number of embeddings the memo table holds at most. */
  const CacheCapacity: nat := 1000

  /** `np.dot` over the common length of the two vectors. */
  function Dot(a: Vector, b: Vector): real
  {
    if |a| == 0 || |b| == 0 then 0.0 else a[0] * b[0] + Dot(a[1..], b[1..])
  }

  /** A vector of Euclidean norm zero: every component is zero. */
  predicate IsZero(v: Vector)
  {
    forall i :: 0 <= i < |v| ==> v[i] == 0.0
  }

  /** The numerical primitives the model delegates: the sentence encoder, the
      mean of several embeddings, and scaling a non-zero vector to unit norm. */
  datatype Encoder = Encoder(
    encode: string -> Vector,
    mean: seq<Vector> -> Vector,
    normalize: Vector -> Vector)

  /** A vector divided by its norm when that norm is positive, else unchanged. */
  function Unit(enc: Encoder, v: Vector): Vector
  {
    if IsZero(v) then v else enc.normalize(v)
  }

  /** The normalised embedding of a text, as computed on a cache miss. */
  function Embed(enc: Encoder, text: string): Vector
  {
    Unit(enc, enc.encode(text))
  }

  /** The embedding memo table with its hit and miss counters. Entries are
      keyed by the text itself (the digest of the text in the program). */
  datatype Cache = Cache(entries: map<string, Vector>, hits: nat, misses: nat)

  /** The model state: centroids in insertion order, and the cache. */
  datatype StyleModel = StyleModel(centroids: seq<Entry<string, Vector>>, cache: Cache)

  /** Every cached embedding is the one a miss would compute. */
  predicate Coherent(c: Cache, enc: Encoder)
  {
    forall t :: t in c.entries ==> c.entries[t] == Embed(enc, t)
  }

  predicate Bounded(c: Cache)
  {
    |c.entries| <= CacheCapacity
  }

  /* ---------------------------------------------------------------------- */
  /* Embedding cache                                                         */
  /* ---------------------------------------------------------------------- */

  /** `_embed_and_normalize`: the cached embedding on a hit; on a miss the
      computed one, remembered only while the table has room. Exactly one
      counter moves, no entry is ever overwritten or dropped, and a coherent
      cache is invisible: the result is the embedding itself. */
  function EmbedAndNormalize(c: Cache, enc: Encoder, text: string): (r: (Vector, Cache))
    ensures r.1.hits + r.1.misses == c.hits + c.misses + 1
    ensures (r.1.hits == c.hits + 1 <==> text in c.entries)
    ensures forall t :: t in c.entries ==> t in r.1.entries && r.1.entries[t] == c.entries[t]
    ensures forall t :: t in r.1.entries ==> t in c.entries || t == text
    ensures (text in r.1.entries <==> text in c.entries || |c.entries| < CacheCapacity)
    ensures Bounded(c) ==> Bounded(r.1)
    ensures Coherent(c, enc) ==> r.0 == Embed(enc, text) && Coherent(r.1, enc)
  {
    if text in c.entries then
      (c.entries[text], c.(hits := c.hits + 1))
    else
      var emb := Embed(enc, text);
      var entries := if |c.entries| < CacheCapacity then c.entries[text := emb] else c.entries;
      (emb, Cache(entries, c.hits, c.misses + 1))
  }

  /** `clear_cache`: an empty table and both counters back to zero; the
      centroids are kept. */
  function ClearCache(m: StyleModel): (r: StyleModel)
    ensures r.centroids == m.centroids
    ensures |r.cache.entries| == 0 && r.cache.hits == 0 && r.cache.misses == 0
    ensures forall enc :: Coherent(r.cache, enc)
  {
    m.(cache := Cache(map[], 0, 0))
  }

  /** Embedding the same text twice through the cache gives the same vector,
      the second time from the table whenever the first call had room. */
  lemma {:induction false} EmbedTwice(c: Cache, enc: Encoder, text: string)
    requires Coherent(c, enc)
    ensures
      var (e1, c1) := EmbedAndNormalize(c, enc, text);
      var (e2, c2) := EmbedAndNormalize(c1, enc, text);
      && e1 == e2
      && (text in c.entries || |c.entries| < CacheCapacity ==> c2.hits == c1.hits + 1 && c2.entries == c1.entries)
  {
  }

  /* ---------------------------------------------------------------------- */
  /* Centroids                                                               */
  /* ---------------------------------------------------------------------- */

  function EncodeAll(enc: Encoder, chunks: seq<string>): (vs: seq<Vector>)
    ensures |vs| == |chunks|
    ensures forall i :: 0 <= i < |chunks| ==> vs[i] == enc.encode(chunks[i])
  {
    if |chunks| == 0 then [] else [enc.encode(chunks[0])] + EncodeAll(enc, chunks[1..])
  }

  /** The centroid of one author's text: the normalised mean of its chunk
      embeddings, or None when the text gives no chunks or the mean has norm
      zero (both cases are skipped). */
  function CentroidFor(enc: Encoder, text: string, chunkSize: nat, chunkOverlap: int): (r: Option<Vector>)
    requires chunkOverlap < chunkSize
    ensures text == "" ==> r.None?
    ensures r.Some? <==> text != "" && !IsZero(enc.mean(EncodeAll(enc, Utils.ChunkText(text, chunkSize, chunkOverlap))))
  {
    var chunks := Utils.ChunkText(text, chunkSize, chunkOverlap);
    if |chunks| == 0 then None
    else
      var centroid := enc.mean(EncodeAll(enc, chunks));
      if IsZero(centroid) then None else Some(enc.normalize(centroid))
  }

  /** Each author paired with the outcome of building its centroid. */
  function Attempts(enc: Encoder, corpus: seq<Entry<string, string>>, chunkSize: nat, chunkOverlap: int)
    : (tries: seq<Entry<string, Option<Vector>>>)
    requires chunkOverlap < chunkSize
    ensures |tries| == |corpus|
    ensures forall j :: 0 <= j < |corpus| ==>
      tries[j] == Entry(corpus[j].key, CentroidFor(enc, corpus[j].value, chunkSize, chunkOverlap))
  {
    if |corpus| == 0 then []
    else
      [Entry(corpus[0].key, CentroidFor(enc, corpus[0].value, chunkSize, chunkOverlap))]
      + Attempts(enc, corpus[1..], chunkSize, chunkOverlap)
  }

  /** The successful attempts, unwrapped, in their original order. */
  function Survivors<K, V>(tries: seq<Entry<K, Option<V>>>): (cs: seq<Entry<K, V>>)
    ensures |cs| <= |tries|
  {
    if |tries| == 0 then []
    else if tries[0].value.Some? then [Entry(tries[0].key, tries[0].value.value)] + Survivors(tries[1..])
    else Survivors(tries[1..])
  }

  function Shift(os: seq<nat>): (r: seq<nat>)
    ensures |r| == |os|
    ensures forall i :: 0 <= i < |os| ==> r[i] == os[i] + 1
  {
    if |os| == 0 then [] else [os[0] + 1] + Shift(os[1..])
  }

  /** `os` names, for every survivor in `cs`, the attempt it came from. */
  ghost predicate Traces<K, V>(tries: seq<Entry<K, Option<V>>>, cs: seq<Entry<K, V>>, os: seq<nat>)
  {
    && |os| == |cs|
    && forall i :: 0 <= i < |os| ==> os[i] < |tries| && tries[os[i]] == Entry(cs[i].key, Some(cs[i].value))
  }

  /** Where each survivor came from: the position of its successful attempt. */
  function Origins<K, V>(tries: seq<Entry<K, Option<V>>>): (os: seq<nat>)
    ensures |os| == |Survivors(tries)|
    ensures Traces(tries, Survivors(tries), os)
  {
    if |tries| == 0 then []
    else
      var tail := Origins(tries[1..]);
      if tries[0].value.Some? then
        TracesKeep(tries, Survivors(tries[1..]), tail);
        [0] + Shift(tail)
      else
        TracesSkip(tries, Survivors(tries[1..]), tail);
        Shift(tail)
  }

  lemma TracesKeep<K, V>(tries: seq<Entry<K, Option<V>>>, cs: seq<Entry<K, V>>, os: seq<nat>)
    requires |tries| > 0 && tries[0].value.Some? && Traces(tries[1..], cs, os)
    ensures Traces(tries, [Entry(tries[0].key, tries[0].value.value)] + cs, [0] + Shift(os))
  {
    var cs' := [Entry(tries[0].key, tries[0].value.value)] + cs;
    var os' := [0] + Shift(os);
    forall i | 1 <= i < |os'|
      ensures os'[i] < |tries| && tries[os'[i]] == Entry(cs'[i].key, Some(cs'[i].value))
    {
      assert os'[i] == os[i - 1] + 1 && cs'[i] == cs[i - 1];
      assert tries[1..][os[i - 1]] == tries[os'[i]];
    }
  }

  lemma TracesSkip<K, V>(tries: seq<Entry<K, Option<V>>>, cs: seq<Entry<K, V>>, os: seq<nat>)
    requires |tries| > 0 && Traces(tries[1..], cs, os)
    ensures Traces(tries, cs, Shift(os))
  {
    var os' := Shift(os);
    forall i | 0 <= i < |os'|
      ensures os'[i] < |tries| && tries[os'[i]] == Entry(cs[i].key, Some(cs[i].value))
    {
      assert tries[1..][os[i]] == tries[os'[i]];
    }
  }

  /** Survivors keep the order of their attempts. */
  lemma {:induction false} OriginsIncrease<K, V>(tries: seq<Entry<K, Option<V>>>)
    ensures forall i, k :: 0 <= i < k < |Origins(tries)| ==> Origins(tries)[i] < Origins(tries)[k]
  {
    if |tries| > 0 {
      OriginsIncrease(tries[1..]);
    }
  }

  /** Every successful attempt has a survivor. */
  lemma {:induction false} OriginsCover<K, V>(tries: seq<Entry<K, Option<V>>>, j: nat)
    requires j < |tries| && tries[j].value.Some?
    ensures j in Origins(tries)
  {
    if j == 0 {
      OriginsFirst(tries);
    } else {
      assert tries[1..][j - 1] == tries[j];
      OriginsCover(tries[1..], j - 1);
      OriginsLater(tries, j);
    }
  }

  lemma OriginsFirst<K, V>(tries: seq<Entry<K, Option<V>>>)
    requires |tries| > 0 && tries[0].value.Some?
    ensures 0 in Origins(tries)
  {
    assert Origins(tries) == [0] + Shift(Origins(tries[1..]));
  }

  /** A later attempt keeps its survivor, one position further on. */
  lemma OriginsLater<K, V>(tries: seq<Entry<K, Option<V>>>, j: nat)
    requires 0 < j < |tries| && j - 1 in Origins(tries[1..])
    ensures j in Origins(tries)
  {
    var tail := Origins(tries[1..]);
    var i :| 0 <= i < |tail| && tail[i] == j - 1;
    var shifted := Shift(tail);
    assert shifted[i] == j;
    assert Origins(tries) == (if tries[0].value.Some? then [0] + shifted else shifted);
  }

  /** With distinct keys the survivors have distinct keys too, and looking a
      key up among them gives that key's successful outcome, or nothing. */
  lemma SurvivorsLookup<K, V>(tries: seq<Entry<K, Option<V>>>, j: nat)
    requires UniqueKeys(tries)
    requires j < |tries|
    ensures UniqueKeys(Survivors(tries))
    ensures Lookup(Survivors(tries), tries[j].key) == tries[j].value
  {
    var cs := Survivors(tries);
    var os := Origins(tries);
    OriginsIncrease(tries);
    assert UniqueKeys(cs) by {
      forall i, k | 0 <= i < k < |cs|
        ensures cs[i].key != cs[k].key
      {
        assert tries[os[i]].key == cs[i].key && tries[os[k]].key == cs[k].key;
      }
    }
    if tries[j].value.Some? {
      OriginsCover(tries, j);
      var i :| 0 <= i < |os| && os[i] == j;
      LookupAt(cs, i);
    } else if HasKey(cs, tries[j].key) {
      var i :| 0 <= i < |cs| && cs[i].key == tries[j].key;
    }
  }

  /** `build_centroids`: an empty corpus is refused with the model untouched;
      otherwise the centroids are replaced by the survivors, and having none is
      an error (the emptied centroids stay). The cache is never touched. */
  function BuildCentroids(m: StyleModel, enc: Encoder, corpus: seq<Entry<string, string>>, chunkSize: nat, chunkOverlap: int)
    : (r: (StyleModel, Option<string>))
    requires chunkOverlap < chunkSize
    ensures r.0.cache == m.cache
    ensures |corpus| == 0 ==> r == (m, Some("Cannot build centroids: no author data provided"))
    ensures |corpus| > 0 ==> r.0.centroids == Survivors(Attempts(enc, corpus, chunkSize, chunkOverlap))
    ensures |corpus| > 0 ==>
      (r.1.None? <==> |r.0.centroids| > 0) && (r.1.Some? ==> r.1.value == "Failed to build any valid centroids")
  {
    if |corpus| == 0 then (m, Some("Cannot build centroids: no author data provided"))
    else
      var cs := Survivors(Attempts(enc, corpus, chunkSize, chunkOverlap));
      (m.(centroids := cs), if |cs| == 0 then Some("Failed to build any valid centroids") else None)
  }

  /** An author with a non-empty text and a non-zero mean embedding always
      gets a centroid. */
  lemma AuthorWithCentroidSurvives(enc: Encoder, corpus: seq<Entry<string, string>>, chunkSize: nat, chunkOverlap: int, j: nat)
    requires chunkOverlap < chunkSize
    requires j < |corpus| && corpus[j].value != ""
    requires !IsZero(enc.mean(EncodeAll(enc, Utils.ChunkText(corpus[j].value, chunkSize, chunkOverlap))))
    ensures HasKey(BuildCentroids(StyleModel([], Cache(map[], 0, 0)), enc, corpus, chunkSize, chunkOverlap).0.centroids, corpus[j].key)
    ensures BuildCentroids(StyleModel([], Cache(map[], 0, 0)), enc, corpus, chunkSize, chunkOverlap).1.None?
  {
    var tries := Attempts(enc, corpus, chunkSize, chunkOverlap);
    var os := Origins(tries);
    OriginsCover(tries, j);
    var i :| 0 <= i < |os| && os[i] == j;
    assert Survivors(tries)[i].key == corpus[j].key;
  }

  /* ---------------------------------------------------------------------- */
  /* Similarity                                                              */
  /* ---------------------------------------------------------------------- */

  /** Python's rendering of a list of strings, `['a', 'b']`. */
  function ListRepr(xs: seq<string>): string
  {
    "[" + Join(", ", ReprAll(xs)) + "]"
  }

  function ReprAll(xs: seq<string>): (rs: seq<string>)
    ensures |rs| == |xs|
    ensures forall i :: 0 <= i < |xs| ==> rs[i] == StrRepr(xs[i])
  {
    if |xs| == 0 then [] else [StrRepr(xs[0])] + ReprAll(xs[1..])
  }

  /** `similarity_to_author`: an unknown author is an error naming the known
      ones, with the model untouched; otherwise the dot product of the text's
      embedding with that author's centroid, which for a coherent cache is the
      embedding itself. */
  function SimilarityToAuthor(m: StyleModel, enc: Encoder, text: string, author: string)
    : (r: (Result<real>, StyleModel))
    ensures !HasKey(m.centroids, author) ==>
      r == (Err("Author '" + author + "' not found. Available authors: " + ListRepr(Keys(m.centroids))), m)
    ensures HasKey(m.centroids, author) ==>
      && r.0.Ok?
      && r.1.centroids == m.centroids
      && r.1.cache == EmbedAndNormalize(m.cache, enc, text).1
    ensures HasKey(m.centroids, author) && Coherent(m.cache, enc) ==>
      r.0 == Ok(Dot(Embed(enc, text), Lookup(m.centroids, author).value))
  {
    match Lookup(m.centroids, author)
    case None =>
      (Err("Author '" + author + "' not found. Available authors: " + ListRepr(Keys(m.centroids))), m)
    case Some(centroid) =>
      var (emb, cache) := EmbedAndNormalize(m.cache, enc, text);
      (Ok(Dot(emb, centroid)), m.(cache := cache))
  }

  const NoCentroids := "No centroids available. Call build_centroids() first."

  /** The scan of `find_closest_author` over centroids `cs`, left to right:
      starting from no author at -1, an author replaces the best so far only
      when its score is strictly higher. */
  function ClosestOf(emb: Vector, cs: seq<Entry<string, Vector>>): (r: (Option<string>, real))
    ensures r.1 >= -1.0
    ensures r.0.None? <==> r.1 == -1.0
    ensures r.0.Some? ==> exists i :: 0 <= i < |cs| && cs[i].key == r.0.value
  {
    if |cs| == 0 then (None, -1.0)
    else
      var (best, score) := ClosestOf(emb, cs[..|cs| - 1]);
      var d := Dot(emb, cs[|cs| - 1].value);
      if d > score then (Some(cs[|cs| - 1].key), d) else (best, score)
  }

  /** The scan finds the first strict maximum above -1: its score bounds every
      author's, and a chosen author is the first to reach it; with no author
      chosen every score is at most -1. */
  lemma {:induction false} ClosestOfIsFirstBest(emb: Vector, cs: seq<Entry<string, Vector>>)
    ensures var (best, score) := ClosestOf(emb, cs);
      && (forall j :: 0 <= j < |cs| ==> Dot(emb, cs[j].value) <= score)
      && (best.Some? ==>
            exists i :: 0 <= i < |cs|
              && cs[i].key == best.value
              && Dot(emb, cs[i].value) == score
              && score > -1.0
              && forall j :: 0 <= j < i ==> Dot(emb, cs[j].value) < score)
  {
    if |cs| > 0 {
      var n := |cs| - 1;
      var front := cs[..n];
      ClosestOfIsFirstBest(emb, front);
      var (b, s) := ClosestOf(emb, front);
      var d := Dot(emb, cs[n].value);
      assert forall j :: 0 <= j < n ==> cs[j] == front[j];
      if d > s {
        assert forall j :: 0 <= j < n ==> Dot(emb, cs[j].value) < d;
      } else if b.Some? {
        var i :| 0 <= i < n && front[i].key == b.value && Dot(emb, front[i].value) == s && s > -1.0
                 && forall j :: 0 <= j < i ==> Dot(emb, front[j].value) < s;
        assert cs[i] == front[i];
      }
    }
  }

  /** The author `find_closest_author` picks for `text`, with its score. */
  function Closest(m: StyleModel, enc: Encoder, text: string): (Option<string>, real)
  {
    ClosestOf(EmbedAndNormalize(m.cache, enc, text).0, m.centroids)
  }

  /** `find_closest_author`: with no centroids an error; otherwise the first
      author whose score is strictly the best and above -1, with that score,
      or no author and -1 when every score is at most -1. */
  method FindClosestAuthor(m: StyleModel, enc: Encoder, text: string)
    returns (r: Result<(Option<string>, real)>, m': StyleModel)
    ensures |m.centroids| == 0 ==> r == Err(NoCentroids) && m' == m
    ensures |m.centroids| > 0 ==> r.Ok? && m' == m.(cache := EmbedAndNormalize(m.cache, enc, text).1)
    ensures r.Ok? ==> r.value == Closest(m, enc, text)
    ensures r.Ok? ==>
      var emb := EmbedAndNormalize(m.cache, enc, text).0;
      var (best, score) := r.value;
      && (forall j :: 0 <= j < |m.centroids| ==> Dot(emb, m.centroids[j].value) <= score)
      && (best.None? <==> score == -1.0)
      && (best.None? ==> forall j :: 0 <= j < |m.centroids| ==> Dot(emb, m.centroids[j].value) <= -1.0)
      && (best.Some? ==>
            exists i :: 0 <= i < |m.centroids|
              && m.centroids[i].key == best.value
              && Dot(emb, m.centroids[i].value) == score
              && score > -1.0
              && forall j :: 0 <= j < i ==> Dot(emb, m.centroids[j].value) < score)
  {
    if |m.centroids| == 0 {
      return Err(NoCentroids), m;
    }
    var emb, cache := EmbedAndNormalize(m.cache, enc, text).0, EmbedAndNormalize(m.cache, enc, text).1;
    var best: Option<string> := None;
    var bestScore: real := -1.0;
    var i := 0;
    while i < |m.centroids|
      invariant 0 <= i <= |m.centroids|
      invariant (best, bestScore) == ClosestOf(emb, m.centroids[..i])
    {
      var score := Dot(emb, m.centroids[i].value);
      assert m.centroids[..i + 1][..i] == m.centroids[..i];
      if score > bestScore {
        best, bestScore := Some(m.centroids[i].key), score;
      }
      i := i + 1;
    }
    assert m.centroids[..i] == m.centroids;
    ClosestOfIsFirstBest(emb, m.centroids);
    r := Ok((best, bestScore));
    m' := m.(cache := cache);
  }
}

=== FILE: style_pipeline.dfy ===
/**
 The style-refinement pipeline: the early exits for a blank draft and for an
 author without examples, the choice of style examples per author, the
 acceptance of a draft that is already close enough, and the refinement loop
 with its attempt budget and its strict-improvement rule.

 The rewrites and the similarity scores the loop sees are parameters: the
 k-th rewrite of a text and the k-th similarity computation. They stand for
 `LlmServices.RewriteToStyle` and `MultiModal.ComputeSimilarity` with the
 author and the examples fixed, whose answers depend on the model.
 */
module StylePipeline {
  import opened Common
  import opened Text
  import StyleAnalysis
  import StyleEmbedder
  import MultiModal

  /** The three similarity figures the pipeline tracks. */
  datatype Scores = Scores(combined: real, embedding: Option<real>, llm: Option<real>)

  /** Why the refinement loop stopped. */
  datatype StopReason =
    | ReachedThreshold
    | BudgetSpent
    | EmptyRewrite
    | Plateau
    | Failed(error: string)

  /** The outcome of the loop: the accepted texts (the draft first), their
      scores' combined values, the last accepted scores and the reason to
      stop. */
  datatype Run = Run(texts: seq<string>, history: seq<real>, scores: Scores, stop: StopReason)
  {
    function Attempts(): int
    {
      |texts| - 1
    }
  }

  /** The least improvement a rewrite must bring to be accepted. */
  const MinImprovement: real := 0.01

  /** Attempt `k` of a run: `texts[k + 1]` is the k-th rewrite of
      `texts[k]`, not blank, scored `history[k + 1]` by the k-th rescoring,
      which improves on `history[k]` by more than 0.01. */
  predicate Step(texts: seq<string>, history: seq<real>, k: nat,
                 rewrite: (nat, string) -> Result<string>, rescore: (nat, string) -> Result<Scores>)
    requires k + 1 < |texts| && k + 1 < |history|
  {
    && rewrite(k, texts[k]).Ok?
    && texts[k + 1] == rewrite(k, texts[k]).value
    && !IsBlank(texts[k + 1])
    && rescore(k, texts[k + 1]).Ok?
    && history[k + 1] == rescore(k, texts[k + 1]).value.combined
    && history[k + 1] - history[k] > MinImprovement
  }

  /** The run so far is the one the loop builds, attempt by attempt. */
  predicate Accepted(texts: seq<string>, history: seq<real>, initial: Scores,
                     rewrite: (nat, string) -> Result<string>, rescore: (nat, string) -> Result<Scores>)
  {
    && |texts| == |history| >= 1
    && history[0] == initial.combined
    && forall k: nat :: k < |texts| - 1 ==> Step(texts, history, k, rewrite, rescore)
  }

  /** Accepting one more rewrite extends an accepted run. */
  lemma AcceptedExtend(texts: seq<string>, history: seq<real>, initial: Scores,
                       rewrite: (nat, string) -> Result<string>, rescore: (nat, string) -> Result<Scores>,
                       next: Scores)
    requires Accepted(texts, history, initial, rewrite, rescore)
    requires var k := |texts| - 1;
      && rewrite(k, texts[k]).Ok? && !IsBlank(rewrite(k, texts[k]).value)
      && rescore(k, rewrite(k, texts[k]).value) == Ok(next)
      && next.combined - history[k] > MinImprovement
    ensures var k := |texts| - 1;
      Accepted(texts + [rewrite(k, texts[k]).value], history + [next.combined], initial, rewrite, rescore)
  {
    var k := |texts| - 1;
    var texts' := texts + [rewrite(k, texts[k]).value];
    var history' := history + [next.combined];
    forall j: nat | j < |texts'| - 1 ensures Step(texts', history', j, rewrite, rescore) {
      if j < k {
        assert Step(texts, history, j, rewrite, rescore);
        assert texts'[j] == texts[j] && texts'[j + 1] == texts[j + 1];
        assert history'[j] == history[j] && history'[j + 1] == history[j + 1];
      }
    }
  }

  /** Why the run ended, as the loop decides it: the loop goes on only while
      the score is below the threshold and attempts remain, so every accepted
      score but the last is below the threshold; it ends at the threshold, on
      a spent budget, or on what the next attempt brought: a blank rewrite, an
      improvement of at most 0.01, or a failure. */
  predicate Stopped(run: Run, threshold: real, maxAttempts: nat,
                    rewrite: (nat, string) -> Result<string>, rescore: (nat, string) -> Result<Scores>)
  {
    && |run.texts| >= 1 && |run.history| == |run.texts|
    && (forall k :: 0 <= k < run.Attempts() ==> run.history[k] < threshold)
    && (run.stop == ReachedThreshold <==> run.scores.combined >= threshold)
    && (run.stop == BudgetSpent ==> run.Attempts() == maxAttempts)
    && (run.stop.EmptyRewrite? || run.stop.Plateau? || run.stop.Failed? ==>
          run.Attempts() < maxAttempts && run.scores.combined < threshold)
    && var k := run.Attempts();
       var last := run.texts[k];
       && (run.stop == EmptyRewrite ==> rewrite(k, last).Ok? && IsBlank(rewrite(k, last).value))
       && (run.stop == Plateau ==>
             && rewrite(k, last).Ok? && !IsBlank(rewrite(k, last).value)
             && rescore(k, rewrite(k, last).value).Ok?
             && rescore(k, rewrite(k, last).value).value.combined - run.scores.combined <= MinImprovement)
       && (run.stop.Failed? ==>
             || rewrite(k, last) == Err(run.stop.error)
             || (&& rewrite(k, last).Ok? && !IsBlank(rewrite(k, last).value)
                 && rescore(k, rewrite(k, last).value) == Err(run.stop.error)))
  }

  /** The refinement `while` loop: while the score is below the threshold and
      attempts remain, rewrite the current text; stop on a blank rewrite, on
      an improvement of at most 0.01 (the candidate is dropped) or on any
      failure; otherwise accept the rewrite and its scores. */
  method RefineLoop(draft: string, initial: Scores, threshold: real, maxAttempts: nat,
                    rewrite: (nat, string) -> Result<string>, rescore: (nat, string) -> Result<Scores>)
    returns (run: Run)
    ensures Accepted(run.texts, run.history, initial, rewrite, rescore)
    ensures run.texts[0] == draft
    ensures 0 <= run.Attempts() <= maxAttempts
    ensures run.history[|run.history| - 1] == run.scores.combined
    ensures run.Attempts() == 0 ==> run.scores == initial
    ensures run.Attempts() > 0 ==>
      && rescore(run.Attempts() - 1, run.texts[run.Attempts()]).Ok?
      && run.scores == rescore(run.Attempts() - 1, run.texts[run.Attempts()]).value
    ensures Stopped(run, threshold, maxAttempts, rewrite, rescore)
  {
    var texts := [draft];
    var history := [initial.combined];
    var current := initial;
    var attempts: nat := 0;
    var stop: Option<StopReason> := None;
    while stop.None? && current.combined < threshold && attempts < maxAttempts
      invariant |texts| == attempts + 1 && attempts <= maxAttempts
      invariant texts[0] == draft
      invariant Accepted(texts, history, initial, rewrite, rescore)
      invariant forall k :: 0 <= k < attempts ==> history[k] < threshold
      invariant history[attempts] == current.combined
      invariant attempts == 0 ==> current == initial
      invariant attempts > 0 ==>
        rescore(attempts - 1, texts[attempts]).Ok? && current == rescore(attempts - 1, texts[attempts]).value
      invariant stop.Some? ==> current.combined < threshold && attempts < maxAttempts
      invariant stop.Some? ==> !stop.value.ReachedThreshold? && !stop.value.BudgetSpent?
      invariant stop.Some? ==>
        var last := texts[attempts];
        && (stop.value == EmptyRewrite ==> rewrite(attempts, last).Ok? && IsBlank(rewrite(attempts, last).value))
        && (stop.value == Plateau ==>
              && rewrite(attempts, last).Ok? && !IsBlank(rewrite(attempts, last).value)
              && rescore(attempts, rewrite(attempts, last).value).Ok?
              && rescore(attempts, rewrite(attempts, last).value).value.combined - current.combined <= MinImprovement)
        && (stop.value.Failed? ==>
              || rewrite(attempts, last) == Err(stop.value.error)
              || (&& rewrite(attempts, last).Ok? && !IsBlank(rewrite(attempts, last).value)
                  && rescore(attempts, rewrite(attempts, last).value) == Err(stop.value.error)))
      decreases maxAttempts - attempts, if stop.None? then 1 else 0
    {
      var text := texts[attempts];
      match rewrite(attempts, text)
      case Err(e) =>
        stop := Some(Failed(e));
      case Ok(rewritten) =>
        if IsBlank(rewritten) {
          stop := Some(EmptyRewrite);
        } else {
          match rescore(attempts, rewritten)
          case Err(e) =>
            stop := Some(Failed(e));
          case Ok(next) =>
            if next.combined - current.combined <= MinImprovement {
              stop := Some(Plateau);
            } else {
              AcceptedExtend(texts, history, initial, rewrite, rescore, next);
              texts := texts + [rewritten];
              history := history + [next.combined];
              current := next;
              attempts := attempts + 1;
            }
        }
    }
    var reason :=
      if stop.Some? then stop.value
      else if current.combined >= threshold then ReachedThreshold
      else BudgetSpent;
    run := Run(texts, history, current, reason);
  }

  /** The scores of an accepted run rise strictly, by more than 0.01 per
      attempt, so the last is above the first by more than 0.01 per attempt. */
  lemma {:induction false} HistoryRises(history: seq<real>, n: nat)
    requires 0 < n < |history|
    requires forall k :: 0 <= k < |history| - 1 ==> history[k + 1] - history[k] > MinImprovement
    ensures history[n] - history[0] > n as real * MinImprovement
  {
    if n > 1 {
      HistoryRises(history, n - 1);
    }
  }

  /* ---------------------------------------------------------------------- */
  /* The pipeline                                                            */
  /* ---------------------------------------------------------------------- */

  /** The result dictionary; keys that only some outcomes carry are options. */
  datatype PipelineResult = PipelineResult(
    styledBlog: string,
    styleSimilarity: real,
    embeddingSimilarity: Option<real>,
    llmSimilarity: Option<real>,
    rewriteAttempts: nat,
    closestAuthor: Option<string>,
    initialSimilarity: Option<real>,
    improvementHistory: Option<seq<real>>,
    error: Option<string>,
    warning: Option<string>,
    success: bool)

  /** The record for a missing or blank draft. */
  const NoDraft := PipelineResult("", 0.0, None, None, 0, None, None, None, Some("No draft provided"), None, false)

  /** The record for a matched author without style examples: the draft,
      with the matching score standing in for the similarity. */
  function NoExamples(draft: string, author: Option<string>, embScore: real): (r: PipelineResult)
    ensures !r.success && r.styledBlog == draft && r.rewriteAttempts == 0 && r.closestAuthor == author
    ensures r.error == Some("No style examples available")
  {
    PipelineResult(draft, embScore, Some(embScore), None, 0, author, None, None,
                   Some("No style examples available"), None, false)
  }

  /** The record for any failure outside the loop: the draft, unscored. */
  function Failure(draft: string, error: string): (r: PipelineResult)
    ensures !r.success && r.styledBlog == draft && r.rewriteAttempts == 0 && r.closestAuthor.None?
    ensures r.styleSimilarity == 0.0 && r.error == Some(error)
  {
    PipelineResult(draft, 0.0, None, None, 0, None, None, None, Some(error), None, false)
  }

  /** The style examples of every author: diverse excerpts when several are
      enabled (their minimum length is the example length shared out, which
      fails for zero examples), otherwise the head of the author's text. */
  function ExamplesFor(corpus: seq<Entry<string, string>>, cfg: Config)
    : (r: Result<seq<Entry<string, seq<string>>>>)
    ensures r.Err? <==> |corpus| > 0 && cfg.useMultipleStyleExamples && cfg.numStyleExamples == 0
    ensures r.Ok? ==> |r.value| == |corpus|
    ensures r.Ok? ==> forall i :: 0 <= i < |corpus| ==>
      && r.value[i].key == corpus[i].key
      && |r.value[i].value| >= 1
      && (cfg.useMultipleStyleExamples ==>
            r.value[i].value == StyleAnalysis.SelectDiverseExamples(
              corpus[i].value, cfg.numStyleExamples, FloorDiv(cfg.styleExampleLength, cfg.numStyleExamples)).value)
      && (!cfg.useMultipleStyleExamples ==> r.value[i].value == [Take(corpus[i].value, cfg.styleExampleLength)])
  {
    if |corpus| == 0 then Ok([])
    else if cfg.useMultipleStyleExamples && cfg.numStyleExamples == 0 then Err("integer division or modulo by zero")
    else
      var content := corpus[0].value;
      var examples :=
        if cfg.useMultipleStyleExamples then
          StyleAnalysis.SelectDiverseExamples(content, cfg.numStyleExamples, FloorDiv(cfg.styleExampleLength, cfg.numStyleExamples)).value
        else [Take(content, cfg.styleExampleLength)];
      match ExamplesFor(corpus[1..], cfg)
      case Err(e) => Err(e)
      case Ok(rest) => Ok([Entry(corpus[0].key, examples)] + rest)
  }

  /** The final record of a refinement: the last accepted text and scores,
      the history, and a warning when the threshold was not reached. */
  function Refined(run: Run, author: Option<string>, initial: Scores, threshold: real): (r: PipelineResult)
    requires run.Attempts() >= 0
    ensures r.success && r.error.None?
    ensures r.warning.Some? <==> run.scores.combined < threshold
    ensures r.styledBlog == run.texts[|run.texts| - 1] && r.styleSimilarity == run.scores.combined
    ensures r.improvementHistory == Some(run.history) && r.initialSimilarity == Some(initial.combined)
  {
    PipelineResult(
      run.texts[|run.texts| - 1], run.scores.combined, run.scores.embedding, run.scores.llm,
      run.Attempts(), author, Some(initial.combined), Some(run.history), None,
      if run.scores.combined < threshold then Some("Similarity threshold not reached") else None,
      true)
  }

  /** The set-up before the author is matched: the centroids built from the
      corpus, and every author's examples. */
  function Prepare(cfg: Config, corpus: seq<Entry<string, string>>, enc: StyleEmbedder.Encoder)
    : (r: Result<(StyleEmbedder.StyleModel, seq<Entry<string, seq<string>>>)>)
    requires cfg.chunkOverlap < cfg.chunkSize
    ensures |corpus| == 0 ==> r == Err("Cannot build centroids: no author data provided")
    ensures r.Ok? <==> |corpus| > 0 && ExamplesFor(corpus, cfg).Ok?
                       && StyleEmbedder.BuildCentroids(Empty, enc, corpus, cfg.chunkSize, cfg.chunkOverlap).1.None?
    ensures r.Ok? ==> |r.value.0.centroids| > 0 && r.value.1 == ExamplesFor(corpus, cfg).value
  {
    var (model, buildError) := StyleEmbedder.BuildCentroids(Empty, enc, corpus, cfg.chunkSize, cfg.chunkOverlap);
    if buildError.Some? then Err(buildError.value)
    else
      match ExamplesFor(corpus, cfg)
      case Err(e) => Err(e)
      case Ok(examples) => Ok((model, examples))
  }

  /** A model with no centroids and an empty cache. */
  const Empty := StyleEmbedder.StyleModel([], StyleEmbedder.Cache(map[], 0, 0))

  /** The examples of the matched author, none when no author matched. */
  function ExamplesOf(examplesByAuthor: seq<Entry<string, seq<string>>>, author: Option<string>): (es: seq<string>)
    ensures author.None? ==> es == []
    ensures author.Some? ==> es == (if HasKey(examplesByAuthor, author.value) then Lookup(examplesByAuthor, author.value).value else [])
  {
    if author.Some? && HasKey(examplesByAuthor, author.value) then Lookup(examplesByAuthor, author.value).value else []
  }

  /** The rescoring the loop sees: the k-th rewrite is scored by the
      (k + 1)-th similarity computation, the draft's being the 0-th. */
  function Later(score: (nat, string) -> Result<Scores>): (nat, string) -> Result<Scores>
  {
    (k: nat, t: string) => score(k + 1, t)
  }

  /** The three figures a result reports. */
  function Reported(res: PipelineResult): Scores
  {
    Scores(res.styleSimilarity, res.embeddingSimilarity, res.llmSimilarity)
  }

  /** `res` reports the run: the draft is refined by the accepted rewrites
      of `run`, the styled text is the last of them, and the figures are the
      last accepted scores (the initial ones when none was accepted). */
  predicate Reports(res: PipelineResult, run: Run, draft: string, initial: Scores,
                    rewrite: (nat, string) -> Result<string>, score: (nat, string) -> Result<Scores>)
  {
    && Accepted(run.texts, run.history, initial, rewrite, Later(score))
    && run.texts[0] == draft
    && res.rewriteAttempts == run.Attempts()
    && res.styledBlog == run.texts[|run.texts| - 1]
    && res.styleSimilarity == run.history[|run.history| - 1]
    && res.initialSimilarity == Some(initial.combined)
    && run.scores == Reported(res)
    && (res.rewriteAttempts == 0 ==> Reported(res) == initial)
    && (res.rewriteAttempts > 0 ==> score(res.rewriteAttempts, res.styledBlog) == Ok(Reported(res)))
  }

  /** A reported text is a rewrite: after n > 0 accepted attempts the styled
      text is the (n - 1)-th rewrite of the text accepted before it, it is
      not blank, and its figures are its own scores, which beat those of the
      text before it by more than 0.01. */
  lemma {:induction false} ReportedIsLastRewrite(res: PipelineResult, run: Run, draft: string, initial: Scores,
                                                 rewrite: (nat, string) -> Result<string>,
                                                 score: (nat, string) -> Result<Scores>)
    requires Reports(res, run, draft, initial, rewrite, score)
    requires res.rewriteAttempts > 0
    ensures var n := res.rewriteAttempts;
      && rewrite(n - 1, run.texts[n - 1]) == Ok(res.styledBlog)
      && !IsBlank(res.styledBlog)
      && score(n, res.styledBlog) == Ok(Reported(res))
      && res.styleSimilarity - run.history[n - 1] > MinImprovement
  {
    var n := res.rewriteAttempts;
    var k: nat := n - 1;
    assert Step(run.texts, run.history, k, rewrite, Later(score));
  }

  /** From the initial similarity on: a draft already at the threshold is
      returned as it is; otherwise the loop runs and its outcome is reported,
      with a warning when the threshold was not reached. `run` is the loop's
      run, or the draft alone when the loop does not start. */
  method Refine(draft: string, author: string, initial: Scores, cfg: Config,
                rewrite: (nat, string) -> Result<string>, score: (nat, string) -> Result<Scores>)
    returns (res: PipelineResult, ghost run: Run)
    ensures res.success && res.closestAuthor == Some(author) && res.error.None?
    ensures Reports(res, run, draft, initial, rewrite, score)
    ensures Stopped(run, cfg.similarityThreshold, cfg.maxRewriteAttempts, rewrite, Later(score))
    ensures res.rewriteAttempts <= cfg.maxRewriteAttempts
    ensures res.warning.Some? <==> res.styleSimilarity < cfg.similarityThreshold
    ensures initial.combined >= cfg.similarityThreshold ==>
      res.styledBlog == draft && res.rewriteAttempts == 0 && res.styleSimilarity == initial.combined
    ensures res.rewriteAttempts == 0 ==> res.styledBlog == draft && res.styleSimilarity == initial.combined
    ensures initial.combined < cfg.similarityThreshold ==> res.improvementHistory == Some(run.history)
    ensures res.improvementHistory.Some? ==>
      var h := res.improvementHistory.value;
      && |h| == res.rewriteAttempts + 1
      && h[0] == initial.combined
      && h[|h| - 1] == res.styleSimilarity
      && forall k :: 0 <= k < |h| - 1 ==> h[k + 1] - h[k] > MinImprovement
  {
    if initial.combined >= cfg.similarityThreshold {
      run := Run([draft], [initial.combined], initial, ReachedThreshold);
      return PipelineResult(draft, initial.combined, initial.embedding, initial.llm, 0, Some(author),
                            Some(initial.combined), None, None, None, true), run;
    }
    var loopRun := RefineLoop(draft, initial, cfg.similarityThreshold, cfg.maxRewriteAttempts,
                              rewrite, Later(score));
    forall k | 0 <= k < |loopRun.history| - 1
      ensures loopRun.history[k + 1] - loopRun.history[k] > MinImprovement
    {
      var j: nat := k;
      assert Step(loopRun.texts, loopRun.history, j, rewrite, Later(score));
    }
    res := Refined(loopRun, Some(author), initial, cfg.similarityThreshold);
    run := loopRun;
  }

  /** The author matched to the draft, when the centroids exist: one of
      them, or none when no score exceeds -1. */
  method MatchAuthor(model: StyleEmbedder.StyleModel, enc: StyleEmbedder.Encoder, draft: string)
    returns (author: Option<string>, score: real)
    requires |model.centroids| > 0
    ensures author.Some? ==> HasKey(model.centroids, author.value)
    ensures author.None? <==> score == -1.0
    ensures (author, score) == StyleEmbedder.Closest(model, enc, draft)
  {
    var closest, _ := MultiModal.FindClosestAuthor(model, enc, draft);
    author, score := closest.value.0, closest.value.1;
  }

  /** What the set-up leaves: a record to return at once, or the model and
      every author's examples to go on with. */
  datatype Stage =
    | Done(res: PipelineResult)
    | Ready(model: StyleEmbedder.StyleModel, examples: seq<Entry<string, seq<string>>>)

  /** The early exits and the set-up: a blank draft, a failed fetch, an empty
      corpus and a failed preparation each end the pipeline. */
  function Setup(draft: string, cfg: Config, feed: Result<seq<Entry<string, string>>>, enc: StyleEmbedder.Encoder)
    : (st: Stage)
    requires cfg.chunkOverlap < cfg.chunkSize
    ensures IsBlank(draft) ==> st == Done(NoDraft)
    ensures !IsBlank(draft) && feed.Err? ==> st == Done(Failure(draft, feed.msg))
    ensures !IsBlank(draft) && feed.Ok? && |feed.value| == 0 ==>
      st == Done(Failure(draft, "Cannot build centroids: no author data provided"))
    ensures !IsBlank(draft) && feed.Ok? && |feed.value| > 0 && cfg.useMultipleStyleExamples && cfg.numStyleExamples == 0 ==>
      st.Done? && !st.res.success && st.res.error.Some?
    ensures st.Done? ==> !st.res.success && st.res.rewriteAttempts == 0 && (st.res.styledBlog == draft || st.res == NoDraft)
    ensures st.Ready? ==> !IsBlank(draft) && |st.model.centroids| > 0
  {
    if IsBlank(draft) then Done(NoDraft)
    else if feed.Err? then Done(Failure(draft, feed.msg))
    else
      match Prepare(cfg, feed.value, enc)
      case Err(e) => Done(Failure(draft, e))
      case Ok((model, examples)) => Ready(model, examples)
  }

  /** `style_refinement_pipeline`. `feed` is what fetching the author corpus
      gave; `score(0, draft)` is the initial similarity and `score(k + 1, t)`
      the similarity of the k-th rewrite. */
  method StyleRefinementPipeline(draft: string, cfg: Config, feed: Result<seq<Entry<string, string>>>,
                                 enc: StyleEmbedder.Encoder,
                                 rewrite: (nat, string) -> Result<string>, score: (nat, string) -> Result<Scores>)
    returns (res: PipelineResult, ghost run: Run)
    requires cfg.chunkOverlap < cfg.chunkSize
    ensures IsBlank(draft) ==> res == NoDraft
    ensures !IsBlank(draft) && feed.Err? ==> res == Failure(draft, feed.msg)
    ensures !IsBlank(draft) && feed.Ok? && |feed.value| == 0 ==>
      res == Failure(draft, "Cannot build centroids: no author data provided")
    ensures !IsBlank(draft) && feed.Ok? && |feed.value| > 0 && cfg.useMultipleStyleExamples && cfg.numStyleExamples == 0 ==>
      !res.success && res.error.Some?
    ensures !res.success ==> res.rewriteAttempts == 0 && (res.styledBlog == draft || res == NoDraft)
    ensures res.success ==>
      && res.closestAuthor.Some? && res.error.None?
      && res.rewriteAttempts <= cfg.maxRewriteAttempts
      && (res.warning.Some? <==> res.styleSimilarity < cfg.similarityThreshold)
    ensures Setup(draft, cfg, feed, enc).Done? ==> res == Setup(draft, cfg, feed, enc).res
    ensures var st := Setup(draft, cfg, feed, enc);
      st.Ready? ==>
        (res.success <==> |ExamplesOf(st.examples, StyleEmbedder.Closest(st.model, enc, draft).0)| > 0 && score(0, draft).Ok?)
    ensures res.success ==>
      && score(0, draft).Ok?
      && Reports(res, run, draft, score(0, draft).value, rewrite, score)
      && Stopped(run, cfg.similarityThreshold, cfg.maxRewriteAttempts, rewrite, Later(score))
      && score(res.rewriteAttempts, res.styledBlog) == Ok(Reported(res))
      && (score(0, draft).value.combined >= cfg.similarityThreshold ==> res.styledBlog == draft && res.rewriteAttempts == 0)
    ensures res.success && res.rewriteAttempts == 0 ==> res.styledBlog == draft
    ensures res.improvementHistory.Some? ==>
      var h := res.improvementHistory.value;
      && |h| == res.rewriteAttempts + 1
      && h[|h| - 1] == res.styleSimilarity
      && forall k :: 0 <= k < |h| - 1 ==> h[k + 1] - h[k] > MinImprovement
  {
    match Setup(draft, cfg, feed, enc)
    case Done(r) =>
      res := r;
      run := Run([draft], [0.0], Scores(0.0, None, None), ReachedThreshold);
    case Ready(model, examples) =>
      res, run := MatchAndRefine(draft, cfg, model, examples, enc, rewrite, score);
  }

  /** Everything after the set-up: the author is matched, a draft without
      examples for them is refused, and otherwise it is scored and refined. */
  method MatchAndRefine(draft: string, cfg: Config, model: StyleEmbedder.StyleModel,
                        examplesByAuthor: seq<Entry<string, seq<string>>>, enc: StyleEmbedder.Encoder,
                        rewrite: (nat, string) -> Result<string>, score: (nat, string) -> Result<Scores>)
    returns (res: PipelineResult, ghost run: Run)
    requires |model.centroids| > 0
    ensures !res.success ==> res.rewriteAttempts == 0 && res.styledBlog == draft && res.error.Some?
    ensures var (matched, embScore) := StyleEmbedder.Closest(model, enc, draft);
      |ExamplesOf(examplesByAuthor, matched)| == 0 ==> res == NoExamples(draft, matched, embScore)
    ensures var matched := StyleEmbedder.Closest(model, enc, draft).0;
      |ExamplesOf(examplesByAuthor, matched)| > 0 && score(0, draft).Err? ==> res == Failure(draft, score(0, draft).msg)
    ensures res.success <==>
      |ExamplesOf(examplesByAuthor, StyleEmbedder.Closest(model, enc, draft).0)| > 0 && score(0, draft).Ok?
    ensures res.success ==>
      && score(0, draft).Ok?
      && res.closestAuthor == StyleEmbedder.Closest(model, enc, draft).0
      && Reports(res, run, draft, score(0, draft).value, rewrite, score)
      && Stopped(run, cfg.similarityThreshold, cfg.maxRewriteAttempts, rewrite, Later(score))
      && score(res.rewriteAttempts, res.styledBlog) == Ok(Reported(res))
      && (score(0, draft).value.combined >= cfg.similarityThreshold ==> res.styledBlog == draft && res.rewriteAttempts == 0)
    ensures res.success ==>
      && res.closestAuthor.Some? && HasKey(model.centroids, res.closestAuthor.value) && res.error.None?
      && res.rewriteAttempts <= cfg.maxRewriteAttempts
      && (res.warning.Some? <==> res.styleSimilarity < cfg.similarityThreshold)
    ensures res.success && res.rewriteAttempts == 0 ==> res.styledBlog == draft
    ensures res.improvementHistory.Some? ==>
      var h := res.improvementHistory.value;
      && |h| == res.rewriteAttempts + 1
      && h[|h| - 1] == res.styleSimilarity
      && forall k :: 0 <= k < |h| - 1 ==> h[k + 1] - h[k] > MinImprovement
  {
    run := Run([draft], [0.0], Scores(0.0, None, None), ReachedThreshold);
    var author, embScore := MatchAuthor(model, enc, draft);
    var examples := ExamplesOf(examplesByAuthor, author);
    if |examples| == 0 {
      return NoExamples(draft, author, embScore), run;
    }
    var initialScores := score(0, draft);
    if initialScores.Err? {
      return Failure(draft, initialScores.msg), run;
    }
    res, run := Refine(draft, author.value, initialScores.value, cfg, rewrite, score);
  }

  /* ---------------------------------------------------------------------- */
  /* The progress log lines as written                                       */
  /* ---------------------------------------------------------------------- */

  /** The exception a log line raises: the first raised formatting its
      fields, left to right. */
  function FirstError(outcomes: seq<Option<string>>): (e: Option<string>)
    ensures e.None? <==> forall i :: 0 <= i < |outcomes| ==> outcomes[i].None?
  {
    if |outcomes| == 0 then None
    else if outcomes[0].Some? then outcomes[0]
    else FirstError(outcomes[1..])
  }

  /** A field that formats passes the exception on to the rest. */
  lemma FirstErrorSkip(outcomes: seq<Option<string>>)
    requires |outcomes| > 0 && outcomes[0].None?
    ensures FirstError(outcomes) == FirstError(outcomes[1..])
  {
  }

  /** Formatting each field of the line logging the matched author and the
      initial scores. */
  function OpeningLog(s: Scores): seq<Option<string>>
  {
    [MultiModal.FormatError(Some(s.combined), ".4f"),
     MultiModal.FormatError(s.embedding, MultiModal.ConditionalSpec("initial_emb_sim")),
     MultiModal.FormatError(s.llm, MultiModal.ConditionalSpec("initial_llm_sim"))]
  }

  /** Formatting each field of the line logging one rewrite's scores against
      the current ones. */
  function LoopLog(current: real, next: Scores): seq<Option<string>>
  {
    [MultiModal.FormatError(Some(current), ".4f"),
     MultiModal.FormatError(Some(next.combined), ".4f"),
     MultiModal.FormatError(Some(next.combined - current), "+.4f"),
     MultiModal.FormatError(next.embedding, MultiModal.ConditionalSpec("new_emb_sim")),
     MultiModal.FormatError(next.llm, MultiModal.ConditionalSpec("new_llm_sim"))]
  }

  /** Formatting each field of the line logging the outcome of the
      refinement. */
  function ClosingLog(initial: real, s: Scores): seq<Option<string>>
  {
    [MultiModal.FormatError(Some(initial), ".4f"),
     MultiModal.FormatError(Some(s.combined), ".4f"),
     MultiModal.FormatError(s.embedding, MultiModal.ConditionalSpec("current_emb_sim")),
     MultiModal.FormatError(s.llm, MultiModal.ConditionalSpec("current_llm_sim"))]
  }

  /** The opening line raises on the embedding field, whatever the scores. */
  lemma OpeningLogRaises(s: Scores)
    ensures FirstError(OpeningLog(s)).Some?
    ensures FirstError(OpeningLog(s)) == MultiModal.FormatError(s.embedding, MultiModal.ConditionalSpec("initial_emb_sim"))
  {
    var outcomes := OpeningLog(s);
    MultiModal.FourDecimalsFormat(s.combined);
    MultiModal.ConditionalFormatRaises(s.embedding, "initial_emb_sim");
    FirstErrorSkip(outcomes);
    assert FirstError(outcomes[1..]) == outcomes[1];
  }

  /** The line for a rewrite raises on its embedding field: the three scores
      before it format, the embedding never does. */
  lemma LoopLogRaises(current: real, next: Scores)
    ensures FirstError(LoopLog(current, next)).Some?
    ensures FirstError(LoopLog(current, next)) == MultiModal.FormatError(next.embedding, MultiModal.ConditionalSpec("new_emb_sim"))
  {
    var outcomes := LoopLog(current, next);
    MultiModal.FourDecimalsFormat(current);
    MultiModal.FourDecimalsFormat(next.combined);
    MultiModal.SignedFourDecimalsFormat(next.combined - current);
    MultiModal.ConditionalFormatRaises(next.embedding, "new_emb_sim");
    FirstErrorSkip(outcomes);
    FirstErrorSkip(outcomes[1..]);
    FirstErrorSkip(outcomes[2..]);
    assert outcomes[2..][1..] == outcomes[3..];
    assert FirstError(outcomes[3..]) == outcomes[3];
  }

  /** The closing line raises on its embedding field, whatever the scores. */
  lemma ClosingLogRaises(initial: real, s: Scores)
    ensures FirstError(ClosingLog(initial, s)).Some?
    ensures FirstError(ClosingLog(initial, s)) == MultiModal.FormatError(s.embedding, MultiModal.ConditionalSpec("current_emb_sim"))
  {
    var outcomes := ClosingLog(initial, s);
    MultiModal.FourDecimalsFormat(initial);
    MultiModal.FourDecimalsFormat(s.combined);
    MultiModal.ConditionalFormatRaises(s.embedding, "current_emb_sim");
    FirstErrorSkip(outcomes);
    FirstErrorSkip(outcomes[1..]);
    assert outcomes[1..][1..] == outcomes[2..];
    assert FirstError(outcomes[2..]) == outcomes[2];
  }

  /** The message of the exception the line for a rewrite raises. */
  function LoopLogError(current: real, next: Scores): (e: string)
    ensures Some(e) == MultiModal.FormatError(next.embedding, MultiModal.ConditionalSpec("new_emb_sim"))
  {
    LoopLogRaises(current, next);
    FirstError(LoopLog(current, next)).value
  }

  /** The rescoring the loop as written sees: a successful score is followed
      by the log line for the rewrite, which raises inside the `try`. */
  function LoggedRescore(rescore: (nat, string) -> Result<Scores>, current: real): (r: (nat, string) -> Result<Scores>)
    ensures forall k: nat, t: string :: r(k, t).Err?
    ensures forall k: nat, t: string :: rescore(k, t).Err? ==> r(k, t) == rescore(k, t)
    ensures forall k: nat, t: string :: rescore(k, t).Ok? ==> r(k, t) == Err(LoopLogError(current, rescore(k, t).value))
  {
    (k: nat, t: string) =>
      match rescore(k, t)
      case Err(e) => Err(e)
      case Ok(next) => Err(LoopLogError(current, next))
  }

  /** No attempt passes the rescoring as written. */
  lemma NoLoggedStep(texts: seq<string>, history: seq<real>, rewrite: (nat, string) -> Result<string>,
                     rescore: (nat, string) -> Result<Scores>, current: real)
    requires 1 < |texts| && 1 < |history|
    ensures !Step(texts, history, 0, rewrite, LoggedRescore(rescore, current))
  {
    assert LoggedRescore(rescore, current)(0, texts[1]).Err?;
  }

  /** With the rescoring as written no run accepts a rewrite. */
  lemma NoRewriteAccepted(texts: seq<string>, history: seq<real>, initial: Scores,
                          rewrite: (nat, string) -> Result<string>, rescore: (nat, string) -> Result<Scores>)
    requires Accepted(texts, history, initial, rewrite, LoggedRescore(rescore, initial.combined))
    ensures texts == texts[..1] && history == [initial.combined]
  {
    if |texts| > 1 {
      NoLoggedStep(texts, history, rewrite, rescore, initial.combined);
      assert false;
    }
  }

  /** The refinement loop as written: the first rewrite that scores is
      followed by the raising log line and the `except` ends the loop, so the
      draft is never replaced; below the threshold with attempts to spend, it
      stops on a failure or an empty rewrite. */
  method RefineLoopAsWritten(draft: string, initial: Scores, threshold: real, maxAttempts: nat,
                             rewrite: (nat, string) -> Result<string>, rescore: (nat, string) -> Result<Scores>)
    returns (run: Run)
    ensures run.texts == [draft] && run.history == [initial.combined] && run.scores == initial
    ensures initial.combined < threshold && maxAttempts > 0 ==> run.stop.Failed? || run.stop == EmptyRewrite
    ensures initial.combined < threshold && maxAttempts > 0 && rewrite(0, draft).Ok? && !IsBlank(rewrite(0, draft).value)
              && rescore(0, rewrite(0, draft).value).Ok? ==>
      run.stop == Failed(LoopLogError(initial.combined, rescore(0, rewrite(0, draft).value).value))
  {
    run := RefineLoop(draft, initial, threshold, maxAttempts, rewrite, LoggedRescore(rescore, initial.combined));
    NoRewriteAccepted(run.texts, run.history, initial, rewrite, rescore);
  }

  /** From the initial similarity on, as written: a draft at the threshold is
      returned as it is; any other reaches the closing log line after the
      loop, which raises, so the refinement fails. */
  method RefineAsWritten(draft: string, author: string, initial: Scores, cfg: Config,
                         rewrite: (nat, string) -> Result<string>, score: (nat, string) -> Result<Scores>)
    returns (r: Result<PipelineResult>)
    ensures r.Ok? <==> initial.combined >= cfg.similarityThreshold
    ensures r.Ok? ==> r.value.success && r.value.styledBlog == draft && r.value.rewriteAttempts == 0
    ensures r.Err? ==> Some(r.msg) == MultiModal.FormatError(initial.embedding, MultiModal.ConditionalSpec("current_emb_sim"))
  {
    if initial.combined >= cfg.similarityThreshold {
      return Ok(PipelineResult(draft, initial.combined, initial.embedding, initial.llm, 0, Some(author),
                               Some(initial.combined), None, None, None, true));
    }
    var run := RefineLoopAsWritten(draft, initial, cfg.similarityThreshold, cfg.maxRewriteAttempts,
                                   rewrite, Later(score));
    ClosingLogRaises(initial.combined, run.scores);
    r := Err(FirstError(ClosingLog(initial.combined, run.scores)).value);
  }

  /** Matching and refining as written: once the initial similarity is
      computed, the opening log line raises and the outer handler returns the
      draft as a failure. */
  method MatchAndRefineAsWritten(draft: string, cfg: Config, model: StyleEmbedder.StyleModel,
                                 examplesByAuthor: seq<Entry<string, seq<string>>>, enc: StyleEmbedder.Encoder,
                                 score: (nat, string) -> Result<Scores>)
    returns (res: PipelineResult)
    requires |model.centroids| > 0
    ensures !res.success && res.rewriteAttempts == 0 && res.styledBlog == draft && res.error.Some?
  {
    var author, embScore := MatchAuthor(model, enc, draft);
    var examples := ExamplesOf(examplesByAuthor, author);
    if |examples| == 0 {
      return NoExamples(draft, author, embScore);
    }
    var initialScores := score(0, draft);
    if initialScores.Err? {
      return Failure(draft, initialScores.msg);
    }
    OpeningLogRaises(initialScores.value);
    res := Failure(draft, FirstError(OpeningLog(initialScores.value)).value);
  }

  /** `style_refinement_pipeline` as written: no draft ever comes back
      refined; a non-blank one comes back unchanged as a failure. */
  method StyleRefinementPipelineAsWritten(draft: string, cfg: Config, feed: Result<seq<Entry<string, string>>>,
                                          enc: StyleEmbedder.Encoder, score: (nat, string) -> Result<Scores>)
    returns (res: PipelineResult)
    requires cfg.chunkOverlap < cfg.chunkSize
    ensures !res.success && res.rewriteAttempts == 0
    ensures IsBlank(draft) ==> res == NoDraft
    ensures !IsBlank(draft) ==> res.styledBlog == draft && res.error.Some?
  {
    match Setup(draft, cfg, feed, enc)
    case Done(r) =>
      res := r;
    case Ready(model, examples) =>
      res := MatchAndRefineAsWritten(draft, cfg, model, examples, enc, score);
  }
}

=== FILE: text.dfy ===
/**
 The Python string primitives the scoring code relies on, over `string`
 (a sequence of Unicode scalar values, as a Python `str` is a sequence of
 code points): `split()`, `split(sep)`, `join`, `count`, `in`, `strip()`,
 `lower()`, slicing `s[:n]` and single-character `replace`.
 */
module Text {

  /** Python's `str.isspace()` for one character; `split()`, `strip()` and the
      regular-expression class `\s` all use this set. */
  predicate IsSpace(c: char)
  {
    || ('\t' <= c <= '\r')
    || ('\U{1C}' <= c <= '\U{1F}')
    || c == ' ' || c == '\U{85}' || c == '\U{A0}' || c == '\U{1680}'
    || ('\U{2000}' <= c <= '\U{200A}')
    || c == '\U{2028}' || c == '\U{2029}' || c == '\U{202F}' || c == '\U{205F}'
    || c == '\U{3000}'
  }

  /** `not s.strip()`: the string is empty or whitespace only. */
  predicate IsBlank(s: string)
  {
    forall i :: 0 <= i < |s| ==> IsSpace(s[i])
  }

  /** A maximal run of non-whitespace characters, as `split()` produces. */
  predicate IsWord(w: string)
  {
    |w| > 0 && forall i :: 0 <= i < |w| ==> !IsSpace(w[i])
  }

  /** Length of the leading run of non-whitespace characters. */
  function WordLen(s: string): (n: nat)
    ensures n <= |s|
    ensures forall i :: 0 <= i < n ==> !IsSpace(s[i])
    ensures n < |s| ==> IsSpace(s[n])
  {
    if |s| == 0 || IsSpace(s[0]) then 0 else 1 + WordLen(s[1..])
  }

  /** `s.split()` with no argument: the words of `s`, whitespace dropped. */
  function Words(s: string): (ws: seq<string>)
    ensures forall i :: 0 <= i < |ws| ==> IsWord(ws[i])
    ensures |ws| == 0 <==> IsBlank(s)
    decreases |s|
  {
    if |s| == 0 then []
    else if IsSpace(s[0]) then
      assert forall i :: 1 <= i < |s| ==> s[i] == s[1..][i - 1];
      Words(s[1..])
    else
      var n := WordLen(s);
      [s[..n]] + Words(s[n..])
  }

  /** `sep.join(xs)`. */
  function Join(sep: string, xs: seq<string>): string
  {
    if |xs| == 0 then ""
    else if |xs| == 1 then xs[0]
    else xs[0] + sep + Join(sep, xs[1..])
  }

  lemma JoinCons(sep: string, x: string, xs: seq<string>)
    requires |xs| > 0
    ensures Join(sep, [x] + xs) == x + sep + Join(sep, xs)
  {
    assert ([x] + xs)[1..] == xs;
  }

  /** A word followed by whitespace (or nothing) splits off as one word. */
  lemma WordsAfterWord(w: string, t: string)
    requires IsWord(w)
    requires |t| == 0 || IsSpace(t[0])
    ensures Words(w + t) == [w] + Words(t)
  {
    var s := w + t;
    var n := WordLen(s);
    assert forall i :: 0 <= i < |w| ==> s[i] == w[i];
    assert |t| > 0 ==> s[|w|] == t[0];
    assert n == |w|;
    assert s[..n] == w;
    assert s[n..] == t;
  }

  lemma WordsAfterSpace(t: string)
    ensures Words(" " + t) == Words(t)
  {
    assert (" " + t)[1..] == t;
  }

  /** Splitting words joined by single spaces gives the words back. */
  lemma {:induction false} WordsOfJoin(ws: seq<string>)
    requires forall i :: 0 <= i < |ws| ==> IsWord(ws[i])
    ensures Words(Join(" ", ws)) == ws
  {
    if |ws| == 0 {
    } else if |ws| == 1 {
      WordsAfterWord(ws[0], "");
      assert ws[0] + "" == ws[0];
    } else {
      var rest := Join(" ", ws[1..]);
      assert Join(" ", ws) == ws[0] + (" " + rest);
      WordsOfJoin(ws[1..]);
      WordsAfterWord(ws[0], " " + rest);
      WordsAfterSpace(rest);
      assert ws == [ws[0]] + ws[1..];
    }
  }

  /** `s.split(sep)` for a non-empty separator: the pieces between the
      leftmost non-overlapping occurrences of `sep`. */
  function SplitOn(s: string, sep: string): (parts: seq<string>)
    requires |sep| > 0
    ensures |parts| >= 1
    decreases |s|
  {
    if |s| == 0 then [""]
    else if sep <= s then [""] + SplitOn(s[|sep|..], sep)
    else
      var rest := SplitOn(s[1..], sep);
      [[s[0]] + rest[0]] + rest[1..]
  }

  /** Joining the pieces of a split with the same separator restores the text. */
  lemma {:induction false} JoinSplitOn(s: string, sep: string)
    requires |sep| > 0
    ensures Join(sep, SplitOn(s, sep)) == s
    decreases |s|
  {
    if |s| == 0 {
    } else if sep <= s {
      JoinSplitOn(s[|sep|..], sep);
      JoinSplitOnSeparator(s, sep);
    } else {
      JoinSplitOn(s[1..], sep);
      JoinSplitOnChar(s, sep);
    }
  }

  lemma JoinSplitOnSeparator(s: string, sep: string)
    requires |sep| > 0 && |s| > 0 && sep <= s
    requires Join(sep, SplitOn(s[|sep|..], sep)) == s[|sep|..]
    ensures Join(sep, SplitOn(s, sep)) == s
  {
    var t := s[|sep|..];
    SplitOnAtSeparator(s, sep);
    JoinCons(sep, "", SplitOn(t, sep));
    PrefixThenRest(s, sep);
  }

  lemma SplitOnAtSeparator(s: string, sep: string)
    requires |sep| > 0 && |s| > 0 && sep <= s
    ensures SplitOn(s, sep) == [""] + SplitOn(s[|sep|..], sep)
  {
  }

  lemma PrefixThenRest(s: string, p: string)
    requires p <= s
    ensures "" + p + s[|p|..] == s
  {
  }

  lemma JoinSplitOnChar(s: string, sep: string)
    requires |sep| > 0 && |s| > 0 && !(sep <= s)
    requires Join(sep, SplitOn(s[1..], sep)) == s[1..]
    ensures Join(sep, SplitOn(s, sep)) == s
  {
    SplitOnAtChar(s, sep);
    Rejoin(sep, s, SplitOn(s, sep), SplitOn(s[1..], sep));
  }

  /** Pieces of `s[1..]` with `s[0]` put back in front of the first piece
      join to `s`. */
  lemma Rejoin(sep: string, s: string, parts: seq<string>, rest: seq<string>)
    requires |s| > 0 && |rest| > 0
    requires parts == [[s[0]] + rest[0]] + rest[1..]
    requires Join(sep, rest) == s[1..]
    ensures Join(sep, parts) == s
  {
    JoinWithFirstExtended(sep, s[0], rest);
    assert s == [s[0]] + s[1..];
  }

  /** Prepending a character to the first piece prepends it to the joined text. */
  lemma JoinWithFirstExtended(sep: string, c: char, xs: seq<string>)
    requires |xs| > 0
    ensures Join(sep, [[c] + xs[0]] + xs[1..]) == [c] + Join(sep, xs)
  {
    var head := [c] + xs[0];
    if |xs| == 1 {
      assert [head] + xs[1..] == [head];
    } else {
      var tail := xs[1..];
      var j := Join(sep, tail);
      JoinCons(sep, head, tail);
      JoinCons(sep, xs[0], tail);
      assert xs == [xs[0]] + tail;
      assert head + sep + j == [c] + (xs[0] + sep + j);
    }
  }

  lemma SplitOnAtChar(s: string, sep: string)
    requires |sep| > 0 && |s| > 0 && !(sep <= s)
    ensures SplitOn(s, sep) == [[s[0]] + SplitOn(s[1..], sep)[0]] + SplitOn(s[1..], sep)[1..]
  {
  }

  predicate Avoids(x: string, c: char)
  {
    forall j :: 0 <= j < |x| ==> x[j] != c
  }

  /** A text without the separator's first character is a single piece. */
  lemma {:induction false} SplitOnWithoutSeparator(x: string, sep: string)
    requires |sep| > 0 && Avoids(x, sep[0])
    ensures SplitOn(x, sep) == [x]
    decreases |x|
  {
    if |x| > 0 {
      assert x[0] != sep[0];
      SplitOnWithoutSeparator(x[1..], sep);
      SplitOnAtChar(x, sep);
      assert [x[0]] + x[1..] == x;
    }
  }

  /** A separator-free piece followed by the separator splits off as one piece. */
  lemma {:induction false} SplitOnPieceThenSeparator(x: string, sep: string, rest: string)
    requires |sep| > 0 && Avoids(x, sep[0])
    ensures SplitOn(x + sep + rest, sep) == [x] + SplitOn(rest, sep)
    decreases |x|
  {
    var s := x + sep + rest;
    if |x| == 0 {
      assert s == sep + rest;
      assert s[|sep|..] == rest;
      SplitOnAtSeparator(s, sep);
    } else {
      assert s[0] == x[0] && x[0] != sep[0];
      assert s[1..] == x[1..] + sep + rest;
      SplitOnPieceThenSeparator(x[1..], sep, rest);
      SplitOnAtChar(s, sep);
      assert [x[0]] + x[1..] == x;
    }
  }

  /** Splitting pieces joined by a separator whose first character none of
      them contains gives the pieces back. */
  lemma {:induction false} SplitOnJoin(xs: seq<string>, sep: string)
    requires |sep| > 0 && |xs| > 0
    requires forall i :: 0 <= i < |xs| ==> Avoids(xs[i], sep[0])
    ensures SplitOn(Join(sep, xs), sep) == xs
  {
    if |xs| == 1 {
      SplitOnWithoutSeparator(xs[0], sep);
    } else {
      SplitOnJoin(xs[1..], sep);
      SplitOnPieceThenSeparator(xs[0], sep, Join(sep, xs[1..]));
      assert xs == [xs[0]] + xs[1..];
    }
  }

  /** No piece of a split on a one-character separator contains it. */
  lemma {:induction false} SplitOnPiecesAvoid(s: string, sep: string)
    requires |sep| == 1
    ensures forall i :: 0 <= i < |SplitOn(s, sep)| ==> Avoids(SplitOn(s, sep)[i], sep[0])
    decreases |s|
  {
    if |s| == 0 {
    } else if sep <= s {
      SplitOnPiecesAvoid(s[|sep|..], sep);
      SplitOnAtSeparator(s, sep);
    } else {
      assert s[0] != sep[0];
      SplitOnPiecesAvoid(s[1..], sep);
      SplitOnAtChar(s, sep);
    }
  }

  /** Pieces of a split avoid every character the text avoids. */
  lemma {:induction false} SplitOnKeepsAvoidance(s: string, sep: string, c: char)
    requires |sep| > 0 && Avoids(s, c)
    ensures forall i :: 0 <= i < |SplitOn(s, sep)| ==> Avoids(SplitOn(s, sep)[i], c)
    decreases |s|
  {
    if |s| == 0 {
    } else if sep <= s {
      SplitOnKeepsAvoidance(s[|sep|..], sep, c);
      SplitOnAtSeparator(s, sep);
    } else {
      SplitOnKeepsAvoidance(s[1..], sep, c);
      SplitOnAtChar(s, sep);
    }
  }

  /** `s.count(sub)` for a non-empty `sub`: leftmost non-overlapping occurrences. */
  function Count(s: string, sub: string): nat
    requires |sub| > 0
    decreases |s|
  {
    if |s| == 0 then 0
    else if sub <= s then 1 + Count(s[|sub|..], sub)
    else Count(s[1..], sub)
  }

  /** `count` and `split` agree: there is one more piece than occurrences. */
  lemma {:induction false} CountIsSplitPieces(s: string, sub: string)
    requires |sub| > 0
    ensures Count(s, sub) == |SplitOn(s, sub)| - 1
    decreases |s|
  {
    if |s| == 0 {
    } else if sub <= s {
      CountIsSplitPieces(s[|sub|..], sub);
    } else {
      CountIsSplitPieces(s[1..], sub);
    }
  }

  predicate OccursAt(s: string, sub: string, i: nat)
  {
    i + |sub| <= |s| && s[i..i + |sub|] == sub
  }

  /** `sub in s`. */
  predicate Contains(s: string, sub: string)
  {
    exists i: nat :: i <= |s| && OccursAt(s, sub, i)
  }

  /** A string is counted at least once exactly when it occurs. */
  lemma {:induction false} CountPositiveIffContains(s: string, sub: string)
    requires |sub| > 0
    ensures Count(s, sub) > 0 <==> Contains(s, sub)
    decreases |s|
  {
    if |s| == 0 {
    } else if sub <= s {
      assert OccursAt(s, sub, 0);
    } else {
      CountPositiveIffContains(s[1..], sub);
      if Contains(s, sub) {
        assert !OccursAt(s, sub, 0);
        var i: nat :| i <= |s| && OccursAt(s, sub, i);
        assert s[1..][i - 1..i - 1 + |sub|] == s[i..i + |sub|];
        assert OccursAt(s[1..], sub, i - 1);
      }
      if Contains(s[1..], sub) {
        var i: nat :| i <= |s[1..]| && OccursAt(s[1..], sub, i);
        assert s[1..][i..i + |sub|] == s[i + 1..i + 1 + |sub|];
        assert OccursAt(s, sub, i + 1);
      }
    }
  }

  /** Number of leading whitespace characters. */
  function LeadingSpace(s: string): (n: nat)
    ensures n <= |s|
    ensures forall i :: 0 <= i < n ==> IsSpace(s[i])
    ensures n < |s| ==> !IsSpace(s[n])
  {
    if |s| == 0 || !IsSpace(s[0]) then 0 else 1 + LeadingSpace(s[1..])
  }

  /** Number of trailing whitespace characters. */
  function TrailingSpace(s: string): (n: nat)
    ensures n <= |s|
    ensures forall i :: |s| - n <= i < |s| ==> IsSpace(s[i])
    ensures n < |s| ==> !IsSpace(s[|s| - n - 1])
  {
    if |s| == 0 || !IsSpace(s[|s| - 1]) then 0 else 1 + TrailingSpace(s[..|s| - 1])
  }

  /** `s.strip()`: whitespace removed from both ends. */
  function Strip(s: string): (r: string)
    ensures |r| <= |s|
    ensures r == "" <==> IsBlank(s)
    ensures r != "" ==> !IsSpace(r[0]) && !IsSpace(r[|r| - 1])
  {
    var t := s[LeadingSpace(s)..];
    var r := t[..|t| - TrailingSpace(t)];
    assert IsBlank(s) ==> LeadingSpace(s) == |s|;
    assert r != "" ==> r[0] == s[LeadingSpace(s)];
    r
  }

  /** `s[:n]` for a non-negative bound. */
  function Take(s: string, n: nat): (r: string)
    ensures |r| == if n < |s| then n else |s|
    ensures r <= s
  {
    if n < |s| then s[..n] else s
  }

  function LowerChar(c: char): char
  {
    if 'A' <= c <= 'Z' then (c as int + 32) as char else c
  }

  /** `s.lower()` for ASCII letters; other characters are kept. */
  function Lower(s: string): (r: string)
    ensures |r| == |s|
    ensures forall i :: 0 <= i < |s| ==> r[i] == LowerChar(s[i])
  {
    seq(|s|, i requires 0 <= i < |s| => LowerChar(s[i]))
  }

  /** `s.replace(a, b)` for single characters. */
  function ReplaceChar(s: string, a: char, b: char): (r: string)
    ensures |r| == |s|
    ensures forall i :: 0 <= i < |s| ==> r[i] == if s[i] == a then b else s[i]
  {
    seq(|s|, i requires 0 <= i < |s| => if s[i] == a then b else s[i])
  }

  function DigitChar(d: nat): char
    requires d < 10
  {
    ('0' as int + d) as char
  }

  /** `str(n)` for a non-negative integer. */
  function NatToString(n: nat): string
  {
    if n < 10 then [DigitChar(n)] else NatToString(n / 10) + [DigitChar(n % 10)]
  }

  /* ---------------------------------------------------------------------- */
  /* repr() of a str                                                         */
  /* ---------------------------------------------------------------------- */

  /** The quote `repr` puts around a string: double quotes when it holds a
      single quote and no double quote, single quotes otherwise. */
  function ReprQuote(s: string): (q: char)
    ensures q == '"' <==> '\'' in s && '"' !in s
    ensures q == '"' || q == '\''
  {
    if '\'' in s && '"' !in s then '"' else '\''
  }

  function HexDigit(d: nat): char
    requires d < 16
  {
    if d < 10 then DigitChar(d) else ('a' as int + (d - 10)) as char
  }

  /** The value of a lower-case hexadecimal digit. */
  function HexValue(c: char): nat
  {
    if '0' <= c <= '9' then c as int - '0' as int
    else if 'a' <= c <= 'f' then c as int - 'a' as int + 10
    else 0
  }

  lemma HexDigitValue(d: nat)
    requires d < 16
    ensures HexValue(HexDigit(d)) == d
  {
  }

  /** A control character of ASCII, which `repr` writes as `\xhh`. */
  predicate IsAsciiControl(c: char)
  {
    c < ' ' || c == '\U{7F}'
  }

  /** How `repr` writes one ASCII character inside the quote `q`: the quote
      and the backslash are escaped, tab, newline and carriage return by
      name, other controls in hexadecimal; everything else is itself. */
  function EscapeChar(c: char, q: char): (e: string)
    ensures |e| >= 1
    ensures e == [c] <==> c != q && c != '\\' && !IsAsciiControl(c)
  {
    if c == q || c == '\\' then ['\\', c]
    else if c == '\t' then "\\t"
    else if c == '\n' then "\\n"
    else if c == '\r' then "\\r"
    else if IsAsciiControl(c) then
      var n := c as int;
      ['\\', 'x', HexDigit(n / 16), HexDigit(n % 16)]
    else [c]
  }

  function Escaped(s: string, q: char): (r: string)
    ensures |r| >= |s|
  {
    if |s| == 0 then "" else EscapeChar(s[0], q) + Escaped(s[1..], q)
  }

  /** Python's `repr` of a `str`: the escaped characters between the quotes
      it chooses. */
  function StrRepr(s: string): (r: string)
    ensures |r| >= |s| + 2
    ensures r[0] == r[|r| - 1] == ReprQuote(s)
    ensures r[1..|r| - 1] == Escaped(s, ReprQuote(s))
  {
    var q := ReprQuote(s);
    var body := Escaped(s, q);
    assert ([q] + body + [q])[1..|body| + 1] == body;
    [q] + body + [q]
  }

  /** The character an escape names after its backslash. */
  function Unescaped(c: char): char
  {
    if c == 't' then '\t' else if c == 'n' then '\n' else if c == 'r' then '\r' else c
  }

  /** Reading the inside of a `repr` back: the inverse of `Escaped`. */
  function Unescape(r: string): (s: string)
    decreases |r|
  {
    if |r| == 0 then ""
    else if r[0] == '\\' && |r| >= 4 && r[1] == 'x' then
      [(HexValue(r[2]) * 16 + HexValue(r[3])) as char] + Unescape(r[4..])
    else if r[0] == '\\' && |r| >= 2 then [Unescaped(r[1])] + Unescape(r[2..])
    else [r[0]] + Unescape(r[1..])
  }

  /** One escaped character reads back as itself. */
  lemma EscapeCharRoundTrip(c: char, q: char, rest: string)
    requires q == '"' || q == '\''
    ensures Unescape(EscapeChar(c, q) + rest) == [c] + Unescape(rest)
  {
    var e := EscapeChar(c, q);
    if c == q || c == '\\' {
      assert (e + rest)[2..] == rest;
    } else if c == '\t' || c == '\n' || c == '\r' {
      assert (e + rest)[2..] == rest;
    } else if IsAsciiControl(c) {
      var n := c as int;
      HexDigitValue(n / 16);
      HexDigitValue(n % 16);
      assert (e + rest)[4..] == rest;
      assert (HexValue(e[2]) * 16 + HexValue(e[3])) as char == c;
    } else {
      assert (e + rest)[1..] == rest;
    }
  }

  /** Escaping loses nothing: the text between the quotes of a `repr`
      reads back as the string. */
  lemma {:induction false} EscapedRoundTrip(s: string, q: char)
    requires q == '"' || q == '\''
    ensures Unescape(Escaped(s, q)) == s
  {
    if |s| > 0 {
      EscapedRoundTrip(s[1..], q);
      EscapeCharRoundTrip(s[0], q, Escaped(s[1..], q));
    }
  }

  lemma StrReprRoundTrip(s: string)
    ensures var r := StrRepr(s); Unescape(r[1..|r| - 1]) == s
  {
    EscapedRoundTrip(s, ReprQuote(s));
  }

  /** A string without quotes, backslashes or control characters is shown
      as itself in single quotes. */
  lemma ReprPlain(s: string)
    requires forall i :: 0 <= i < |s| ==> s[i] != '\'' && s[i] != '"' && s[i] != '\\' && !IsAsciiControl(s[i])
    ensures StrRepr(s) == "'" + s + "'"
  {
    PlainEscaped(s, '\'');
  }

  /** A string holding a single quote but no double quote, backslash or
      control character is shown as itself in double quotes. */
  lemma ReprDoubleQuoted(s: string)
    requires '\'' in s
    requires forall i :: 0 <= i < |s| ==> s[i] != '"' && s[i] != '\\' && !IsAsciiControl(s[i])
    ensures StrRepr(s) == "\"" + s + "\""
  {
    PlainEscaped(s, '"');
  }

  lemma {:induction false} PlainEscaped(s: string, q: char)
    requires forall i :: 0 <= i < |s| ==> s[i] != q && s[i] != '\\' && !IsAsciiControl(s[i])
    ensures Escaped(s, q) == s
  {
    if |s| > 0 {
      PlainEscaped(s[1..], q);
      assert s == [s[0]] + s[1..];
    }
  }
}

=== FILE: utils.dfy ===
/**
 Text utilities of the style pipeline: the sliding word-window chunker used
 before embedding, the content validator with its ordered checks, and the
 tolerant nested-key lookup.
 */
module Utils {
  import opened Common
  import opened Text

  function Min(a: int, b: int): int
  {
    if a < b then a else b
  }

  /* ---------------------------------------------------------------------- */
  /* Chunking                                                                */
  /* ---------------------------------------------------------------------- */

  /** Words `[start, start + size)` of `words`, clipped at the end, joined by
      single spaces (`" ".join(words[start:start + size])`). */
  function Window(words: seq<string>, start: nat, size: nat): string
    requires start <= |words|
  {
    Join(" ", words[start..Min(start + size, |words|)])
  }

  /** Cursor position after `k` advances of `step` from `i`, that is
      `i + k * step` (see `CursorIsProduct`). */
  function Cursor(i: nat, k: nat, step: nat): nat
  {
    if k == 0 then i else Cursor(i, k - 1, step) + step
  }

  lemma {:induction false} CursorIsProduct(i: nat, k: nat, step: nat)
    ensures Cursor(i, k, step) == i + k * step
  {
    if k > 0 {
      CursorIsProduct(i, k - 1, step);
    }
  }

  /** Advancing once and then `k` times is advancing `k + 1` times. */
  lemma {:induction false} CursorShift(i: nat, k: nat, step: nat)
    ensures Cursor(i + step, k, step) == Cursor(i, k + 1, step)
  {
    if k > 0 {
      CursorShift(i, k - 1, step);
    }
  }

  /** `cs[k]` is `f` at the k-th cursor position from `i`, and each of those
      positions lies below `n`. */
  predicate Sampled<T(==)>(f: nat -> T, n: nat, i: nat, step: nat, cs: seq<T>)
  {
    forall k :: 0 <= k < |cs| ==> Cursor(i, k, step) < n && cs[k] == f(Cursor(i, k, step))
  }

  /** Sampling at `i` and then from `i + step` on is sampling from `i` on. */
  lemma SampledShift<T>(f: nat -> T, n: nat, i: nat, step: nat, rest: seq<T>)
    requires i < n
    requires Sampled(f, n, i + step, step, rest)
    ensures Sampled(f, n, i, step, [f(i)] + rest)
  {
    var cs := [f(i)] + rest;
    forall k | 0 <= k < |cs|
      ensures Cursor(i, k, step) < n && cs[k] == f(Cursor(i, k, step))
    {
      if k > 0 {
        CursorShift(i, k - 1, step);
        assert cs[k] == rest[k - 1];
      }
    }
  }

  /** The window of `size` words starting at a word index. */
  function WindowAt(words: seq<string>, size: nat): nat -> string
  {
    (j: nat) => if j <= |words| then Window(words, j, size) else ""
  }

  /** The windows of the sliding loop once its cursor is at `i`: the k-th
      starts at the k-th cursor position, and there are just enough of them for
      the cursor to pass the last word. */
  predicate WindowsFrom(words: seq<string>, i: nat, size: nat, step: nat, cs: seq<string>)
  {
    && Sampled(WindowAt(words, size), |words|, i, step, cs)
    && Cursor(i, |cs|, step) >= |words|
  }

  /** The chunks produced by the sliding loop once the cursor is at `i`. */
  function ChunksFrom(words: seq<string>, i: nat, size: nat, step: nat): (cs: seq<string>)
    requires step > 0
    ensures WindowsFrom(words, i, size, step, cs)
    decreases |words| - i
  {
    if i >= |words| then []
    else
      var rest := ChunksFrom(words, i + step, size, step);
      SampledShift(WindowAt(words, size), |words|, i, step, rest);
      CursorShift(i, |rest|, step);
      [WindowAt(words, size)(i)] + rest
  }

  /** `chunk_text`: the text itself when it has at most `chunkSize` words,
      otherwise windows of `chunkSize` words whose starts advance by
      `chunkSize - chunkOverlap`. The overlap must stay below the size, or the
      cursor would never advance. */
  function ChunkText(text: string, chunkSize: nat, chunkOverlap: int): (chunks: seq<string>)
    requires chunkOverlap < chunkSize
    ensures text == "" ==> chunks == []
    ensures text != "" && |Words(text)| <= chunkSize ==> chunks == [text]
    ensures |Words(text)| > chunkSize ==>
      |chunks| > 0 && WindowsFrom(Words(text), 0, chunkSize, chunkSize - chunkOverlap, chunks)
  {
    if text == "" then []
    else
      var words := Words(text);
      if |words| <= chunkSize then [text]
      else ChunksFrom(words, 0, chunkSize, chunkSize - chunkOverlap)
  }

  /** Chunk k of the sliding windows over `words` holds exactly the words
      from the k-th cursor on, at most `size` of them. */
  lemma LongChunkWords(words: seq<string>, chunks: seq<string>, size: nat, step: nat, k: nat)
    requires forall i :: 0 <= i < |words| ==> IsWord(words[i])
    requires WindowsFrom(words, 0, size, step, chunks) && k < |chunks|
    ensures Cursor(0, k, step) < |words|
    ensures Words(chunks[k]) == words[Cursor(0, k, step)..Min(Cursor(0, k, step) + size, |words|)]
    ensures |Words(chunks[k])| <= size
  {
    assert chunks[k] == Window(words, Cursor(0, k, step), size);
    WordsOfWindow(words, Cursor(0, k, step), size);
  }

  /** The words of a window are the words it was built from. */
  lemma WordsOfWindow(words: seq<string>, start: nat, size: nat)
    requires forall i :: 0 <= i < |words| ==> IsWord(words[i])
    requires start <= |words|
    ensures Words(Window(words, start, size)) == words[start..Min(start + size, |words|)]
  {
    var slice := words[start..Min(start + size, |words|)];
    forall i | 0 <= i < |slice|
      ensures IsWord(slice[i])
    {
      assert slice[i] == words[start + i];
    }
    WordsOfJoin(slice);
  }

  /** Windows whose starts advance by at most their size (a non-negative
      overlap) skip no word: every word index lies in some chunk's window. */
  lemma WindowsCover(words: seq<string>, size: nat, step: nat, chunks: seq<string>, j: nat)
    requires 0 < step <= size
    requires WindowsFrom(words, 0, size, step, chunks)
    requires j < |words|
    ensures exists k :: 0 <= k < |chunks| && Cursor(0, k, step) <= j < Cursor(0, k, step) + size
  {
    var k := CoveringWindow(|chunks|, step, j, 0);
    assert Cursor(0, k + 1, step) == Cursor(0, k, step) + step;
  }

  /** The last cursor position at or before `j`, searching from `m` on. */
  lemma {:induction false} CoveringWindow(n: nat, step: nat, j: nat, m: nat) returns (k: nat)
    requires m < n
    requires Cursor(0, m, step) <= j < Cursor(0, n, step)
    ensures m <= k < n
    ensures Cursor(0, k, step) <= j < Cursor(0, k + 1, step)
    decreases n - m
  {
    if j < Cursor(0, m + 1, step) {
      k := m;
    } else {
      k := CoveringWindow(n, step, j, m + 1);
    }
  }

  /* ---------------------------------------------------------------------- */
  /* Content validation                                                      */
  /* ---------------------------------------------------------------------- */

  /** `str(n)` for any integer. */
  function IntToString(n: int): string
  {
    if n < 0 then "-" + NatToString(-n) else NatToString(n)
  }

  /** Number of distinct lower-cased words. */
  function UniqueWordCount(text: string): nat
  {
    |set w | w in Words(Lower(text))|
  }

  /** Fewer distinct words than 30% of the word count. */
  predicate IsRepetitive(text: string)
  {
    10 * UniqueWordCount(text) < 3 * |Words(text)|
  }

  /** `validate_content`: `(True, "")`, or `(False, reason)` for the first
      failed check in the order emptiness, minimum words, maximum words
      (both only when `checkWordCount`), repetitiveness. */
  function ValidateContent(text: string, minWordCount: int, maxWordCount: int, checkWordCount: bool)
    : (r: (bool, string))
    ensures IsBlank(text) ==> r == (false, "Content is empty")
    ensures r.0 <==>
      && !IsBlank(text)
      && (checkWordCount ==> minWordCount <= |Words(text)| <= maxWordCount)
      && !IsRepetitive(text)
    ensures r.0 <==> r.1 == ""
    ensures !IsBlank(text) && checkWordCount && |Words(text)| < minWordCount ==>
      r.1 == "Content too short: " + NatToString(|Words(text)|) + " words (min: " + IntToString(minWordCount) + ")"
    ensures !IsBlank(text) && checkWordCount && minWordCount <= |Words(text)| && |Words(text)| > maxWordCount ==>
      r.1 == "Content too long: " + NatToString(|Words(text)|) + " words (max: " + IntToString(maxWordCount) + ")"
    ensures !IsBlank(text) && (checkWordCount ==> minWordCount <= |Words(text)| <= maxWordCount) && IsRepetitive(text) ==>
      r.1 == "Content appears repetitive"
  {
    if IsBlank(text) then (false, "Content is empty")
    else
      var wordCount := |Words(text)|;
      if checkWordCount && wordCount < minWordCount then
        (false, "Content too short: " + NatToString(wordCount) + " words (min: " + IntToString(minWordCount) + ")")
      else if checkWordCount && wordCount > maxWordCount then
        (false, "Content too long: " + NatToString(wordCount) + " words (max: " + IntToString(maxWordCount) + ")")
      else if IsRepetitive(text) then (false, "Content appears repetitive")
      else (true, "")
  }

  /** Loosening the word-count bounds, or switching the count check off,
      never turns accepted content into rejected content. */
  lemma ValidateContentMonotone(text: string, minWordCount: int, maxWordCount: int,
                                looserMin: int, looserMax: int, checkWordCount: bool)
    requires looserMin <= minWordCount && maxWordCount <= looserMax
    requires ValidateContent(text, minWordCount, maxWordCount, checkWordCount).0
    ensures ValidateContent(text, looserMin, looserMax, checkWordCount).0
    ensures ValidateContent(text, minWordCount, maxWordCount, false).0
  {
  }

  /** The verdict reads the text only through its words: two texts with the
      same words, and the same words once lower-cased, get the same verdict. */
  lemma ValidateContentSeesWords(t1: string, t2: string, minWordCount: int, maxWordCount: int, checkWordCount: bool)
    requires Words(t1) == Words(t2) && Words(Lower(t1)) == Words(Lower(t2))
    ensures ValidateContent(t1, minWordCount, maxWordCount, checkWordCount)
         == ValidateContent(t2, minWordCount, maxWordCount, checkWordCount)
  {
    assert IsBlank(t1) <==> IsBlank(t2);
  }

  /* ---------------------------------------------------------------------- */
  /* Nested lookup                                                           */
  /* ---------------------------------------------------------------------- */

  /** A Python value as far as nested lookup can see it: `None`, scalars,
      lists, dicts with string keys, and objects exposing named attributes. */
  datatype Value =
    | Null
    | Bool(b: bool)
    | Int(i: int)
    | Str(s: string)
    | List(items: seq<Value>)
    | Dict(entries: map<string, Value>)
    | Object(attrs: map<string, Value>)

  /** `safe_get_nested(data, *keys, default=default)`: follows `keys` through
      dicts (`get`) and objects (`getattr`), giving `default` as soon as a
      `None`, a missing attribute or an unsupported container is met, and
      `default` for a final `None`. */
  function SafeGetNested(data: Value, keys: seq<string>, default: Value): (r: Value)
    ensures |keys| == 0 ==> r == (if data.Null? then default else data)
    ensures r == default || !r.Null?
    ensures data.Null? ==> r == default
    ensures |keys| == 1 && data.Dict? ==>
      r == (if keys[0] in data.entries && !data.entries[keys[0]].Null? then data.entries[keys[0]] else default)
    ensures |keys| == 1 && data.Object? ==>
      r == (if keys[0] in data.attrs && !data.attrs[keys[0]].Null? then data.attrs[keys[0]] else default)
    ensures |keys| > 0 && (data.Bool? || data.Int? || data.Str? || data.List?) ==> r == default
    decreases |keys|
  {
    if |keys| == 0 then (if data.Null? then default else data)
    else
      match data
      case Null => default
      case Dict(entries) =>
        SafeGetNested(if keys[0] in entries then entries[keys[0]] else Null, keys[1..], default)
      case Object(attrs) =>
        if keys[0] in attrs then SafeGetNested(attrs[keys[0]], keys[1..], default) else default
      case _ => default
  }

  /** A lookup along `k1 + k2` is the lookup along `k2` from wherever `k1` led,
      a failure along `k1` (reported as `None`) ending in the default. */
  lemma {:induction false} SafeGetNestedConcat(data: Value, k1: seq<string>, k2: seq<string>, default: Value)
    ensures SafeGetNested(data, k1 + k2, default) == SafeGetNested(SafeGetNested(data, k1, Null), k2, default)
    decreases |k1|
  {
    if |k1| == 0 {
      assert k1 + k2 == k2;
    } else {
      assert (k1 + k2)[0] == k1[0];
      assert (k1 + k2)[1..] == k1[1..] + k2;
      match data
      case Null =>
      case Dict(entries) =>
        SafeGetNestedConcat(if k1[0] in entries then entries[k1[0]] else Null, k1[1..], k2, default);
      case Object(attrs) =>
        if k1[0] in attrs {
          SafeGetNestedConcat(attrs[k1[0]], k1[1..], k2, default);
        }
      case _ =>
    }
  }
}
